=== FILE: README.md ===
# A verified model of the dashboard's data pipeline

The dashboard is a Dash application with three pages. The core report
(`pages/core.py`) loads bookings and works on them in five steps:

1. Classify each row (`prepare_data`).
2. Narrow the rows by six facets (`filter_data`).
3. Build five count pivots with a "Grand Total" margin and "n (p%)" cells
   (`create_pivot_table`, `update_pivot_tables`).
4. Open the bookings behind a clicked cell (`toggle_booking_details`).
5. Choose the date window of the load (`get_period_date_range`,
   `update_stored_data`).

The feedback page (`pages/feedback.py`) derives a service category and a
source for each check-in. It filters check-ins by date and by three
checklists, and counts them per service category, source or person. It
also lists the check-ins behind a count in a dialog. The login page
(`pages/login.py`) checks credentials, stores a session and gates every
path by the session's allowed pages.

This project restates that pipeline in Dafny. It uses immutable records,
sequences, maps and pure functions, and passes "today" in as a parameter.

| file | module | what it holds |
|---|---|---|
| `common.dfy` | `Common` | options, distinct values, subsequences, selection (`Filter`), S.No numbering |
| `text.dfy` | `Text` | Python's `strip`, `lower`, `title`, `replace`, `str <=`, `str(int)`, the first `\d+` of a text, the `^\d+\s*-\s*` prefix |
| `calendar.dfy` | `Calendar` | Gregorian `(y, m, d)` dates, weekdays, `timedelta` steps |
| `periods.dfy` | `Periods` | the core report's period windows, its custom-range rule, the feedback page's quick dates |
| `booking.dfy` | `Booking` | the booking row, its columns, equality predicates and `count` of ids |
| `classify.dfy` | `Classify` | `np.select` as an ordered rule list, sentinels, both statuses, vehicle collapse, `prepare_data` |
| `category.dfy` | `Category` | the follow-up category cleaning |
| `facets.dfy` | `Facets` | facet filtering shared by both pages |
| `report.dfy` | `Report` | `filter_data` and `update_pivot_tables` |
| `pivot.dfy` | `Pivot` | `create_pivot_table`: counts, margins, "n (p%)" cells, column order and names |
| `drilldown.dfy` | `Drilldown` | `toggle_booking_details` as written, and a corrected cell resolver |
| `sorting.dfy` | `Sorting` | a stable insertion sort by a comparison |
| `feedback.dfy` | `Feedback` | derived columns, date filter, checklist options, filter options, dropdown labels |
| `checkins.dfy` | `Checkins` | `update_table` and `handle_modal` |
| `login.dfy` | `Login` | `authenticate_user` over access rows, `handle_login`, `control_page_access`, the password toggle |

## Model

| member | source | states |
|---|---|---|
| Calendar.DaysInMonth | pages/core.py:98 | `calendar.monthrange`: every month has between 28 and 31 days |
| Calendar.Weekday | pages/core.py:91 | `date.weekday()` lies in 0..6 |
| Calendar.PrevDayOrdinal | pages/core.py:88 | the day before a valid date has an ordinal one smaller |
| Calendar.AddDays | pages/core.py:83 | `d + timedelta(days=k)`: a valid date whose ordinal is `k` more than `d`'s |
| Calendar.AddDaysCompose | pages/core.py:94-95 | adding `a` days and then `b` days is adding `a + b` days |
| Calendar.OrdinalInjective | pages/core.py:89 | two valid dates with the same ordinal are the same date, so `max` on dates is `max` on ordinals |
| Calendar.ThirtyTwoDaysLater | pages/core.py:108 | 32 days after the 1st of a month lands in the following month |
| Calendar.LastOfMonth | pages/core.py:108 | the day before the 1st of the following month is the last day of the month |
| Periods.ParsePeriodName | pages/core.py:85-113 | each period's dropdown value selects that period, and only it |
| Periods.PeriodDateRange | pages/core.py:81-114 | a period's own dropdown value gives exactly that period's window; any other value gives `(None, None)` |
| Periods.PeriodWindowBounds | pages/core.py:81-113 | every recognised period starts no earlier than today − 180 days and no later than today, and does not end before it starts |
| Periods.WeekPeriods | pages/core.py:90-95 | `this_week` is the Monday..Sunday week that contains today; `last_week` is the Monday..Sunday week before it |
| Periods.LastMonthPeriod | pages/core.py:100-104 | `last_month` covers the whole previous month, December of the previous year in January |
| Periods.QuarterPeriod | pages/core.py:105-109 | `this_quarter` runs from the 1st of month 3q−2 to the last day of month 3q |
| Periods.YearPeriod | pages/core.py:110-113 | `this_year` ends on 31 December and starts on 1 January, or 180 days back when 1 January is further back |
| Periods.StoredWindowRules | pages/core.py:978-1006 | stored windows are ordered and start no earlier than today − 180 days; an earlier custom date clears the store; an end before the start is clamped to the start; no dates means today..today |
| Periods.PresetLastWeek | pages/feedback.py:622-625 | the quick `last_week` is the Monday..Sunday week before today's week |
| Periods.PresetToDate | pages/feedback.py:626-628 | `this_month` and `this_year` run from the first of the month or year to today |
| Periods.PresetLastQuarter | pages/feedback.py:629-639 | `last_quarter` is the whole previous calendar quarter; in Q1 it is 1 October..31 December of the previous year |
| Periods.PresetWindowOrdered | pages/feedback.py:617-642 | every quick-date window is ordered and ends no later than today |
| Periods.QuickDates | pages/feedback.py:612-643 | an empty or unknown selection leaves the pickers alone; a preset sets both pickers to its window |
| Classify.SelectFirstWins | pages/core.py:217 | `np.select`: the label of the first condition that holds wins, and the default applies when none holds |
| Classify.ActivityStatusCases | pages/core.py:205-217 | 'Cancelled Booking' iff the comment is in the first list; otherwise 'Other Booking' iff it is in the second; otherwise 'Unknown Status' |
| Classify.ActivityStatusExact | pages/core.py:205-217 | matching is on the whole comment: a comment that only contains a keyword is not recognised |
| Classify.NewStatusIsLadder | pages/core.py:219-228 | the rule list equals the ladder Cancelled, Duplicate, Goaxled, Follow-up, Idle, Others, then 'Unknown Status' |
| Classify.NewStatusFacts | pages/core.py:219-228 | `new_status` is always one of the seven labels, and `flag == 1` gives 'Cancelled' whatever the other fields hold |
| Classify.FollowUpMeansFollowUpStatus | pages/core.py:223 | for a booking that is neither a duplicate nor 'Completed', the follow-up subset's condition holds iff `new_status` is 'Follow-up' |
| Classify.CollapseVehicle | pages/core.py:230-231 | the collapsed vehicle type is '4w', '2w' or 'Others' |
| Classify.CollapseIdempotent | pages/core.py:230-231 | collapsing twice is collapsing once |
| Classify.OrSentinel | pages/core.py:191-197 | '0', '' and ' ' become the field's sentinel, and every other value is kept |
| Classify.PrepareRow | pages/core.py:191-231 | the id, category, status codes and flags are kept; each text field but `city` is kept unless blank, when it gets its sentinel; `city` is stripped and title-cased before that test; `comments` equals `activity_name`; `Activity_Status_Final` is the comment's status and `new_status` the codes' status; the vehicle type is the collapsed one |
| Classify.PrepareRowFacts | pages/core.py:191-228 | a kept row's cleaned text fields are never blank, it is not a re-engagement booking, and its two stored statuses are the ones its own cleaned fields give |
| Classify.PrepareDataFacts | pages/core.py:186-233 | after `prepare_data` no row is a re-engagement booking, and every vehicle type is '4w', '2w' or 'Others' |
| Classify.StoredRows | pages/core.py:1009-1016 | the 'pv' filter removes nothing: the vehicle collapse already maps 'pv' to 'Others', so the stored rows are exactly the prepared rows |
| Category.Clean | pages/core.py:1136-1146 | 0 becomes 'Follow up', a text starting with 'JD -' becomes 'JD Category', and every result has no leading or trailing whitespace |
| Category.CleanNoPrefix | pages/core.py:1146 | a text that starts with neither a digit nor 'JD -' is only stripped |
| Category.CleanNumberedCategory | pages/core.py:1146 | exactly one leading "digits - " prefix is removed: a rest that itself starts "digits -" keeps it |
| Category.CleanEmptyText | pages/core.py:1140-1146 | an empty category cleans to "" |
| Category.CleanBarePrefix | pages/core.py:1146 | a category that is only a numeric prefix ("123 - ", say) cleans to "" |
| Category.CleanStable | pages/core.py:1143-1146 | cleaning a cleaned text again changes nothing unless it starts with a digit or with 'JD -' |
| Booking.ColumnNamedRoundTrip | pages/core.py:822 | every column is found by its own data-frame name |
| Booking.WhereThenWhere | pages/core.py:886-887 | applying the masks one after another is selecting by their conjunction |
| Booking.CountIds | pages/core.py:244-251 | `count` of `booking_id` is at most the number of rows, and equals it iff every row has an id |
| Facets.ApplyFacetsIsFilter | pages/core.py:1070-1081 | the facets applied in turn select, in order, the rows that pass every facet |
| Facets.ApplyFacetsIdempotent | pages/feedback.py:780-785 | facet filtering twice with the same selections is filtering once |
| Report.FilterDataKeeps | pages/core.py:1064-1083 | a row is kept iff it was stored and each non-empty facet lists its value |
| Report.FilterDataSubsequence | pages/core.py:1064-1083 | the kept rows keep their stored order |
| Report.FilterDataIdempotent | pages/core.py:1064-1083 | filtering the filtered rows again with the same selection changes nothing |
| Report.FilterDataNoSelection | pages/core.py:1070-1081 | when every facet is missing or empty, every stored row is kept |
| Report.FollowUps | pages/core.py:1149 | the follow-up subset is exactly the rows with a status code in {3, 4, 5, 6} and `flag == 0` |
| Report.NoDataMessage | pages/core.py:1096-1101 | the warning starts "No data available"; with both dates it is "No data available from S to E." |
| Report.UpdatePivotTables | pages/core.py:1095-1166 | the warning is shown iff no row is filtered, and the pivots are shown otherwise |
| Report.NonConversionSource | pages/core.py:1123-1133 | a non-conversion pivot counts exactly the non-pv rows with its activity status |
| Report.ServiceCornerCountsAll | pages/core.py:1108-1111 | with no pv rows, the service pivot's corner counts every filtered row that has an id |
| Pivot.CellIsCount | pages/core.py:244-251 | every cell of the table, margins included, is the length of the selection of source rows that have an id, the cell's row key (unless a margin row) and its column value (unless the margin column) |
| Pivot.ColKeys | pages/core.py:244-251 | the table's columns are the column values present in the source rows, each once, in text order as `pivot_table` sorts them |
| Pivot.PivotCounts | pages/core.py:235-251 | no table for empty input or when the condition leaves nothing; otherwise every row key crossed with every column key, plus margins |
| Pivot.PivotRowMargins | pages/core.py:244-251 | each row's category counts add up to its "Grand Total" |
| Pivot.PivotColumnMargins | pages/core.py:244-251 | the "Grand Total" row is the column-wise sum of the rows |
| Pivot.PivotCorner | pages/core.py:244-251 | the corner is both the sum of the "Grand Total" column and the sum of the "Grand Total" row |
| Pivot.CornerCountsIds | pages/core.py:244-251 | the corner equals the number of source rows that have an id |
| Pivot.Percent | pages/core.py:253 | a share exists iff the row total is non-zero; it lies between 0 and 100 when the count is at most the total, and is 100 for the total itself; `Pivot.ShareWithinRow` applies it to a table cell and its row's "Grand Total" |
| Pivot.ShareWithinRow | pages/core.py:242-253 | in every row of a computed pivot, margin row included, a cell counts at most the row's "Grand Total", so its share of that total exists iff the total is non-zero and lies in 0..100 percent; the "Grand Total" column's share is 100 |
| Pivot.RowSharesAddUp | pages/core.py:242-253 | the shares of a row's value columns add up to 100 percent of the row's "Grand Total", in data rows and in the margin row |
| Pivot.ShownCell | pages/core.py:252-257 | the text shown for a cell reads back, through its first digit run, as the pivot's count; outside the "Grand Total" column it is the count followed by " (" and the share |
| Drilldown.ShownCellCount | pages/core.py:876-881 | clicking a cell as the pivot shows it, the drill-down reads back exactly that cell's count |
| Pivot.RenderReadsBack | pages/core.py:256-258 | the leading integer of a rendered "n (p%)" cell is n |
| Pivot.ArrangePermutes | pages/core.py:262-277 | the ordered columns are the available columns, each once, with the index columns first |
| Pivot.OrderColumnsPermutes | pages/core.py:262-277 | the same for the dashboard's preferred order of margin and statuses |
| Pivot.ArrangeFirstPreferred | pages/core.py:266-271 | the first preferred column that is available comes right after the index columns |
| Pivot.TotalLeadsFollowsIndex | pages/core.py:262-286 | after renaming, 'Total Leads' comes right after the index columns |
| Pivot.DisplayColumns | pages/core.py:278-286 | each header is the display name of the column at that position of the reordering, and there are as many headers as ordered columns |
| Pivot.DisplayedHeaders | pages/core.py:260-286 | with distinct frame columns, the header starts with the index columns' display names and shows the display name of every frame column and nothing else |
| Drilldown.RowPredsMeaning | pages/core.py:838-855 | the row predicates keep exactly the rows that equal the clicked row on each displayed column |
| Drilldown.StatusPreds | pages/core.py:864-874 | a status column selects that `new_status`; 'Total Leads' and every other column select nothing |
| Drilldown.SuffixPreds | pages/core.py:857-862 | a 'cancelled' or 'other' table pins its activity status, and other tables pin nothing |
| Drilldown.FollowUpColumnPreds | pages/core.py:818-828 | a vehicle type present in the follow-up rows selects it; otherwise a frame column selects by the clicked row's value; otherwise nothing |
| Drilldown.CategoryPreds | pages/core.py:830-834 | a follow-up row selects `cleaned_category` when it is non-empty, else its displayed 'Category' when that is non-empty, and otherwise selects no category at all |
| Drilldown.ResolvePreds | pages/core.py:807-874 | the callback fails, and falls back to its default return, iff a non-follow-up, non-margin row has a 'Category' column |
| Drilldown.CellCount | pages/core.py:876-881 | the cell's first digit run is its count; a missing or digit-free cell reads 0 |
| Drilldown.ToggleBookingDetails | pages/core.py:772-892 | empty input gives nothing; "No Data Found" only for a zero cell; shown rows are non-empty, come from the filtered rows and are numbered 1..N |
| Drilldown.RecordsAreSelection | pages/core.py:886-892 | the shown rows are the frame's rows satisfying every predicate, in order, and a subsequence of the filtered rows |
| Drilldown.GrandTotalTotalLeads | pages/core.py:807-874 | in the service, person and source pivots, "Grand Total" × "Total Leads" shows every filtered row |
| Drilldown.OthersColumnQuirk | pages/core.py:864-874 | in a non-conversion table, the 'Others' vehicle column is read as the status 'Others': the cell counts 1, yet the drill-down finds no record |
| Drilldown.VehicleColumnQuirk | pages/core.py:864-874 | a '2w' column of a non-conversion table adds no vehicle predicate: the cell counts 1, yet the drill-down lists 2 rows |
| Drilldown.ResolveCellMatchesCell | pages/core.py:244-251 | resolving a cell by its own keys yields exactly as many ids as the cell shows, for every cell of every pivot |
| Drilldown.ConversionClickSelects | pages/core.py:838-892 | in the service, person and source pivots, a data row's status-map column lists the rows behind that cell, and any other column lists the rows behind the row's "Total Leads" cell |
| Drilldown.ConversionStatusCellAgrees | pages/core.py:838-892 | in those pivots, a status-map column's drill-down lists as many ids as the clicked cell counts, and finds nothing only for a zero cell |
| Drilldown.FollowUpClickSelects | pages/core.py:816-892 | in the follow-up pivot, a data row with a non-empty category lists the rows behind the clicked cell: that category and vehicle type for a vehicle column present in the follow-up rows, and the whole category for "Total Leads" |
| Drilldown.EmptyCategoryQuirk | pages/core.py:830-834 | a follow-up row whose category cleaned to "" adds no category predicate: its '2w' cell counts 1, yet the drill-down lists every follow-up '2w' booking |
| Drilldown.UnknownStatusQuirk | pages/core.py:864-874 | the service pivot's 'Unknown Status' column adds no status predicate: the cell counts 1, yet the drill-down lists 2 rows |
| Text.Strip | pages/core.py:230 | `str.strip()`: a slice of the text with only whitespace cut on either side, and neither starting nor ending with whitespace |
| Text.StripIdempotent | pages/core.py:1146 | stripping twice is stripping once |
| Text.TitleAt | pages/feedback.py:147 | `str.title()`: a cased character is upper-cased after an uncased one and lower-cased after a cased one |
| Text.TitleIdempotent | pages/feedback.py:147 | title-casing twice is title-casing once |
| Text.StrLeTotal | pages/feedback.py:157 | any two texts are ordered one way or the other |
| Text.StrLeAntisymmetric | pages/feedback.py:157 | two texts ordered both ways are equal |
| Text.NatToStringRoundTrip | pages/core.py:258 | reading back the digits `str(n)` writes gives n |
| Text.FirstDigitRunOfNumber | pages/core.py:878-881 | the first `\d+` of a text that starts with `str(n)` and then a non-digit is n |
| Text.FirstDigitRun | pages/core.py:878-881 | there is no digit run iff the text has no digit |
| Text.StripNumberDashPrefixOf | pages/core.py:1146 | `^\d+\s*-\s*` removes exactly "digits, spaces, dash, spaces" in front of the rest |
| Sorting.SortBySorted | pages/feedback.py:157 | under a total comparison the sorted sequence is ordered |
| Sorting.SortBy | pages/feedback.py:157 | sorting is a permutation: same length, same multiset |
| Feedback.CategoryEnd | pages/feedback.py:146 | the lazy group ends at the first `\s\d` or end of text it can reach, and no earlier position qualifies |
| Feedback.ServiceCategoryNumbered | pages/feedback.py:146 | "name, whitespace, digits…" gives the name as the service category |
| Feedback.ServiceCategoryPlain | pages/feedback.py:146 | a service name with no whitespace-digit and no newline is its own category |
| Feedback.SourceShape | pages/feedback.py:147 | a derived source has no underscore, and each of its characters is the title-cased raw character |
| Feedback.SourceStable | pages/feedback.py:147 | deriving the source again from a derived source changes nothing |
| Feedback.FilterByDate | pages/feedback.py:722-725 | a check-in is kept iff its date is known and lies between the two dates, both included |
| Feedback.ChecklistOptions | pages/feedback.py:154-157 | None and 0 are dropped; the options are sorted by their text, labelled with it, and hold exactly the offered values |
| Feedback.ChecklistOptionsPermutes | pages/feedback.py:154-157 | each offered value appears as often as it was given |
| Feedback.PresentKeys | pages/feedback.py:739-741 | `dropna().unique()`: each present value once, and only present values |
| Feedback.UpdateFilterOptions | pages/feedback.py:705-757 | "Clear" clears everything; missing dates change nothing; an empty range gives the "No data available from S to E" message; otherwise the loaded rows are the date filter's rows |
| Feedback.EmptyRangeIff | pages/feedback.py:722-737 | the message is shown iff no check-in falls in the range |
| Feedback.LoadedSourcesComeFromRows | pages/feedback.py:739 | every offered source is the source of a check-in in the range |
| Feedback.DropdownLabel | pages/feedback.py:665-670 | with nothing selected the label is the placeholder; otherwise it starts with its noun and " (" |
| Feedback.LabelReadsBack | pages/feedback.py:668-670 | the number in a label is the number of selected values |
| Feedback.UpdateLabels | pages/feedback.py:663-674 | the three selections are reset iff "Clear" triggered the callback |
| Checkins.Narrow | pages/feedback.py:780-785 | a check-in is kept iff each non-empty checklist lists its source, service category and person |
| Checkins.GroupColumn | pages/feedback.py:790-795 | 'service' groups by service category, 'source' by source, and any other tab by person |
| Checkins.UpdateTable | pages/feedback.py:772-822 | the table is hidden iff the filter was not applied or no check-in survives; otherwise it ends with the "Grand Total" row |
| Checkins.GroupedTableDescending | pages/feedback.py:149-152 | the groups run from the largest count to the smallest |
| Checkins.GroupedTableMembers | pages/feedback.py:149-152 | a (key, n) pair is listed iff some check-in has that group value and n counts that group's check-ins with an id |
| Checkins.GrandTotalCountsIds | pages/feedback.py:815-821 | the "Grand Total" is the number of shown check-ins with a booking id and a group value |
| Checkins.HandleModal | pages/feedback.py:845-887 | close or overlay hides the dialog; it opens only for a click in the 'count' column; the rows are numbered 1..N and come from the checklist-filtered rows in order |
| Checkins.DialogMatchesTable | pages/feedback.py:857-887 | a group's dialog lists exactly that group's check-ins, and as many of them have a booking id as the table's count |
| Checkins.GrandTotalDialog | pages/feedback.py:879-881 | the "Grand Total" dialog lists every filtered check-in and its title gives their number |
| Checkins.GrandTotalDialogCountsMore | pages/feedback.py:150-152 | a person-less check-in is in no "Person" group, so the total cell reads 0 while the "Grand Total" dialog lists it |
| Login.Authenticate | pages/login.py:30-62 | a database error iff the database cannot be used; no match iff no active row has the id and password; otherwise the name comes from a matching row |
| Login.AllowedPages | pages/login.py:51-57 | the allowed pages are exactly the pages of the agent's active rows, each once |
| Login.FoundUserHasPages | pages/login.py:46-57 | a user found by the lookup has at least one page |
| Login.HandleLogin | pages/login.py:191-215 | missing fields fail first; then a database error, invalid credentials and no pages in that order; a success redirects to "/" with a logged-in session holding the username, the pages, and the user's name or, without a name key, the username |
| Login.LoginStoresAccountName | pages/login.py:40-62 | with the lookup over the access table, the session's name is the name of an active row that matched the credentials |
| Login.MissingFieldsSkipLookup | pages/login.py:192-193 | with a field missing, the outcome does not depend on the lookup |
| Login.ControlPageAccess | pages/login.py:238-253 | '/login' always shows the login form; a page opens only for a logged-in session |
| Login.AccessIsAllowedPages | pages/login.py:248-253 | a logged-in session opens '/' and its allowed pages, and gets the permission alert everywhere else |
| Login.LoginOpensAllowedPages | pages/login.py:203-215 | after a successful login the redirect target and every allowed page open |
| Login.NoSessionNoPage | pages/login.py:244-245 | without a logged-in session no page opens |
| Login.TogglePassword | pages/login.py:225-229 | 'password' becomes 'text' with the slashed eye; anything else becomes 'password' with the plain eye |
| Login.ToggleTwice | pages/login.py:225-229 | two toggles bring 'password' back to 'password' and 'text' back to 'text' |

## Left out

- SQL, connections, configuration and the `+05:30` shift inside the queries. The loaded rows are a parameter.
- The module-level load of the feedback page. Only its two derived columns are modelled.
- Dash layouts, styles, component trees and `create_pivot_table_component`.
- Callback-context plumbing: which input fired and the table-index lookup of the drill-down. The trigger and the clicked table's suffix, columns, row and column id are parameters.
- The drill-down's column lists and the dialog's display columns and aliases. These are presentation.
- CSV export and download callbacks.
- `clear_filters` and the core page's `update_filter_options`. These are option lists and resets with no rule beyond `unique()`.
- `index.py`. Its gate repeats `control_page_access`. The logout button stores a bare `True` in the session store; `Login.ControlPageAccess` models that value as `Flag(true)`, and then the callback fails on `get`.
- Pivot.Percent: the share is an exact fraction (`Pivot.Ratio`, count times 100 over the row total). Python's float division, `round(2)` and the text of the share are not modelled. `Pivot.Render` and `Pivot.ShownCell` take the share's text as a parameter.
- Pivot.RowKeys: row keys are in order of first appearance, whereas `pivot_table` sorts them, so the order of a table's data rows is not modelled. The counts, margins and header do not depend on it. Column keys are sorted (`Pivot.ColKeys`).
- Login.Authenticate: the id and password compare by exact text equality. MySQL's `=` follows the table's collation, which is not part of this model; a case-insensitive or trailing-space-padding collation would match more rows.
- Drilldown.FollowUpColumnPreds: the numeric-dtype branch (`df[column_id] > 0`) and the `week_label` branch are not modelled. All modelled columns hold text, and the follow-up frame has no `week_label`.
- Checkins.GroupedTable: pandas sorts counts with an unstable sort. The model sorts keys by text, then stably by count, so the order of equal counts is a choice.
- Text.IsDigit: digits, case and `title()` are ASCII only. Python's Unicode digits, cased letters and case mappings are not modelled. Whitespace follows Python's `isspace`.
- `authenticate_user`'s database access is a parameter. Either a `connected` flag over a sequence of access rows, or an arbitrary lookup function in `Login.HandleLogin`. `LIMIT 1` takes the first matching row; SQL gives no order.
- pandas dtype inference: a value is either text or a number, as the cleaning steps need, and dates are already parsed.

Two details of the code the model follows:

- The follow-up pivot is also built with the condition `vehicle_type != 'pv'` (pages/core.py:1161).
- The session's `name` defaults to the username only when the user record has no `name` key (pages/login.py:212). The lookup always selects `name`, so a null name stays null.

## Findings

| source | as written | input that shows it | evidently intended | confidence | as-written member | corrected member |
|---|---|---|---|---|---|---|
| pages/core.py:864-874 | a non-conversion table's vehicle column 'Others' is looked up in the status map and selects `new_status == 'Others'` | one cancelled booking with vehicle 'Others' and `new_status` 'Cancelled': the cell reads 1 and the drill-down says "No Matching Records Found" | the clicked cell's column key selects the vehicle type, so the drill-down lists the rows the cell counts | not executed | Drilldown.OthersColumnQuirk | Drilldown.ResolveCellMatchesCell |
| pages/core.py:864-874 | a non-conversion table's '2w' or '4w' column adds no predicate | one cancelled '2w' booking and one '4w' booking with the same comment: the '2w' cell reads 1 and the drill-down lists 2 rows | as above | not executed | Drilldown.VehicleColumnQuirk | Drilldown.ResolveCellMatchesCell |
| pages/core.py:864-874 | a conversion table's 'Unknown Status' column is no key of the status map and adds no predicate | one 'Unknown Status' booking and one 'Goaxled' booking of the same service: the service pivot's 'Unknown Status' cell reads 1 and the drill-down lists 2 rows | as above | not executed | Drilldown.UnknownStatusQuirk | Drilldown.ResolveCellMatchesCell |
| pages/core.py:832-834 | the follow-up row's category is added only when it is truthy, so a category that cleaned to "" (a database value of '' or '123 - ', say) adds no predicate | two follow-up '2w' bookings, one whose category cleans to "" and one of another category: the "" row's '2w' cell reads 1 and the drill-down lists 2 rows | the row key "" selects the rows whose cleaned category is "" | not executed | Drilldown.EmptyCategoryQuirk | Drilldown.ResolveCellMatchesCell |

=== FILE: booking.dfy ===
/** A booking row of the core report as the pipeline sees it after
    `prepare_data`, the columns the report filters and groups by, and
    row selection by a conjunction of column predicates. */
module Booking {
  import opened Common
  import Category

  /** One record of the core report's data frame. Text fields hold what
      `astype(str)` produced; the status codes and flags are integers. */
  datatype Row = Row(
    bookingId: Option<int>,
    masterService: string,
    serviceType: string,
    crmAdminName: string,
    userSource: string,
    activityName: string,
    city: string,
    comments: string,
    vehicleType: string,
    category: Category.Cell,
    bookingStatusCode: int,
    flag: int,
    flagUnwntd: int,
    axleFlag: int,
    serviceStatusCode: string,
    activityStatusFinal: string,
    newStatus: string)

  /** The text columns the report filters, groups and drills down by.
      `CleanedCategory` is derived from `category` on demand, as both the
      follow-up pivot and its drill-down do. */
  datatype Column =
    | MasterService | ServiceType | CrmAdminName | UserSource | ActivityName
    | City | Comments | VehicleType | ActivityStatusFinal | NewStatus | CleanedCategory

  function Get(r: Row, c: Column): string {
    match c
    case MasterService => r.masterService
    case ServiceType => r.serviceType
    case CrmAdminName => r.crmAdminName
    case UserSource => r.userSource
    case ActivityName => r.activityName
    case City => r.city
    case Comments => r.comments
    case VehicleType => r.vehicleType
    case ActivityStatusFinal => r.activityStatusFinal
    case NewStatus => r.newStatus
    case CleanedCategory => Category.Clean(r.category)
  }

  /** The data frame's name for each column. */
  function ColumnName(c: Column): string {
    match c
    case MasterService => "master_service"
    case ServiceType => "service_type"
    case CrmAdminName => "crm_admin_name"
    case UserSource => "user_source"
    case ActivityName => "activity_name"
    case City => "city"
    case Comments => "comments"
    case VehicleType => "vehicle_type"
    case ActivityStatusFinal => "Activity_Status_Final"
    case NewStatus => "new_status"
    case CleanedCategory => "cleaned_category"
  }

  /** The column a data-frame name refers to (`name in df.columns`). */
  function ColumnNamed(name: string): (r: Option<Column>)
    ensures r.Some? ==> ColumnName(r.value) == name
    ensures r.None? ==> forall c: Column :: ColumnName(c) != name
  {
    if name == "master_service" then Some(MasterService)
    else if name == "service_type" then Some(ServiceType)
    else if name == "crm_admin_name" then Some(CrmAdminName)
    else if name == "user_source" then Some(UserSource)
    else if name == "activity_name" then Some(ActivityName)
    else if name == "city" then Some(City)
    else if name == "comments" then Some(Comments)
    else if name == "vehicle_type" then Some(VehicleType)
    else if name == "Activity_Status_Final" then Some(ActivityStatusFinal)
    else if name == "new_status" then Some(NewStatus)
    else if name == "cleaned_category" then Some(CleanedCategory)
    else None
  }

  /** Column names are distinct, so a column is found by its own name. */
  lemma ColumnNamedRoundTrip(c: Column)
    ensures ColumnNamed(ColumnName(c)) == Some(c)
  {
    var r := ColumnNamed(ColumnName(c));
    assert r.Some?;
  }

  /** A boolean mask over rows: `df[col] == v`, `df[col] != v`, or a
      comparison with a missing value, which no row satisfies. */
  datatype Pred = Eq(col: Column, value: string) | Ne(col: Column, value: string) | Never

  predicate Holds(p: Pred, r: Row) {
    match p
    case Eq(c, v) => Get(r, c) == v
    case Ne(c, v) => Get(r, c) != v
    case Never => false
  }

  predicate HoldsAll(ps: seq<Pred>, r: Row) {
    forall i :: 0 <= i < |ps| ==> Holds(ps[i], r)
  }

  /** The rows satisfying every predicate, in their original order. */
  function Where(rows: seq<Row>, ps: seq<Pred>): (r: seq<Row>)
    ensures |r| <= |rows|
    ensures forall x :: x in r <==> x in rows && HoldsAll(ps, x)
  {
    Filter(rows, x => HoldsAll(ps, x))
  }

  /** Selecting with the masks one after another (`for c in conds:
      df = df[c]`) is selecting with their conjunction. */
  lemma WhereThenWhere(rows: seq<Row>, ps: seq<Pred>, qs: seq<Pred>)
    ensures Where(Where(rows, ps), qs) == Where(rows, ps + qs)
  {
    forall x: Row
      ensures HoldsAll(ps + qs, x) == (HoldsAll(ps, x) && HoldsAll(qs, x))
    {
      if HoldsAll(ps, x) && HoldsAll(qs, x) {
        forall i | 0 <= i < |ps + qs|
          ensures Holds((ps + qs)[i], x)
        {
          if i >= |ps| {
            assert (ps + qs)[i] == qs[i - |ps|];
          }
        }
      }
      if HoldsAll(ps + qs, x) {
        forall i | 0 <= i < |qs|
          ensures Holds(qs[i], x)
        {
          assert (ps + qs)[|ps| + i] == qs[i];
        }
        forall i | 0 <= i < |ps|
          ensures Holds(ps[i], x)
        {
          assert (ps + qs)[i] == ps[i];
        }
      }
    }
    FilterConj(rows, x => HoldsAll(ps, x), x => HoldsAll(qs, x), x => HoldsAll(ps + qs, x));
  }

  /** No predicate keeps every row. */
  lemma WhereNothing(rows: seq<Row>)
    ensures Where(rows, []) == rows
  {
    FilterAll(rows, x => HoldsAll([], x));
  }

  /** Selection keeps the order of the rows it keeps. */
  lemma WhereSubsequence(rows: seq<Row>, ps: seq<Pred>)
    ensures IsSubsequence(Where(rows, ps), rows)
  {
    FilterSubsequence(rows, x => HoldsAll(ps, x));
  }

  /** `count` of `booking_id`: the rows whose id is present. */
  function CountIds(rows: seq<Row>): (n: nat)
    ensures n <= |rows|
    ensures n == |rows| <==> forall i :: 0 <= i < |rows| ==> rows[i].bookingId.Some?
    decreases |rows|
  {
    if rows == [] then 0
    else (if rows[0].bookingId.Some? then 1 else 0) + CountIds(rows[1..])
  }
}

=== FILE: calendar.dfy ===
/** Proleptic Gregorian dates as Python's `datetime.date` handles them:
    day counts per month, `toordinal`, `weekday`, and `date + timedelta(days=k)`
    computed by stepping one day at a time, so that `replace(day=1)` and
    friends can be applied to the results exactly as the dashboard does. */
module Calendar {

  datatype Date = Date(year: int, month: int, day: int)

  predicate IsLeap(y: int) {
    y % 4 == 0 && (y % 100 != 0 || y % 400 == 0)
  }

  /** `calendar.monthrange(y, m)[1]`. */
  function DaysInMonth(y: int, m: int): (n: int)
    requires 1 <= m <= 12
    ensures 28 <= n <= 31
  {
    if m == 2 then (if IsLeap(y) then 29 else 28)
    else if m == 4 || m == 6 || m == 9 || m == 11 then 30
    else 31
  }

  predicate Valid(d: Date) {
    1 <= d.month <= 12 && 1 <= d.day <= DaysInMonth(d.year, d.month)
  }

  /** Days before 1 January of year `y`, counted from 1 January of year 1. */
  function DaysBeforeYear(y: int): int {
    var p := y - 1;
    365 * p + p / 4 - p / 100 + p / 400
  }

  /** Days of year `y` before the first of month `m` (`m == 13` gives the year length). */
  function DaysBeforeMonth(y: int, m: int): int
    requires 1 <= m <= 13
  {
    var leap := if IsLeap(y) && m > 2 then 1 else 0;
    leap + (
      if m == 1 then 0 else if m == 2 then 31 else if m == 3 then 59
      else if m == 4 then 90 else if m == 5 then 120 else if m == 6 then 151
      else if m == 7 then 181 else if m == 8 then 212 else if m == 9 then 243
      else if m == 10 then 273 else if m == 11 then 304 else if m == 12 then 334
      else 365)
  }

  /** Python's `date.toordinal()`: 0001-01-01 is day 1. */
  function Ordinal(d: Date): int
    requires Valid(d)
  {
    DaysBeforeYear(d.year) + DaysBeforeMonth(d.year, d.month) + d.day
  }

  /** Python's `date.weekday()`: Monday is 0 and Sunday is 6. */
  function Weekday(d: Date): (r: int)
    requires Valid(d)
    ensures 0 <= r < 7
  {
    (Ordinal(d) + 6) % 7
  }

  /** Each of the three divisions in `DaysBeforeYear` steps by one exactly at multiples. */
  lemma DivSteps(y: int)
    ensures y / 4 - (y - 1) / 4 == if y % 4 == 0 then 1 else 0
    ensures y / 100 - (y - 1) / 100 == if y % 100 == 0 then 1 else 0
    ensures y / 400 - (y - 1) / 400 == if y % 400 == 0 then 1 else 0
  {
    var q4, q100, q400 := y / 4, y / 100, y / 400;
    assert y == 4 * q4 + y % 4;
    assert y == 100 * q100 + y % 100;
    assert y == 400 * q400 + y % 400;
  }

  /** A year has 366 days when it is a leap year and 365 otherwise. */
  lemma YearLength(y: int)
    ensures DaysBeforeYear(y + 1) == DaysBeforeYear(y) + DaysBeforeMonth(y, 13)
  {
    DivSteps(y);
    DivisibilityChain(y);
    assert DaysBeforeYear(y + 1) == 365 * y + y / 4 - y / 100 + y / 400;
    assert DaysBeforeYear(y) == 365 * (y - 1) + (y - 1) / 4 - (y - 1) / 100 + (y - 1) / 400;
  }

  /** A multiple of 400 is a multiple of 100, and a multiple of 100 a multiple of 4. */
  lemma DivisibilityChain(y: int)
    ensures y % 400 == 0 ==> y % 100 == 0
    ensures y % 100 == 0 ==> y % 4 == 0
  {
    if y % 400 == 0 {
      var q := y / 400;
      assert y == 100 * (4 * q);
    }
    if y % 100 == 0 {
      var q := y / 100;
      assert y == 4 * (25 * q);
    }
  }

  /** The day after `d`. */
  function NextDay(d: Date): (r: Date)
    requires Valid(d)
    ensures Valid(r)
  {
    if d.day < DaysInMonth(d.year, d.month) then Date(d.year, d.month, d.day + 1)
    else if d.month < 12 then Date(d.year, d.month + 1, 1)
    else Date(d.year + 1, 1, 1)
  }

  /** The day before `d`. */
  function PrevDay(d: Date): (r: Date)
    requires Valid(d)
    ensures Valid(r)
  {
    if d.day > 1 then Date(d.year, d.month, d.day - 1)
    else if d.month > 1 then Date(d.year, d.month - 1, DaysInMonth(d.year, d.month - 1))
    else Date(d.year - 1, 12, 31)
  }

  lemma NextDayOrdinal(d: Date)
    requires Valid(d)
    ensures Ordinal(NextDay(d)) == Ordinal(d) + 1
  {
    if d.day < DaysInMonth(d.year, d.month) {
    } else if d.month < 12 {
      assert DaysBeforeMonth(d.year, d.month + 1) == DaysBeforeMonth(d.year, d.month) + d.day;
    } else {
      YearLength(d.year);
      assert Ordinal(NextDay(d)) == DaysBeforeYear(d.year + 1) + 1;
    }
  }

  lemma PrevDayOrdinal(d: Date)
    requires Valid(d)
    ensures Ordinal(PrevDay(d)) == Ordinal(d) - 1
  {
    if d.day > 1 {
    } else if d.month > 1 {
      assert DaysBeforeMonth(d.year, d.month) == DaysBeforeMonth(d.year, d.month - 1) + DaysInMonth(d.year, d.month - 1);
    } else {
      YearLength(d.year - 1);
      assert Ordinal(PrevDay(d)) == DaysBeforeYear(d.year - 1) + DaysBeforeMonth(d.year - 1, 13);
    }
  }

  /** Later years start later: each year adds at least 365 days. */
  lemma {:induction false} YearsAscend(a: int, b: int)
    requires a <= b
    ensures DaysBeforeYear(a) + 365 * (b - a) <= DaysBeforeYear(b)
    decreases b - a
  {
    if a < b {
      YearsAscend(a, b - 1);
      YearLength(b - 1);
    }
  }

  /** A valid date's ordinal lies inside its own year. */
  lemma OrdinalWithinYear(d: Date)
    requires Valid(d)
    ensures DaysBeforeYear(d.year) < Ordinal(d) <= DaysBeforeYear(d.year + 1)
  {
    YearLength(d.year);
  }

  /** Two valid dates with the same ordinal are the same date. */
  lemma OrdinalInjective(a: Date, b: Date)
    requires Valid(a) && Valid(b) && Ordinal(a) == Ordinal(b)
    ensures a == b
  {
    OrdinalWithinYear(a);
    OrdinalWithinYear(b);
    if a.year < b.year {
      YearsAscend(a.year + 1, b.year);
    } else if b.year < a.year {
      YearsAscend(b.year + 1, a.year);
    }
    assert a.year == b.year;
  }

  /** The date whose ordinal is `t`, reached from `d` one day at a time. */
  function Walk(d: Date, t: int): (r: Date)
    requires Valid(d)
    ensures Valid(r) && Ordinal(r) == t
    decreases if t >= Ordinal(d) then t - Ordinal(d) else Ordinal(d) - t
  {
    if Ordinal(d) == t then d
    else if Ordinal(d) < t then
      NextDayOrdinal(d);
      Walk(NextDay(d), t)
    else
      PrevDayOrdinal(d);
      Walk(PrevDay(d), t)
  }

  /** `d + timedelta(days=k)`: Python adds `k` to the ordinal and converts back. */
  function AddDays(d: Date, k: int): (r: Date)
    requires Valid(d)
    ensures Valid(r)
    ensures Ordinal(r) == Ordinal(d) + k
  {
    Walk(d, Ordinal(d) + k)
  }

  /** A valid date `k` days after `d`, by ordinal, is `AddDays(d, k)`. */
  lemma AddDaysIs(d: Date, k: int, e: Date)
    requires Valid(d) && Valid(e) && Ordinal(e) == Ordinal(d) + k
    ensures AddDays(d, k) == e
  {
    OrdinalInjective(AddDays(d, k), e);
  }

  /** Python's `max` on two dates: the later one, the first on a tie. */
  function Later(a: Date, b: Date): (r: Date)
    requires Valid(a) && Valid(b)
    ensures Valid(r)
    ensures Ordinal(r) >= Ordinal(a) && Ordinal(r) >= Ordinal(b)
    ensures r == a || r == b
  {
    if Ordinal(b) > Ordinal(a) then b else a
  }

  /** `max` keeps its first argument when that is not earlier than the second. */
  lemma LaterKeepsFirst(a: Date, b: Date)
    requires Valid(a) && Valid(b) && Ordinal(b) <= Ordinal(a)
    ensures Later(a, b) == a
  {
  }

  /** Stepping forward `a` days and then `b` days is stepping `a + b` days. */
  lemma AddDaysCompose(d: Date, a: int, b: int)
    requires Valid(d)
    ensures AddDays(AddDays(d, a), b) == AddDays(d, a + b)
  {
    OrdinalInjective(AddDays(AddDays(d, a), b), AddDays(d, a + b));
  }

  /** The month after month `m` of year `y`, as (year, month). */
  function FollowingMonth(y: int, m: int): (r: (int, int))
    requires 1 <= m <= 12
    ensures 1 <= r.1 <= 12
  {
    if m < 12 then (y, m + 1) else (y + 1, 1)
  }

  /** Thirty-two days after the first of a month is day `33 - length` of the next month. */
  lemma ThirtyTwoDaysLater(y: int, m: int)
    requires 1 <= m <= 12
    ensures var n := FollowingMonth(y, m);
      AddDays(Date(y, m, 1), 32) == Date(n.0, n.1, 33 - DaysInMonth(y, m))
  {
    var n := FollowingMonth(y, m);
    YearLength(y);
    AddDaysIs(Date(y, m, 1), 32, Date(n.0, n.1, 33 - DaysInMonth(y, m)));
  }

  /** The last day of month `m` is the day before the first of the following month. */
  lemma LastOfMonth(y: int, m: int)
    requires 1 <= m <= 12
    ensures var n := FollowingMonth(y, m);
      AddDays(Date(n.0, n.1, 1), -1) == Date(y, m, DaysInMonth(y, m))
  {
    var n := FollowingMonth(y, m);
    YearLength(y);
    AddDaysIs(Date(n.0, n.1, 1), -1, Date(y, m, DaysInMonth(y, m)));
  }
}

=== FILE: category.dfy ===
/** Cleaning of the follow-up `category` column, done once when the
    follow-up pivot is built and again, identically, by the drill-down. */
module Category {
  import opened Text

  /** A raw value of the `category` column: the number 0 (and other
      numbers), a text, or a missing value. */
  datatype Cell = Num(n: int) | Str(s: string) | Null

  /** `astype(str)` of a cell. */
  function CellText(c: Cell): string {
    match c
    case Num(n) => IntToString(n)
    case Str(s) => s
    case Null => "None"
  }

  /** The two replacement labels survive the prefix removal and the strip. */
  lemma LabelsKept()
    ensures !StartsWith("Follow up", "JD -")
    ensures Strip(StripNumberDashPrefix("Follow up")) == "Follow up"
    ensures Strip(StripNumberDashPrefix("JD Category")) == "JD Category"
  {
    assert "Follow up"[0] == 'F';
    StripNumberDashPrefixNoDigit("Follow up");
    StripUnchanged("Follow up");
    StripNumberDashPrefixNoDigit("JD Category");
    StripUnchanged("JD Category");
  }

  /** `replace(0, 'Follow up')`, `astype(str)`, `'JD -'` prefix to
      'JD Category', then one leading `^\d+\s*-\s*` removed and the
      result stripped. */
  function Clean(c: Cell): (r: string)
    ensures c == Num(0) ==> r == "Follow up"
    ensures c != Num(0) && StartsWith(CellText(c), "JD -") ==> r == "JD Category"
    ensures r == [] || (!IsSpace(r[0]) && !IsSpace(r[|r| - 1]))
  {
    CleanText(if c == Num(0) then "Follow up" else CellText(c))
  }

  /** The cleaning steps after `astype(str)`. */
  function CleanText(text: string): (r: string)
    ensures text == "Follow up" ==> r == "Follow up"
    ensures StartsWith(text, "JD -") ==> r == "JD Category"
    ensures r == [] || (!IsSpace(r[0]) && !IsSpace(r[|r| - 1]))
  {
    var marked := if StartsWith(text, "JD -") then "JD Category" else text;
    LabelsKept();
    Strip(StripNumberDashPrefix(marked))
  }

  /** A "digits - rest" category loses exactly one numeric prefix:
      "3690262 - Brake check" is cleaned to "Brake check", and a `rest`
      that itself starts with "digits -" keeps it. */
  lemma CleanNumberedCategory(digits: string, sp1: string, sp2: string, rest: string)
    requires digits != [] && forall k :: 0 <= k < |digits| ==> IsDigit(digits[k])
    requires forall k :: 0 <= k < |sp1| ==> IsSpace(sp1[k])
    requires forall k :: 0 <= k < |sp2| ==> IsSpace(sp2[k])
    requires rest == [] || !IsSpace(rest[0])
    ensures Clean(Str(digits + sp1 + "-" + sp2 + rest)) == Strip(rest)
  {
    var s := digits + sp1 + "-" + sp2 + rest;
    assert s[0] == digits[0];
    assert !StartsWith(s, "JD -") by {
      if |s| >= 4 {
        assert s[..4][0] == s[0];
      }
    }
    StripNumberDashPrefixOf(digits, sp1, sp2, rest);
  }

  /** An empty category cleans to "". */
  lemma CleanEmptyText()
    ensures Clean(Str("")) == ""
  {
    CleanNoPrefix(Str(""));
  }

  /** A bare numeric prefix ("123 - ", say) cleans to "". */
  lemma CleanBarePrefix(digits: string, sp1: string, sp2: string)
    requires digits != [] && forall k :: 0 <= k < |digits| ==> IsDigit(digits[k])
    requires forall k :: 0 <= k < |sp1| ==> IsSpace(sp1[k])
    requires forall k :: 0 <= k < |sp2| ==> IsSpace(sp2[k])
    ensures Clean(Str(digits + sp1 + "-" + sp2)) == ""
  {
    CleanNumberedCategory(digits, sp1, sp2, "");
    assert digits + sp1 + "-" + sp2 + "" == digits + sp1 + "-" + sp2;
  }

  /** A bare run of digits has no dash to remove: a non-zero number, or a
      text of digits such as "0" (which is not the number 0), is kept. */
  lemma CleanDigitsOnly(c: Cell)
    requires c != Num(0)
    requires CellText(c) != [] && forall k :: 0 <= k < |CellText(c)| ==> IsDigit(CellText(c)[k])
    ensures Clean(c) == CellText(c)
  {
    var s := CellText(c);
    assert !StartsWith(s, "JD -") by {
      if |s| >= 4 {
        assert s[..4][0] == s[0];
      }
    }
    DigitsUnchanged(s);
    StripUnchanged(s);
  }

  /** A bare run of digits has no dash after it, so no prefix is removed. */
  lemma DigitsUnchanged(s: string)
    requires s != [] && forall k :: 0 <= k < |s| ==> IsDigit(s[k])
    ensures StripNumberDashPrefix(s) == s
  {
    assert SpanWhile(s, IsDigit) == |s| by {
      SpanWhileConcat(s, [], IsDigit);
      assert s + [] == s;
    }
  }

  /** Non-zero numbers are cleaned to their decimal text. */
  lemma CleanPositiveNumber(n: int)
    requires n > 0
    ensures Clean(Num(n)) == NatToString(n)
  {
    CleanDigitsOnly(Num(n));
  }

  /** A category without a leading digit is only stripped. */
  lemma CleanNoPrefix(c: Cell)
    requires c != Num(0) && !StartsWith(CellText(c), "JD -")
    requires CellText(c) == [] || !IsDigit(CellText(c)[0])
    ensures Clean(c) == Strip(CellText(c))
  {
    StripNumberDashPrefixNoDigit(CellText(c));
  }

  /** Cleaning a cleaned text again changes nothing unless the cleaned
      text itself starts with a digit or with "JD -". */
  lemma CleanStable(c: Cell)
    requires var t := Clean(c); (t == [] || !IsDigit(t[0])) && !StartsWith(t, "JD -")
    ensures Clean(Str(Clean(c))) == Clean(c)
  {
    CleanedTextStable(Clean(c));
  }

  /** A stripped text with neither a leading digit nor "JD -" is its own
      cleaning. */
  lemma CleanedTextStable(t: string)
    requires t == [] || (!IsSpace(t[0]) && !IsSpace(t[|t| - 1]))
    requires (t == [] || !IsDigit(t[0])) && !StartsWith(t, "JD -")
    ensures Clean(Str(t)) == t
  {
    StripNumberDashPrefixNoDigit(t);
    StripUnchanged(t);
  }
}

=== FILE: checkins.dfy ===
/** The feedback page's check-in table and its detail dialog: the three
    checklist facets, the counts per service category, source or person
    with a closing "Grand Total" row (`update_table`), and the rows a click
    on a count shows (`handle_modal`). */
module Checkins {
  import opened Common
  import opened Text
  import opened Facets
  import opened Sorting
  import opened Feedback

  // ---- Facets -----------------------------------------------------------------

  /** The three checklists' current values. */
  datatype Checked = Checked(sources: Option<seq<string>>, services: Option<seq<string>>, names: Option<seq<string>>)

  function ServiceKey(r: FbRow): Option<string> {
    Some(ServiceCategory(r))
  }

  function NameKey(r: FbRow): Option<string> {
    r.cmName
  }

  function PageFacets(c: Checked): seq<Facet<FbRow>> {
    [Facet(Source, c.sources), Facet(ServiceKey, c.services), Facet(NameKey, c.names)]
  }

  /** A checklist admits a row's value when it holds nothing or lists the
      value; a missing value is admitted only by an empty checklist. */
  predicate Admits(selected: Option<seq<string>>, v: Option<string>) {
    selected.None? || |selected.value| == 0 || (v.Some? && v.value in selected.value)
  }

  /** The rows both callbacks keep from the loaded rows. */
  function Narrow(rows: seq<FbRow>, c: Checked): (out: seq<FbRow>)
    ensures forall r :: r in out <==> (r in rows
      && Admits(c.sources, Source(r)) && Admits(c.services, ServiceKey(r)) && Admits(c.names, NameKey(r)))
  {
    var fs := PageFacets(c);
    assert forall r :: PassesAll(fs, r) <==>
      Admits(c.sources, Source(r)) && Admits(c.services, ServiceKey(r)) && Admits(c.names, NameKey(r)) by {
      forall r ensures PassesAll(fs, r) <==>
        Admits(c.sources, Source(r)) && Admits(c.services, ServiceKey(r)) && Admits(c.names, NameKey(r)) {
        assert Passes(fs[0], r) <==> Admits(c.sources, Source(r));
        assert Passes(fs[1], r) <==> Admits(c.services, ServiceKey(r));
        assert Passes(fs[2], r) <==> Admits(c.names, NameKey(r));
      }
    }
    ApplyFacets(rows, fs)
  }

  // ---- Grouping -----------------------------------------------------------------

  /** The column a tab groups by: service category, source, or (for any
      other tab) the person's name. */
  datatype GroupBy = ByService | BySource | ByPerson

  function GroupColumn(tab: string): (g: GroupBy)
    ensures g.ByService? <==> tab == "service"
    ensures g.BySource? <==> tab == "source"
  {
    if tab == "service" then ByService
    else if tab == "source" then BySource
    else ByPerson
  }

  function GroupKey(g: GroupBy, r: FbRow): Option<string> {
    match g
    case ByService => ServiceKey(r)
    case BySource => Source(r)
    case ByPerson => NameKey(r)
  }

  /** The column's id in the page's records. */
  function ColumnId(g: GroupBy): string {
    match g
    case ByService => "service_category"
    case BySource => "source"
    case ByPerson => "cm_name"
  }

  /** The table's heading for the grouping column. */
  function Header(g: GroupBy): string {
    match g
    case ByService => "Service Category"
    case BySource => "Source"
    case ByPerson => "Person"
  }

  /** A row counts towards its group when it has a booking id
      (`count` of `gb_booking_id` skips missing ids). */
  function IdWithKey(g: GroupBy, k: string): FbRow -> bool {
    (r: FbRow) => r.bookingId.Some? && GroupKey(g, r) == Some(k)
  }

  /** A row counts towards some group. */
  function IdWithAnyKey(g: GroupBy, ks: seq<string>): FbRow -> bool {
    (r: FbRow) => r.bookingId.Some? && GroupKey(g, r).Some? && GroupKey(g, r).value in ks
  }

  function GroupCount(rows: seq<FbRow>, g: GroupBy, k: string): nat {
    |Filter(rows, IdWithKey(g, k))|
  }

  /** One (key, count) pair per key, in the order of `ks`. */
  function Pairs(rows: seq<FbRow>, g: GroupBy, ks: seq<string>): (ps: seq<(string, nat)>)
    ensures |ps| == |ks|
    ensures forall i :: 0 <= i < |ps| ==> ps[i] == (ks[i], GroupCount(rows, g, ks[i]))
  {
    seq(|ks|, i requires 0 <= i < |ks| => (ks[i], GroupCount(rows, g, ks[i])))
  }

  /** Larger counts first. */
  function ByCountDown(): ((string, nat), (string, nat)) -> bool {
    (a: (string, nat), b: (string, nat)) => a.1 >= b.1
  }

  /** `create_grouped_table`: one pair per present key, the groups sorted by
      key and then by count, largest first. */
  function GroupedTable(rows: seq<FbRow>, g: GroupBy): seq<(string, nat)> {
    SortBy(Pairs(rows, g, SortBy(PresentKeys(rows, (r: FbRow) => GroupKey(g, r)), TextOrder())), ByCountDown())
  }

  function SumCounts(ps: seq<(string, nat)>): nat
    decreases |ps|
  {
    if ps == [] then 0 else ps[0].1 + SumCounts(ps[1..])
  }

  /** What the table shows: nothing, or its column id and heading, the
      groups and the closing "Grand Total" row. */
  datatype TableView =
    | Hidden
    | Shown(columnId: string, header: string, data: seq<(string, nat)>)

  const GrandTotal := "Grand Total"

  function UpdateTable(tab: string, loaded: seq<FbRow>, c: Checked, applied: bool): (v: TableView)
    ensures v.Hidden? <==> !applied || Narrow(loaded, c) == []
    ensures v.Shown? ==> v.data != [] && v.data[|v.data| - 1].0 == GrandTotal
  {
    var rows := Narrow(loaded, c);
    if !applied || rows == [] then Hidden
    else
      var g := GroupColumn(tab);
      var grouped := GroupedTable(rows, g);
      Shown(ColumnId(g), Header(g), grouped + [(GrandTotal, SumCounts(grouped))])
  }

  // ---- handle_modal -------------------------------------------------------------

  /** The input that set the dialog callback off, if any. */
  datatype Trigger = NoTrigger | CloseButton | Overlay | TableCell

  /** The table cell last clicked: its row in the table's records and its
      column id. */
  datatype ActiveCell = ActiveCell(row: nat, columnId: string)

  /** The dialog after the callback: untouched (no trigger), dismissed, left
      with its current style, or opened with a title and numbered rows. */
  datatype Dialog =
    | Untouched
    | Dismissed
    | KeepStyle
    | Opened(title: string, records: seq<(nat, FbRow)>)

  /** The rows of one group: those whose group value equals the clicked one
      (a missing value equals nothing). */
  function KeyIs(g: GroupBy, k: string): FbRow -> bool {
    (r: FbRow) => GroupKey(g, r) == Some(k)
  }

  function GrandTotalTitle(n: nat): string {
    "Checkin Details (Grand Total: " + NatToString(n) + ")"
  }

  /** The title of a group's dialog: the column id spaced and title-cased,
      then the value. */
  function GroupTitle(g: GroupBy, k: string): string {
    Title(ReplaceChar(ColumnId(g), '_', ' ')) + ": " + k
  }

  function HandleModal(trigger: Trigger, cell: Option<ActiveCell>, tableData: seq<(string, nat)>,
                       tab: string, loaded: seq<FbRow>, c: Checked): (d: Dialog)
    requires trigger == TableCell && cell.Some? && cell.value.columnId == "count" ==> cell.value.row < |tableData|
    ensures d.Untouched? <==> trigger == NoTrigger
    ensures d.Dismissed? <==> trigger == CloseButton || trigger == Overlay
    ensures d.Opened? <==> trigger == TableCell && cell.Some? && cell.value.columnId == "count"
    ensures d.Opened? ==> forall i :: 0 <= i < |d.records| ==> d.records[i].0 == i + 1
    ensures d.Opened? ==> IsSubsequence(Unnumber(d.records), Narrow(loaded, c))
  {
    match trigger
    case NoTrigger => Untouched
    case CloseButton => Dismissed
    case Overlay => Dismissed
    case TableCell =>
      if cell.Some? && cell.value.columnId == "count" then
        var value := tableData[cell.value.row].0;
        var rows := Narrow(loaded, c);
        var g := GroupColumn(tab);
        if value == GrandTotal then
          NumberRoundTrip(rows);
          SubsequenceRefl(rows);
          Opened(GrandTotalTitle(|rows|), Number(rows))
        else
          var shown := Filter(rows, KeyIs(g, value));
          NumberRoundTrip(shown);
          FilterSubsequence(rows, KeyIs(g, value));
          Opened(GroupTitle(g, value), Number(shown))
      else KeepStyle
  }

  /** Clicking a group's count opens that group's rows, and as many of
      them have a booking id as the count said. */
  lemma DialogMatchesTable(tab: string, loaded: seq<FbRow>, c: Checked, i: nat)
    requires UpdateTable(tab, loaded, c, true).Shown?
    requires i < |UpdateTable(tab, loaded, c, true).data| - 1
    requires UpdateTable(tab, loaded, c, true).data[i].0 != GrandTotal
    ensures var data := UpdateTable(tab, loaded, c, true).data;
      var d := HandleModal(TableCell, Some(ActiveCell(i, "count")), data, tab, loaded, c);
      d.Opened?
      && (forall r :: r in Unnumber(d.records) <==> r in Narrow(loaded, c) && GroupKey(GroupColumn(tab), r) == Some(data[i].0))
      && |Filter(Unnumber(d.records), (r: FbRow) => r.bookingId.Some?)| == data[i].1
  {
    var data := UpdateTable(tab, loaded, c, true).data;
    TableRowCounts(tab, loaded, c, i);
    GroupDialog(tab, loaded, c, data, i);
    GroupRows(Narrow(loaded, c), GroupColumn(tab), data[i].0);
  }

  /** A group row of the shown table holds its key's count. */
  lemma TableRowCounts(tab: string, loaded: seq<FbRow>, c: Checked, i: nat)
    requires UpdateTable(tab, loaded, c, true).Shown?
    requires i < |UpdateTable(tab, loaded, c, true).data| - 1
    ensures var data := UpdateTable(tab, loaded, c, true).data;
      data[i].1 == GroupCount(Narrow(loaded, c), GroupColumn(tab), data[i].0)
  {
    var rows := Narrow(loaded, c);
    var g := GroupColumn(tab);
    assert UpdateTable(tab, loaded, c, true).data[i] == GroupedTable(rows, g)[i];
    GroupedRowCounts(rows, g, i);
  }

  /** Clicking the count of a group row lists that group's rows. */
  lemma GroupDialog(tab: string, loaded: seq<FbRow>, c: Checked, data: seq<(string, nat)>, i: nat)
    requires i < |data| && data[i].0 != GrandTotal
    ensures var d := HandleModal(TableCell, Some(ActiveCell(i, "count")), data, tab, loaded, c);
      d.Opened? && Unnumber(d.records) == Filter(Narrow(loaded, c), KeyIs(GroupColumn(tab), data[i].0))
  {
    var shown := Filter(Narrow(loaded, c), KeyIs(GroupColumn(tab), data[i].0));
    assert HandleModal(TableCell, Some(ActiveCell(i, "count")), data, tab, loaded, c)
        == Opened(GroupTitle(GroupColumn(tab), data[i].0), Number(shown));
    NumberRoundTrip(shown);
  }

  /** Each pair of the grouped table holds its key's count. */
  lemma GroupedRowCounts(rows: seq<FbRow>, g: GroupBy, i: nat)
    requires i < |GroupedTable(rows, g)|
    ensures GroupedTable(rows, g)[i].1 == GroupCount(rows, g, GroupedTable(rows, g)[i].0)
  {
    var p := GroupedTable(rows, g)[i];
    GroupedTableMembers(rows, g, p.0, p.1);
  }

  /** The rows of one group, and how many of them the table counts. */
  lemma GroupRows(rows: seq<FbRow>, g: GroupBy, k: string)
    ensures forall r :: r in Filter(rows, KeyIs(g, k)) <==> r in rows && GroupKey(g, r) == Some(k)
    ensures |Filter(Filter(rows, KeyIs(g, k)), (r: FbRow) => r.bookingId.Some?)| == GroupCount(rows, g, k)
  {
    FilterConj(rows, KeyIs(g, k), (r: FbRow) => r.bookingId.Some?, IdWithKey(g, k));
  }

  /** Clicking the "Grand Total" count opens every shown row, and the title
      gives their number. */
  lemma GrandTotalDialog(tab: string, loaded: seq<FbRow>, c: Checked)
    requires UpdateTable(tab, loaded, c, true).Shown?
    ensures var data := UpdateTable(tab, loaded, c, true).data;
      var d := HandleModal(TableCell, Some(ActiveCell(|data| - 1, "count")), data, tab, loaded, c);
      d.Opened? && Unnumber(d.records) == Narrow(loaded, c)
      && d.title == GrandTotalTitle(|Narrow(loaded, c)|)
  {
  }

  /** The "Grand Total" dialog can list rows the "Grand Total" cell does not
      count: a person-less check-in with a booking id is counted in no group
      of the "Person" tab, yet its dialog shows it. */
  lemma GrandTotalDialogCountsMore(x: FbRow)
    requires x.bookingId.Some? && x.cmName.None?
    ensures var data := UpdateTable("person", [x], Checked(None, None, None), true).data;
      var d := HandleModal(TableCell, Some(ActiveCell(|data| - 1, "count")), data, "person", [x], Checked(None, None, None));
      data[|data| - 1].1 == 0 && d.Opened? && |d.records| == 1
  {
    var c := Checked(None, None, None);
    var rows := Narrow([x], c);
    assert rows == [x] by {
      assert x in rows;
    }
    GrandTotalCountsIds("person", [x], c, true);
    assert !(x.bookingId.Some? && GroupKey(ByPerson, x).Some?);
    FilterNone(rows, (r: FbRow) => r.bookingId.Some? && GroupKey(GroupColumn("person"), r).Some?);
  }

  // ---- Facts about the table ----------------------------------------------------

  lemma ByCountDownTotal()
    ensures Total(ByCountDown())
  {
  }

  /** The groups run from the largest count to the smallest. */
  lemma GroupedTableDescending(rows: seq<FbRow>, g: GroupBy)
    ensures forall i :: 0 < i < |GroupedTable(rows, g)| ==> GroupedTable(rows, g)[i - 1].1 >= GroupedTable(rows, g)[i].1
  {
    var ks := SortBy(PresentKeys(rows, (r: FbRow) => GroupKey(g, r)), TextOrder());
    ByCountDownTotal();
    SortBySorted(Pairs(rows, g, ks), ByCountDown());
  }

  /** The table lists a pair exactly when its key is the group value of
      some row and its count is the number of that group's rows with an
      id. */
  lemma GroupedTableMembers(rows: seq<FbRow>, g: GroupBy, k: string, n: nat)
    ensures (k, n) in GroupedTable(rows, g)
        <==> (exists i :: 0 <= i < |rows| && GroupKey(g, rows[i]) == Some(k)) && n == GroupCount(rows, g, k)
  {
    var present := PresentKeys(rows, (r: FbRow) => GroupKey(g, r));
    var ks := SortBy(present, TextOrder());
    var ps := Pairs(rows, g, ks);
    SortByMembers(ps, ByCountDown(), (k, n));
    SortByMembers(present, TextOrder(), k);
    if (k, n) in ps {
      var i :| 0 <= i < |ps| && ps[i] == (k, n);
      assert ks[i] == k;
    }
    if k in ks && n == GroupCount(rows, g, k) {
      var i :| 0 <= i < |ks| && ks[i] == k;
      assert ps[i] == (k, n);
    }
  }

  lemma {:induction false} SumCountsInsert(x: (string, nat), s: seq<(string, nat)>, le: ((string, nat), (string, nat)) -> bool)
    ensures SumCounts(Insert(x, s, le)) == x.1 + SumCounts(s)
    decreases |s|
  {
    if s != [] && !le(x, s[0]) {
      SumCountsInsert(x, s[1..], le);
      assert Insert(x, s, le)[1..] == Insert(x, s[1..], le);
    }
  }

  /** Sorting the groups leaves their total alone. */
  lemma {:induction false} SumCountsSort(s: seq<(string, nat)>, le: ((string, nat), (string, nat)) -> bool)
    ensures SumCounts(SortBy(s, le)) == SumCounts(s)
    decreases |s|
  {
    if s != [] {
      SumCountsSort(s[1..], le);
      SumCountsInsert(s[0], SortBy(s[1..], le), le);
    }
  }

  /** The counts of distinct keys add up to the rows with an id whose key
      is one of them. */
  lemma {:induction false} SumOfGroups(rows: seq<FbRow>, g: GroupBy, ks: seq<string>)
    requires NoDups(ks)
    ensures SumCounts(Pairs(rows, g, ks)) == |Filter(rows, IdWithAnyKey(g, ks))|
    decreases |ks|
  {
    var ps := Pairs(rows, g, ks);
    if ks == [] {
      assert forall i :: 0 <= i < |rows| ==> !IdWithAnyKey(g, ks)(rows[i]);
      FilterNone(rows, IdWithAnyKey(g, ks));
    } else {
      assert NoDups(ks[1..]) by {
        forall i, j | 0 <= i < j < |ks[1..]| ensures ks[1..][i] != ks[1..][j] {
          assert ks[1..][i] == ks[i + 1] && ks[1..][j] == ks[j + 1];
        }
      }
      SumOfGroups(rows, g, ks[1..]);
      assert ps[1..] == Pairs(rows, g, ks[1..]);
      assert ks[0] !in ks[1..];
      forall x ensures IdWithAnyKey(g, ks)(x) == (IdWithKey(g, ks[0])(x) || IdWithAnyKey(g, ks[1..])(x)) {
        if GroupKey(g, x).Some? && GroupKey(g, x).value in ks && GroupKey(g, x).value != ks[0] {
          var j :| 0 <= j < |ks| && ks[j] == GroupKey(g, x).value;
          assert ks[1..][j - 1] == ks[j];
        }
      }
      FilterSplitCount(rows, IdWithKey(g, ks[0]), IdWithAnyKey(g, ks[1..]), IdWithAnyKey(g, ks));
    }
  }

  /** The "Grand Total" row counts every shown row that has a booking id
      and a group value. */
  lemma GrandTotalCountsIds(tab: string, loaded: seq<FbRow>, c: Checked, applied: bool)
    requires UpdateTable(tab, loaded, c, applied).Shown?
    ensures var data := UpdateTable(tab, loaded, c, applied).data;
      var g := GroupColumn(tab);
      data[|data| - 1].1 == |Filter(Narrow(loaded, c), (r: FbRow) => r.bookingId.Some? && GroupKey(g, r).Some?)|
  {
    GroupedTotal(Narrow(loaded, c), GroupColumn(tab));
  }

  /** The counts of the grouped table add up to the rows with an id and a
      group value. */
  lemma GroupedTotal(rows: seq<FbRow>, g: GroupBy)
    ensures SumCounts(GroupedTable(rows, g)) == |Filter(rows, (r: FbRow) => r.bookingId.Some? && GroupKey(g, r).Some?)|
  {
    var present := PresentKeys(rows, (r: FbRow) => GroupKey(g, r));
    var ks := SortBy(present, TextOrder());
    SumCountsSort(Pairs(rows, g, ks), ByCountDown());
    SortByNoDups(present, TextOrder());
    SumOfGroups(rows, g, ks);
    forall x | x in rows
      ensures IdWithAnyKey(g, ks)(x) == (x.bookingId.Some? && GroupKey(g, x).Some?)
    {
      if GroupKey(g, x).Some? {
        var i :| 0 <= i < |rows| && rows[i] == x;
        SortByMembers(present, TextOrder(), GroupKey(g, x).value);
      }
    }
    FilterSameOn(rows, IdWithAnyKey(g, ks), (r: FbRow) => r.bookingId.Some? && GroupKey(g, r).Some?);
  }
}

=== FILE: classify.dfy ===
/** `prepare_data`: drop re-engagement bookings, replace blank text fields
    by per-field sentinels, derive `Activity_Status_Final` and
    `new_status` with `np.select`, and collapse `vehicle_type`. */
module Classify {
  import opened Common
  import opened Text
  import opened Booking

  /** One `np.select` condition with the label it yields. */
  datatype Rule<!T> = Rule(test: T -> bool, result: string)

  /** The position of the first rule that holds, if any. */
  function FirstMatch<T>(rules: seq<Rule<T>>, x: T): (r: Option<nat>)
    ensures r.Some? ==> r.value < |rules| && rules[r.value].test(x)
                        && forall j :: 0 <= j < r.value ==> !rules[j].test(x)
    ensures r.None? ==> forall j :: 0 <= j < |rules| ==> !rules[j].test(x)
    decreases |rules|
  {
    if rules == [] then None
    else if rules[0].test(x) then Some(0)
    else
      match FirstMatch(rules[1..], x)
      case None => None
      case Some(i) => Some(i + 1)
  }

  /** `np.select(conditions, results, default)` for one row: the label of
      the first condition that holds, or the default. */
  function Select<T>(rules: seq<Rule<T>>, x: T, default: string): string {
    match FirstMatch(rules, x)
    case None => default
    case Some(i) => rules[i].result
  }

  /** The labels `Select` can produce. */
  lemma SelectLabel<T>(rules: seq<Rule<T>>, x: T, default: string)
    ensures Select(rules, x, default) == default
         || exists i :: 0 <= i < |rules| && Select(rules, x, default) == rules[i].result
  {
  }

  /** First match wins: when rule `i` holds and no earlier one does, the
      result is its label; when none holds, it is the default. */
  lemma SelectFirstWins<T>(rules: seq<Rule<T>>, x: T, default: string, i: nat)
    requires i < |rules| && rules[i].test(x)
    requires forall j :: 0 <= j < i ==> !rules[j].test(x)
    ensures Select(rules, x, default) == rules[i].result
  {
    var m := FirstMatch(rules, x);
    assert m.Some?;
    if m.value < i {
    } else if m.value > i {
    }
  }

  // ---- Sentinel cleanup -------------------------------------------------

  /** The blank values `replace(['0', '', ' '], sentinel)` replaces. */
  predicate IsBlank(s: string) {
    s == "0" || s == "" || s == " "
  }

  function OrSentinel(s: string, sentinel: string): (r: string)
    requires !IsBlank(sentinel)
    ensures !IsBlank(r)
    ensures r == s || r == sentinel
    ensures !IsBlank(s) ==> r == s
  {
    if IsBlank(s) then sentinel else s
  }

  const NoService := "No Service Available"
  const NoName := "No Name Available"
  const NoCity := "No city Available"
  const UnknownStatus := "Unknown Status"
  const ReEngagement := "Re-Engagement Bookings"

  // ---- Activity_Status_Final ---------------------------------------------

  /** Comments that mark a cancelled booking (the misspelling
      "Escalationn" is the source's). */
  const CancelledComments: seq<string> := [
    "Customer called for a status update", "Done with Local shop", "Duplicate Booking",
    "Just Enquiry/checking the App", "Just for Quotation", "Post Service Escalationn",
    "Price not satisfied/Quotes are too high", "Testing", "Wrong Number"]

  /** Comments that mark an "other" booking (the first one ends in a space). */
  const OtherComments: seq<string> := [
    "All RNRs are exhausted ", "Currentlyservice is not needed",
    "Not in Chennai/Bangalore/Hyderabad/Trichy", "Not Interested",
    "Reminded in Whatsapp Images not received", "Vehicle Sold / No Vehicle"]

  function ActivityRules(): seq<Rule<string>> {
    [Rule((c: string) => c in CancelledComments, "Cancelled Booking"),
     Rule((c: string) => c in OtherComments, "Other Booking")]
  }

  /** `Activity_Status_Final` of a row with these comments. */
  function ActivityStatus(comments: string): string {
    Select(ActivityRules(), comments, UnknownStatus)
  }

  /** Exact membership decides the activity status: 'Cancelled Booking' iff
      the comment is in the first list, otherwise 'Other Booking' iff it is
      in the second, otherwise 'Unknown Status'. */
  lemma ActivityStatusCases(comments: string)
    ensures ActivityStatus(comments) == "Cancelled Booking" <==> comments in CancelledComments
    ensures ActivityStatus(comments) == "Other Booking"
            <==> comments !in CancelledComments && comments in OtherComments
    ensures ActivityStatus(comments) == UnknownStatus
            <==> comments !in CancelledComments && comments !in OtherComments
  {
    var rules := ActivityRules();
    if comments in CancelledComments {
      SelectFirstWins(rules, comments, UnknownStatus, 0);
    } else if comments in OtherComments {
      SelectFirstWins(rules, comments, UnknownStatus, 1);
    } else {
      assert FirstMatch(rules, comments).None?;
    }
  }

  /** Matching is on the whole comment, not a substring: a comment that
      merely contains 'Testing', or that lacks the trailing space of
      'All RNRs are exhausted ', is not recognised. */
  lemma ActivityStatusExact()
    ensures ActivityStatus("Testing call") == UnknownStatus
    ensures ActivityStatus("All RNRs are exhausted") == UnknownStatus
    ensures ActivityStatus("All RNRs are exhausted ") == "Other Booking"
  {
    assert "Testing call" !in CancelledComments;
    assert "Testing call" !in OtherComments;
    ActivityStatusCases("Testing call");
    assert "All RNRs are exhausted" !in CancelledComments;
    assert "All RNRs are exhausted" !in OtherComments;
    ActivityStatusCases("All RNRs are exhausted");
    assert "All RNRs are exhausted " !in CancelledComments;
    assert OtherComments[0] == "All RNRs are exhausted ";
    ActivityStatusCases("All RNRs are exhausted ");
  }

  // ---- new_status -------------------------------------------------------

  /** The six `new_status` conditions in priority order. */
  function StatusRules(): seq<Rule<Row>> {
    [Rule((r: Row) => r.flag == 1, "Cancelled"),
     Rule((r: Row) => r.flagUnwntd == 1, "Duplicate"),
     Rule((r: Row) => (r.bookingStatusCode == 2 && r.axleFlag == 1 && r.flag == 0)
               || r.serviceStatusCode == "Completed", "Goaxled"),
     Rule((r: Row) => r.bookingStatusCode in {3, 4, 5, 6} && r.flag == 0, "Follow-up"),
     Rule((r: Row) => r.bookingStatusCode == 1 && r.flag == 0, "Idle"),
     Rule((r: Row) => r.bookingStatusCode == 0 && r.flag != 1, "Others")]
  }

  /** `new_status` of a row. */
  function NewStatus(r: Row): string {
    Select(StatusRules(), r, UnknownStatus)
  }

  /** The seven labels `new_status` can take. */
  const StatusLabels: seq<string> := ["Cancelled", "Duplicate", "Goaxled", "Follow-up", "Idle", "Others", "Unknown Status"]

  /** The same classification written as a plain `if` ladder. */
  function StatusLadder(r: Row): string {
    if r.flag == 1 then "Cancelled"
    else if r.flagUnwntd == 1 then "Duplicate"
    else if (r.bookingStatusCode == 2 && r.axleFlag == 1 && r.flag == 0) || r.serviceStatusCode == "Completed" then "Goaxled"
    else if r.bookingStatusCode in {3, 4, 5, 6} && r.flag == 0 then "Follow-up"
    else if r.bookingStatusCode == 1 && r.flag == 0 then "Idle"
    else if r.bookingStatusCode == 0 && r.flag != 1 then "Others"
    else UnknownStatus
  }

  /** The rule list and the ladder agree on every row, so `new_status` is
      the label of the first true condition in the order Cancelled,
      Duplicate, Goaxled, Follow-up, Idle, Others, else 'Unknown Status'. */
  lemma NewStatusIsLadder(r: Row)
    ensures NewStatus(r) == StatusLadder(r)
  {
    var rules := StatusRules();
    if r.flag == 1 {
      SelectFirstWins(rules, r, UnknownStatus, 0);
    } else if r.flagUnwntd == 1 {
      SelectFirstWins(rules, r, UnknownStatus, 1);
    } else if (r.bookingStatusCode == 2 && r.axleFlag == 1 && r.flag == 0) || r.serviceStatusCode == "Completed" {
      SelectFirstWins(rules, r, UnknownStatus, 2);
    } else if r.bookingStatusCode in {3, 4, 5, 6} && r.flag == 0 {
      SelectFirstWins(rules, r, UnknownStatus, 3);
    } else if r.bookingStatusCode == 1 && r.flag == 0 {
      SelectFirstWins(rules, r, UnknownStatus, 4);
    } else if r.bookingStatusCode == 0 && r.flag != 1 {
      SelectFirstWins(rules, r, UnknownStatus, 5);
    } else {
      assert FirstMatch(rules, r).None?;
    }
  }

  /** `new_status` is always one of the seven labels; `flag == 1` gives
      'Cancelled' whatever the other fields hold, and a completed service
      with neither flag set is 'Goaxled' whatever its status code. */
  lemma NewStatusFacts(r: Row)
    ensures NewStatus(r) in StatusLabels
    ensures r.flag == 1 ==> NewStatus(r) == "Cancelled"
    ensures r.flag != 1 && r.flagUnwntd != 1 && r.serviceStatusCode == "Completed" ==> NewStatus(r) == "Goaxled"
  {
    NewStatusIsLadder(r);
  }

  /** The follow-up subset of the category pivot is exactly the rows whose
      `new_status` is 'Follow-up', once cancelled, duplicate and goaxled
      rows are set aside. */
  lemma FollowUpMeansFollowUpStatus(r: Row)
    requires r.flagUnwntd != 1 && r.serviceStatusCode != "Completed"
    ensures (r.bookingStatusCode in {3, 4, 5, 6} && r.flag == 0) <==> NewStatus(r) == "Follow-up"
  {
    NewStatusIsLadder(r);
  }

  // ---- vehicle_type -----------------------------------------------------

  /** `str.strip().str.lower()`, then anything but '4w' and '2w' is 'Others'. */
  function CollapseVehicle(v: string): (r: string)
    ensures r == "4w" || r == "2w" || r == "Others"
  {
    var t := Lower(Strip(v));
    if t == "4w" || t == "2w" then t else "Others"
  }

  lemma FourWheelerFixed()
    ensures CollapseVehicle("4w") == "4w"
  {
    StripUnchanged("4w");
    assert Lower("4w") == "4w";
  }

  lemma TwoWheelerFixed()
    ensures CollapseVehicle("2w") == "2w"
  {
    StripUnchanged("2w");
    assert Lower("2w") == "2w";
  }

  lemma OthersFixed()
    ensures CollapseVehicle("Others") == "Others"
  {
    StripUnchanged("Others");
    assert Lower("Others")[0] == 'o';
  }

  /** Collapsing twice is collapsing once. */
  lemma CollapseIdempotent(v: string)
    ensures CollapseVehicle(CollapseVehicle(v)) == CollapseVehicle(v)
  {
    var t := CollapseVehicle(v);
    if t == "4w" {
      FourWheelerFixed();
    } else if t == "2w" {
      TwoWheelerFixed();
    } else {
      OthersFixed();
    }
  }

  /** A vehicle value with surrounding spaces or capitals is still recognised. */
  lemma CollapseNormalises(v: string)
    requires Lower(Strip(v)) == "4w"
    ensures CollapseVehicle(v) == "4w"
  {
  }

  // ---- prepare_data -----------------------------------------------------

  /** The per-row part of `prepare_data`, in the source's order: blanks to
      sentinels (the city is stripped and title-cased first), `comments`
      overwritten from the cleaned `activity_name`, the two statuses, and
      the vehicle collapse. */
  function PrepareRow(r: Row): (p: Row)
    ensures p.bookingId == r.bookingId && p.category == r.category
    ensures p.masterService == (if IsBlank(r.masterService) then NoService else r.masterService)
    ensures p.serviceType == (if IsBlank(r.serviceType) then NoService else r.serviceType)
    ensures p.crmAdminName == (if IsBlank(r.crmAdminName) then NoName else r.crmAdminName)
    ensures p.userSource == (if IsBlank(r.userSource) then NoService else r.userSource)
    ensures p.activityName == (if IsBlank(r.activityName) then UnknownStatus else r.activityName)
    ensures p.city == OrSentinel(Title(Strip(r.city)), NoCity)
    ensures p.comments == p.activityName
    ensures p.activityStatusFinal == ActivityStatus(p.comments)
    ensures p.newStatus == NewStatus(r)
    ensures p.vehicleType == CollapseVehicle(r.vehicleType) && p.vehicleType in {"4w", "2w", "Others"}
    ensures p.bookingStatusCode == r.bookingStatusCode && p.serviceStatusCode == r.serviceStatusCode
    ensures p.flag == r.flag && p.flagUnwntd == r.flagUnwntd && p.axleFlag == r.axleFlag
  {
    var cleaned := r.(
      masterService := OrSentinel(r.masterService, NoService),
      serviceType := OrSentinel(r.serviceType, NoService),
      crmAdminName := OrSentinel(r.crmAdminName, NoName),
      userSource := OrSentinel(r.userSource, NoService),
      activityName := OrSentinel(r.activityName, UnknownStatus),
      city := OrSentinel(Title(Strip(r.city)), NoCity));
    var commented := cleaned.(comments := OrSentinel(cleaned.activityName, UnknownStatus));
    var statused := commented.(
      activityStatusFinal := ActivityStatus(commented.comments),
      newStatus := NewStatus(commented));
    StatusFromCodes(commented, r);
    statused.(vehicleType := CollapseVehicle(r.vehicleType))
  }

  /** The rows `prepare_data` keeps: all but the re-engagement bookings. */
  predicate KeptByPrepare(r: Row) {
    r.userSource != ReEngagement
  }

  /** `prepare_data(df)`: re-engagement bookings are dropped first, on the
      raw `user_source`, then every remaining row is cleaned. */
  function PrepareData(rows: seq<Row>): (out: seq<Row>)
    ensures |out| == |Filter(rows, KeptByPrepare)|
    ensures forall i :: 0 <= i < |out| ==> out[i] == PrepareRow(Filter(rows, KeptByPrepare)[i])
  {
    var kept := Filter(rows, KeptByPrepare);
    seq(|kept|, i requires 0 <= i < |kept| => PrepareRow(kept[i]))
  }

  /** What one kept row looks like after cleaning. */
  lemma PrepareRowFacts(r: Row)
    requires KeptByPrepare(r)
    ensures var p := PrepareRow(r);
      p.userSource != ReEngagement
      && !IsBlank(p.masterService) && !IsBlank(p.serviceType) && !IsBlank(p.crmAdminName)
      && !IsBlank(p.userSource) && !IsBlank(p.activityName) && !IsBlank(p.city)
      && p.activityStatusFinal == ActivityStatus(p.comments)
      && p.newStatus == NewStatus(p)
  {
    var p := PrepareRow(r);
    assert NoService != ReEngagement;
    StatusFromCodes(p, r);
  }

  /** `new_status` reads only the status codes, the flags and the service status. */
  lemma StatusFromCodes(a: Row, b: Row)
    requires a.flag == b.flag && a.flagUnwntd == b.flagUnwntd && a.axleFlag == b.axleFlag
    requires a.bookingStatusCode == b.bookingStatusCode && a.serviceStatusCode == b.serviceStatusCode
    ensures NewStatus(a) == NewStatus(b)
  {
    NewStatusIsLadder(a);
    NewStatusIsLadder(b);
  }

  /** After `prepare_data` no row is a re-engagement booking, no cleaned
      text field is blank, `comments` equals `activity_name`, both statuses
      are derived from the row, and `vehicle_type` is '4w', '2w' or 'Others'. */
  lemma PrepareDataFacts(rows: seq<Row>)
    ensures forall p :: p in PrepareData(rows) ==>
      p.userSource != ReEngagement
      && !IsBlank(p.masterService) && !IsBlank(p.serviceType) && !IsBlank(p.crmAdminName)
      && !IsBlank(p.userSource) && !IsBlank(p.activityName) && !IsBlank(p.city)
      && p.comments == p.activityName
      && p.activityStatusFinal == ActivityStatus(p.comments)
      && p.newStatus == NewStatus(p)
      && p.vehicleType in {"4w", "2w", "Others"}
  {
    var kept := Filter(rows, KeptByPrepare);
    forall p | p in PrepareData(rows)
      ensures p.userSource != ReEngagement
      && !IsBlank(p.masterService) && !IsBlank(p.serviceType) && !IsBlank(p.crmAdminName)
      && !IsBlank(p.userSource) && !IsBlank(p.activityName) && !IsBlank(p.city)
      && p.comments == p.activityName
      && p.activityStatusFinal == ActivityStatus(p.comments)
      && p.newStatus == NewStatus(p)
      && p.vehicleType in {"4w", "2w", "Others"}
    {
      var i :| 0 <= i < |kept| && PrepareData(rows)[i] == p;
      assert KeptByPrepare(kept[i]);
      PrepareRowFacts(kept[i]);
    }
  }

  /** Preparing the rows again does not change their vehicle type. */
  lemma PrepareVehicleStable(r: Row)
    ensures PrepareRow(PrepareRow(r)).vehicleType == PrepareRow(r).vehicleType
  {
    CollapseIdempotent(r.vehicleType);
  }

  /** `df[df['vehicle_type'] != 'pv']` after `prepare_data` removes nothing:
      the collapse has already turned 'pv' into 'Others'. */
  predicate NotPv(r: Row) {
    r.vehicleType != "pv"
  }

  /** The rows `update_stored_data` stores: the prepared rows without 'pv'. */
  function StoredRows(rows: seq<Row>): (out: seq<Row>)
    ensures out == PrepareData(rows)
  {
    var prepared := PrepareData(rows);
    assert forall i :: 0 <= i < |prepared| ==> NotPv(prepared[i]);
    FilterAll(prepared, NotPv);
    Filter(prepared, NotPv)
  }
}

=== FILE: common.dfy ===
/** Small generic helpers shared by the dashboard model: an option type,
    duplicate-free sequences, subsequences, sums and serial numbering. */
module Common {

  /** Python's `None` versus a present value. */
  datatype Option<+T> = None | Some(value: T)

  /** No value occurs twice in `s`. */
  predicate NoDups<T(==)>(s: seq<T>) {
    forall i, j :: 0 <= i < j < |s| ==> s[i] != s[j]
  }

  /** The distinct values of `s` in order of first appearance (pandas `unique()`). */
  function Distinct<T(==,!new)>(s: seq<T>): (r: seq<T>)
    ensures NoDups(r)
    ensures forall x :: x in r <==> x in s
    ensures |r| <= |s|
    decreases |s|
  {
    if s == [] then []
    else
      var d := Distinct(s[..|s| - 1]);
      if s[|s| - 1] in d then d else d + [s[|s| - 1]]
  }

  /** `a` is obtained from `b` by deleting elements, keeping the order of the rest. */
  ghost predicate IsSubsequence<T>(a: seq<T>, b: seq<T>)
    decreases |b|
  {
    if a == [] then true
    else if b == [] then false
    else if a[0] == b[0] then IsSubsequence(a[1..], b[1..])
    else IsSubsequence(a, b[1..])
  }

  lemma {:induction false} SubsequenceRefl<T>(a: seq<T>)
    ensures IsSubsequence(a, a)
    decreases |a|
  {
    if a != [] {
      SubsequenceRefl(a[1..]);
    }
  }

  /** Rows numbered from 1, as the `S.No` column the detail views insert. */
  function Number<T>(s: seq<T>): (r: seq<(nat, T)>)
    ensures |r| == |s|
    ensures forall i :: 0 <= i < |r| ==> r[i].0 == i + 1 && r[i].1 == s[i]
  {
    seq(|s|, i requires 0 <= i < |s| => (i + 1, s[i]))
  }

  /** The rows of a numbered table, without their numbers. */
  function Unnumber<T>(r: seq<(nat, T)>): seq<T> {
    seq(|r|, i requires 0 <= i < |r| => r[i].1)
  }

  lemma NumberRoundTrip<T>(s: seq<T>)
    ensures Unnumber(Number(s)) == s
  {
  }

  function Sum(s: seq<nat>): nat
    decreases |s|
  {
    if s == [] then 0 else s[0] + Sum(s[1..])
  }

  lemma {:induction false} SumAppend(a: seq<nat>, b: seq<nat>)
    ensures Sum(a + b) == Sum(a) + Sum(b)
    decreases |a|
  {
    if a == [] {
      assert a + b == b;
    } else {
      assert (a + b)[1..] == a[1..] + b;
      SumAppend(a[1..], b);
    }
  }

  /** The elements of `s` that satisfy `p`, in their original order
      (a boolean-mask selection `df[mask]`). */
  function Filter<T(!new)>(s: seq<T>, p: T -> bool): (r: seq<T>)
    ensures |r| <= |s|
    ensures forall x :: x in r <==> x in s && p(x)
    ensures forall i :: 0 <= i < |r| ==> p(r[i])
    decreases |s|
  {
    if s == [] then []
    else (if p(s[0]) then [s[0]] else []) + Filter(s[1..], p)
  }

  /** Selection keeps the relative order of the rows it keeps. */
  lemma {:induction false} FilterSubsequence<T(!new)>(s: seq<T>, p: T -> bool)
    ensures IsSubsequence(Filter(s, p), s)
    decreases |s|
  {
    if s != [] {
      FilterSubsequence(s[1..], p);
      if p(s[0]) {
        assert Filter(s, p) == [s[0]] + Filter(s[1..], p);
        assert (Filter(s, p))[1..] == Filter(s[1..], p);
      } else {
        assert Filter(s, p) == Filter(s[1..], p);
        if Filter(s, p) != [] {
          assert Filter(s, p)[0] in s[1..];
          assert Filter(s, p)[0] != s[0];
        }
      }
    }
  }

  /** A selection keeps everything when every element qualifies. */
  lemma {:induction false} FilterAll<T(!new)>(s: seq<T>, p: T -> bool)
    requires forall i :: 0 <= i < |s| ==> p(s[i])
    ensures Filter(s, p) == s
    decreases |s|
  {
    if s != [] {
      FilterAll(s[1..], p);
    }
  }

  /** Selecting twice with the same mask is selecting once. */
  lemma FilterIdempotent<T(!new)>(s: seq<T>, p: T -> bool)
    ensures Filter(Filter(s, p), p) == Filter(s, p)
  {
    FilterAll(Filter(s, p), p);
  }

  /** Two successive selections are one selection by the conjunction. */
  lemma {:induction false} FilterConj<T(!new)>(s: seq<T>, p: T -> bool, q: T -> bool, pq: T -> bool)
    requires forall x :: pq(x) == (p(x) && q(x))
    ensures Filter(Filter(s, p), q) == Filter(s, pq)
    decreases |s|
  {
    if s != [] {
      FilterConj(s[1..], p, q, pq);
      if p(s[0]) {
        assert Filter(s, p) == [s[0]] + Filter(s[1..], p);
        assert Filter(s, p)[1..] == Filter(s[1..], p);
      } else {
        assert Filter(s, p) == Filter(s[1..], p);
      }
    }
  }

  /** Selecting by either of two exclusive conditions selects as many
      elements as the two selections together. */
  lemma {:induction false} FilterSplitCount<T(!new)>(s: seq<T>, p: T -> bool, q: T -> bool, pq: T -> bool)
    requires forall x :: pq(x) == (p(x) || q(x))
    requires forall x :: !(p(x) && q(x))
    ensures |Filter(s, pq)| == |Filter(s, p)| + |Filter(s, q)|
    decreases |s|
  {
    if s != [] {
      FilterSplitCount(s[1..], p, q, pq);
    }
  }

  /** An element at two positions occurs at least twice. */
  lemma {:induction false} MultisetTwice<T>(s: seq<T>, i: nat, j: nat)
    requires i < j < |s| && s[i] == s[j]
    ensures multiset(s)[s[i]] >= 2
  {
    assert s == s[..i] + [s[i]] + s[i + 1..j] + [s[j]] + s[j + 1..];
  }

  /** In a duplicate-free sequence every element occurs at most once. */
  lemma {:induction false} NoDupsOnce<T>(s: seq<T>, x: T)
    requires NoDups(s)
    ensures multiset(s)[x] <= 1
    decreases |s|
  {
    if s != [] {
      assert s == [s[0]] + s[1..];
      assert NoDups(s[1..]) by {
        forall a, b | 0 <= a < b < |s[1..]| ensures s[1..][a] != s[1..][b] {
          assert s[1..][a] == s[a + 1] && s[1..][b] == s[b + 1];
        }
      }
      NoDupsOnce(s[1..], x);
      if x == s[0] {
        assert x !in s[1..];
      }
    }
  }

  /** Selections by conditions that agree on every element are equal. */
  lemma {:induction false} FilterSameOn<T(!new)>(s: seq<T>, p: T -> bool, q: T -> bool)
    requires forall x :: x in s ==> p(x) == q(x)
    ensures Filter(s, p) == Filter(s, q)
    decreases |s|
  {
    if s != [] {
      FilterSameOn(s[1..], p, q);
    }
  }

  /** Nothing qualifies, nothing is selected. */
  lemma {:induction false} FilterNone<T(!new)>(s: seq<T>, p: T -> bool)
    requires forall i :: 0 <= i < |s| ==> !p(s[i])
    ensures Filter(s, p) == []
    decreases |s|
  {
    if s != [] {
      FilterNone(s[1..], p);
    }
  }
}

=== FILE: drilldown.dfy ===
/** `toggle_booking_details`: clicking a pivot cell opens the bookings
    behind it. The clicked row's display values, the table's suffix and
    the clicked column are turned into row predicates; the cell's leading
    integer decides between "No Data Found", "No Matching Records Found"
    and the numbered rows.

    The predicates are modelled as written, including the clicks where
    they do not select the rows the clicked cell counted: a non-conversion
    table's "Others" and "2w"/"4w" columns, a conversion table's
    "Unknown Status" column, and a follow-up row whose category cleaned to
    "". `ResolveCell` is the selection the cell does count. */
module Drilldown {
  import opened Common
  import opened Text
  import opened Booking
  import Report
  import Pivot

  /** What the modal shows: closed (the callback's default return),
      one of the two messages, or the numbered rows ("S.No" 1..N). */
  datatype Outcome = Closed | NoDataFound | NoMatchingRecords | Records(rows: seq<(nat, Row)>)

  /** The clicked display row: column id to displayed text. */
  type RowData = map<string, string>

  /** `row_data.get(id)`. */
  function Value(rowData: RowData, id: string): (v: Option<string>)
    ensures v.Some? <==> id in rowData
    ensures v.Some? ==> v.value == rowData[id]
  {
    if id in rowData then Some(rowData[id]) else None
  }

  /** `df[col] == v`; comparing with a missing value keeps no row. */
  function ValuePred(c: Column, v: Option<string>): (p: Pred)
    ensures forall x :: Holds(p, x) <==> v.Some? && Get(x, c) == v.value
  {
    if v.Some? then Eq(c, v.value) else Never
  }

  /** A Python string is truthy when present and non-empty. */
  predicate Truthy(v: Option<string>) {
    v.Some? && v.value != ""
  }

  /** The row is the margin row: its first display value, as text,
      stripped and lower-cased, is "grand total". */
  predicate IsGrandTotal(tableColumns: seq<string>, rowData: RowData)
    requires tableColumns != []
  {
    var first := Value(rowData, tableColumns[0]);
    Lower(Strip(if first.Some? then first.value else "None")) == "grand total"
  }

  /** The displayed column ids that select by a data-frame column, and the
      column each selects. "Category" is handled apart: outside the
      follow-up table the frame has no `cleaned_category` column. */
  function DisplayColumn(id: string): Option<Column> {
    if id == "Service" then Some(MasterService)
    else if id == "Name" then Some(CrmAdminName)
    else if id == "Source" then Some(UserSource)
    else if id == "Activity status" then Some(ActivityStatusFinal)
    else if id == "Type" then Some(VehicleType)
    else if id == "comments" then Some(Comments)
    else None
  }

  /** A row of the frame matches the clicked display row on every
      displayed column that selects by a column. */
  predicate MatchesRow(x: Row, cols: seq<string>, rowData: RowData) {
    forall i :: 0 <= i < |cols| && DisplayColumn(cols[i]).Some? ==>
      cols[i] in rowData && Get(x, DisplayColumn(cols[i]).value) == rowData[cols[i]]
  }

  /** The per-column predicates of a non-margin row; `None` when a
      "Category" column makes the lookup fail and the callback falls back
      to its default return. */
  function RowPreds(cols: seq<string>, rowData: RowData): (r: Option<seq<Pred>>)
    ensures r.None? <==> "Category" in cols
    decreases |cols|
  {
    if cols == [] then Some([])
    else
      var rest := RowPreds(cols[1..], rowData);
      if cols[0] == "Category" || rest.None? then None
      else
        match DisplayColumn(cols[0])
        case Some(c) => Some([ValuePred(c, Value(rowData, cols[0]))] + rest.value)
        case None => rest
  }

  lemma HoldsAllCons(p: Pred, ps: seq<Pred>, x: Row)
    ensures HoldsAll([p] + ps, x) <==> Holds(p, x) && HoldsAll(ps, x)
  {
    HoldsAllAppend([p], ps, x);
    assert HoldsAll([p], x) <==> Holds([p][0], x);
  }

  lemma HoldsAllAppend(ps: seq<Pred>, qs: seq<Pred>, x: Row)
    ensures HoldsAll(ps + qs, x) <==> HoldsAll(ps, x) && HoldsAll(qs, x)
  {
    var all := ps + qs;
    if HoldsAll(ps, x) && HoldsAll(qs, x) {
      forall i | 0 <= i < |all| ensures Holds(all[i], x) {
        if i < |ps| {
          assert all[i] == ps[i];
        } else {
          assert all[i] == qs[i - |ps|];
        }
      }
    }
    if HoldsAll(all, x) {
      forall i | 0 <= i < |ps| ensures Holds(ps[i], x) {
        assert all[i] == ps[i];
      }
      forall i | 0 <= i < |qs| ensures Holds(qs[i], x) {
        assert all[|ps| + i] == qs[i];
      }
    }
  }

  /** The row predicates keep exactly the rows matching the clicked row on
      its displayed columns. */
  lemma {:induction false} RowPredsMeaning(cols: seq<string>, rowData: RowData, x: Row)
    requires "Category" !in cols
    ensures HoldsAll(RowPreds(cols, rowData).value, x) <==> MatchesRow(x, cols, rowData)
    decreases |cols|
  {
    if cols != [] {
      assert "Category" !in cols[1..] by {
        forall k | 0 <= k < |cols[1..]| ensures cols[1..][k] != "Category" {
          assert cols[1..][k] == cols[k + 1];
        }
      }
      RowPredsMeaning(cols[1..], rowData, x);
      var rest := RowPreds(cols[1..], rowData).value;
      if DisplayColumn(cols[0]).Some? {
        var c := DisplayColumn(cols[0]).value;
        HoldsAllCons(ValuePred(c, Value(rowData, cols[0])), rest, x);
      }
      if MatchesRow(x, cols, rowData) {
        forall i | 0 <= i < |cols[1..]| && DisplayColumn(cols[1..][i]).Some?
          ensures cols[1..][i] in rowData && Get(x, DisplayColumn(cols[1..][i]).value) == rowData[cols[1..][i]]
        {
          assert cols[1..][i] == cols[i + 1];
        }
      }
      if MatchesRow(x, cols[1..], rowData) && (DisplayColumn(cols[0]).Some? ==>
           cols[0] in rowData && Get(x, DisplayColumn(cols[0]).value) == rowData[cols[0]]) {
        forall i | 0 <= i < |cols| && DisplayColumn(cols[i]).Some?
          ensures cols[i] in rowData && Get(x, DisplayColumn(cols[i]).value) == rowData[cols[i]]
        {
          if i > 0 {
            assert cols[i] == cols[1..][i - 1];
          }
        }
      }
    }
  }

  lemma HoldsOne(p: Pred)
    ensures forall x :: HoldsAll([p], x) <==> Holds(p, x)
  {
    forall x ensures HoldsAll([p], x) <==> Holds(p, x) {
      assert [p][0] == p;
    }
  }

  /** The activity status a non-conversion table's suffix pins. */
  function SuffixPreds(suffix: string): (ps: seq<Pred>)
    ensures forall x :: HoldsAll(ps, x) <==>
      (suffix == "cancelled" ==> x.activityStatusFinal == "Cancelled Booking")
      && (suffix == "other" ==> x.activityStatusFinal == "Other Booking")
  {
    if suffix == "cancelled" then
      var p := Eq(ActivityStatusFinal, "Cancelled Booking");
      HoldsOne(p);
      [p]
    else if suffix == "other" then
      var p := Eq(ActivityStatusFinal, "Other Booking");
      HoldsOne(p);
      [p]
    else []
  }

  /** The column ids read as a `new_status` value. */
  const StatusColumns: seq<string> := ["Goaxled", "Follow-up", "Cancelled", "Others", "Idle", "Duplicate"]

  lemma TotalLeadsNotStatus()
    ensures "Total Leads" !in StatusColumns
  {
    var t := "Total Leads";
    assert |t| == 11 && t[0] == 'T';
  }

  /** A status column selects that status; every other column, "Total
      Leads" included, selects nothing. */
  function StatusPreds(columnId: string): (ps: seq<Pred>)
    ensures forall x :: HoldsAll(ps, x) <==> (columnId in StatusColumns ==> x.newStatus == columnId)
  {
    TotalLeadsNotStatus();
    if columnId != "Total Leads" && columnId in StatusColumns then
      var p := Eq(NewStatus, columnId);
      HoldsOne(p);
      [p]
    else []
  }

  /** The clicked column in the follow-up table: a vehicle type present in
      the follow-up rows selects it; otherwise a column of the frame selects
      by the clicked row's value in it; otherwise nothing. */
  function FollowUpColumnPreds(df: seq<Row>, columnId: string, rowData: RowData): (ps: seq<Pred>)
    ensures |ps| <= 1
    ensures columnId == "" || columnId == "Total Leads" ==> ps == []
    ensures columnId != "" && columnId != "Total Leads" && (exists i :: 0 <= i < |df| && df[i].vehicleType == columnId) ==>
      forall x :: HoldsAll(ps, x) <==> x.vehicleType == columnId
    ensures columnId != "" && columnId != "Total Leads" && (forall i :: 0 <= i < |df| ==> df[i].vehicleType != columnId) ==>
      forall c: Column, x :: ColumnName(c) == columnId ==> (HoldsAll(ps, x) <==> columnId in rowData && Get(x, c) == rowData[columnId])
    ensures (forall i :: 0 <= i < |df| ==> df[i].vehicleType != columnId) && (forall c: Column :: ColumnName(c) != columnId) ==> ps == []
  {
    if columnId != "" && columnId != "Total Leads" then
      if exists i :: 0 <= i < |df| && df[i].vehicleType == columnId then
        HoldsOne(Eq(VehicleType, columnId));
        [Eq(VehicleType, columnId)]
      else
        match ColumnNamed(columnId)
        case Some(c) =>
          var p := ValuePred(c, Value(rowData, columnId));
          HoldsOne(p);
          forall c': Column | ColumnName(c') == columnId ensures c' == c {
            ColumnNamedRoundTrip(c');
          }
          [p]
        case None => []
    else []
  }

  /** The clicked follow-up row's category: `cleaned_category`, else the
      displayed "Category", when the one chosen is non-empty. */
  function ClickedCategory(rowData: RowData): (v: Option<string>)
    ensures v.Some? ==> v.value != ""
    ensures v.None? <==> !Truthy(Value(rowData, "cleaned_category")) && !Truthy(Value(rowData, "Category"))
  {
    var fromClean := Value(rowData, "cleaned_category");
    var v := if Truthy(fromClean) then fromClean else Value(rowData, "Category");
    if Truthy(v) then v else None
  }

  /** The category predicate of a clicked follow-up row; an empty category
      adds none. */
  function CategoryPreds(rowData: RowData): (ps: seq<Pred>)
    ensures |ps| <= 1
    ensures "cleaned_category" in rowData && rowData["cleaned_category"] != "" ==>
      forall x :: HoldsAll(ps, x) <==> Get(x, CleanedCategory) == rowData["cleaned_category"]
    ensures (!("cleaned_category" in rowData && rowData["cleaned_category"] != "")
             && "Category" in rowData && rowData["Category"] != "") ==>
      forall x :: HoldsAll(ps, x) <==> Get(x, CleanedCategory) == rowData["Category"]
    ensures (!("cleaned_category" in rowData && rowData["cleaned_category"] != "")
             && !("Category" in rowData && rowData["Category"] != "")) ==> ps == []
    ensures forall x :: HoldsAll(ps, x) <==>
      (ClickedCategory(rowData).Some? ==> Get(x, CleanedCategory) == ClickedCategory(rowData).value)
  {
    match ClickedCategory(rowData)
    case Some(v) =>
      HoldsOne(Eq(CleanedCategory, v));
      [Eq(CleanedCategory, v)]
    case None => []
  }

  /** Every predicate the callback conjoins, or `None` where it fails. */
  function ResolvePreds(df: seq<Row>, suffix: string, tableColumns: seq<string>, rowData: RowData, columnId: string): (r: Option<seq<Pred>>)
    requires tableColumns != []
    ensures r.None? <==> suffix != "followup" && !IsGrandTotal(tableColumns, rowData) && "Category" in tableColumns
  {
    var grandTotal := IsGrandTotal(tableColumns, rowData);
    if suffix == "followup" then
      Some(FollowUpColumnPreds(df, columnId, rowData) + (if grandTotal then [] else CategoryPreds(rowData)))
    else
      var rowPreds := if grandTotal then Some([]) else RowPreds(tableColumns, rowData);
      if rowPreds.None? then None
      else Some(rowPreds.value + SuffixPreds(suffix) + StatusPreds(columnId))
  }

  /** The clicked cell's leading integer; a cell with no digits reads 0. */
  function CellCount(rowData: RowData, columnId: string): (n: nat)
    ensures var t := if columnId in rowData then rowData[columnId] else "0";
      (n == 0 <==> FirstDigitRun(t) == None || FirstDigitRun(t) == Some(0))
      && (FirstDigitRun(t).Some? ==> n == FirstDigitRun(t).value)
  {
    var text := if columnId in rowData then rowData[columnId] else "0";
    match FirstDigitRun(text)
    case None => 0
    case Some(n) => n
  }

  /** Clicking a cell as a computed pivot shows it reads back the pivot's
      count for that cell. */
  lemma ShownCellCount(t: Pivot.Table, rk: Pivot.RowKey, ck: Pivot.ColKey, shareText: string, rowData: RowData, columnId: string)
    requires (rk, ck) in t.cells
    requires columnId in rowData && rowData[columnId] == Pivot.ShownCell(t, rk, ck, shareText)
    ensures CellCount(rowData, columnId) == t.cells[(rk, ck)]
  {
  }

  /** The frame the predicates are applied to: the follow-up subset for the
      follow-up table, all filtered rows otherwise. */
  function Frame(filtered: seq<Row>, suffix: string): seq<Row> {
    if suffix == "followup" then Report.FollowUps(filtered) else filtered
  }

  function ToggleBookingDetails(filtered: seq<Row>, suffix: string, tableColumns: seq<string>, rowData: RowData, columnId: string): (out: Outcome)
    ensures filtered == [] || tableColumns == [] ==> out == Closed
    ensures out == NoDataFound ==> CellCount(rowData, columnId) == 0
    ensures out.Records? ==> |out.rows| > 0
    ensures out.Records? ==> forall i :: 0 <= i < |out.rows| ==> out.rows[i].0 == i + 1 && out.rows[i].1 in filtered
  {
    if filtered == [] || tableColumns == [] then Closed
    else
      var df := Frame(filtered, suffix);
      var preds := ResolvePreds(df, suffix, tableColumns, rowData, columnId);
      if preds.None? then Closed
      else if CellCount(rowData, columnId) == 0 then NoDataFound
      else
        var kept := Where(df, preds.value);
        if kept == [] then NoMatchingRecords
        else Records(Number(kept))
  }

  // ---- What the drill-down shows ------------------------------------------

  /** A cell reading 0 says "No Data Found" before any row is looked at: the
      same answer for every non-empty set of rows. */
  lemma ZeroCellNoData(filtered: seq<Row>, suffix: string, tableColumns: seq<string>, rowData: RowData, columnId: string)
    requires filtered != [] && tableColumns != []
    requires ResolvePreds(Frame(filtered, suffix), suffix, tableColumns, rowData, columnId).Some?
    ensures ToggleBookingDetails(filtered, suffix, tableColumns, rowData, columnId) == NoDataFound
        <==> CellCount(rowData, columnId) == 0
  {
  }

  /** A cell with no digits at all reads 0. */
  lemma UnparsableCellIsZero(rowData: RowData, columnId: string)
    requires columnId in rowData
    requires forall k :: 0 <= k < |rowData[columnId]| ==> !IsDigit(rowData[columnId][k])
    ensures CellCount(rowData, columnId) == 0
  {
  }

  /** "No Matching Records Found" is exactly a non-zero cell whose
      predicates keep no row. */
  lemma NoMatchIff(filtered: seq<Row>, suffix: string, tableColumns: seq<string>, rowData: RowData, columnId: string)
    requires filtered != [] && tableColumns != []
    ensures var df := Frame(filtered, suffix);
      var preds := ResolvePreds(df, suffix, tableColumns, rowData, columnId);
      ToggleBookingDetails(filtered, suffix, tableColumns, rowData, columnId) == NoMatchingRecords
      <==> preds.Some? && CellCount(rowData, columnId) > 0 && Where(df, preds.value) == []
  {
  }

  /** The rows shown are the frame's rows satisfying every predicate, in
      their order, numbered from 1, and they are a subsequence of the
      filtered rows. */
  lemma RecordsAreSelection(filtered: seq<Row>, suffix: string, tableColumns: seq<string>, rowData: RowData, columnId: string)
    requires ToggleBookingDetails(filtered, suffix, tableColumns, rowData, columnId).Records?
    ensures var out := ToggleBookingDetails(filtered, suffix, tableColumns, rowData, columnId);
      var preds := ResolvePreds(Frame(filtered, suffix), suffix, tableColumns, rowData, columnId);
      preds.Some?
      && Unnumber(out.rows) == Where(Frame(filtered, suffix), preds.value)
      && IsSubsequence(Unnumber(out.rows), filtered)
  {
    var df := Frame(filtered, suffix);
    var preds := ResolvePreds(df, suffix, tableColumns, rowData, columnId).value;
    var kept := Where(df, preds);
    NumberRoundTrip(kept);
    WhereSubsequence(df, preds);
    if suffix == "followup" {
      FilterConj(filtered, Report.IsFollowUp, x => HoldsAll(preds, x), x => Report.IsFollowUp(x) && HoldsAll(preds, x));
      FilterSubsequence(filtered, x => Report.IsFollowUp(x) && HoldsAll(preds, x));
    }
  }

  /** In a table without a suffix (the service, person and source pivots),
      the "Total Leads" cell of the "Grand Total" row shows every filtered
      row. */
  lemma GrandTotalTotalLeads(filtered: seq<Row>, tableColumns: seq<string>, rowData: RowData)
    requires filtered != [] && tableColumns != []
    requires IsGrandTotal(tableColumns, rowData)
    requires CellCount(rowData, "Total Leads") > 0
    ensures ToggleBookingDetails(filtered, "", tableColumns, rowData, "Total Leads") == Records(Number(filtered))
  {
    assert ResolvePreds(filtered, "", tableColumns, rowData, "Total Leads") == Some([] + [] + []);
    WhereNothing(filtered);
  }

  /** A value that does not start with whitespace or a g is not the margin
      label. */
  lemma NotGrandTotal(s: string)
    requires s != [] && !IsSpace(s[0]) && LowerChar(s[0]) != 'g'
    ensures Lower(Strip(s)) != "grand total"
  {
    assert Strip(s) == s[StripStart(s)..StripStart(s) + |Strip(s)|];
    assert StripStart(s) == 0;
    assert Strip(s) != [];
    assert Lower(Strip(s))[0] == LowerChar(s[0]);
  }

  // ---- Where the predicates miss the cell ---------------------------------

  /** The non-conversion table's header: its index columns, the margin and
      the vehicle types. */
  function NonConversionColumns(vehicles: seq<string>): seq<string> {
    ["Activity status", "comments", "Total Leads"] + vehicles
  }

  /** The clicked row of a non-conversion table and one of its cells. */
  function NonConversionRow(status: string, comment: string, columnId: string, cell: string): RowData {
    map["Activity status" := status, "comments" := comment, columnId := cell]
  }

  lemma NonConversionRowPreds(status: string, comment: string, columnId: string, cell: string, vehicles: seq<string>, x: Row)
    requires columnId in vehicles
    requires forall k :: 0 <= k < |vehicles| ==> DisplayColumn(vehicles[k]).None? && vehicles[k] != "Category"
    ensures var rowData := NonConversionRow(status, comment, columnId, cell);
      RowPreds(NonConversionColumns(vehicles), rowData).Some?
      && (HoldsAll(RowPreds(NonConversionColumns(vehicles), rowData).value, x)
          <==> x.activityStatusFinal == status && x.comments == comment)
  {
    var rowData := NonConversionRow(status, comment, columnId, cell);
    var cols := NonConversionColumns(vehicles);
    assert "Activity status" != columnId && "comments" != columnId by {
      var k :| 0 <= k < |vehicles| && vehicles[k] == columnId;
      assert DisplayColumn(vehicles[k]).None?;
    }
    assert "Category" !in cols by {
      assert "Activity status"[0] == 'A' && "comments"[0] == 'c' && "Total Leads"[0] == 'T';
      forall k | 0 <= k < |cols| ensures cols[k] != "Category" {
        if k >= 3 {
          assert cols[k] == vehicles[k - 3];
        }
      }
    }
    RowPredsMeaning(cols, rowData, x);
    assert DisplayColumn(cols[0]) == Some(ActivityStatusFinal);
    assert DisplayColumn(cols[1]) == Some(Comments);
    if x.activityStatusFinal == status && x.comments == comment {
      forall i | 0 <= i < |cols| && DisplayColumn(cols[i]).Some?
        ensures cols[i] in rowData && Get(x, DisplayColumn(cols[i]).value) == rowData[cols[i]]
      {
      }
    }
  }

  /** A non-conversion pivot of rows that all carry its status and no pv
      vehicle is computed from all of them. */
  lemma NonConversionSourceAll(rows: seq<Row>, status: string)
    requires forall i :: 0 <= i < |rows| ==> (rows[i].activityStatusFinal == status && rows[i].vehicleType != "pv")
    ensures Pivot.Source(rows, Report.NonConversionSpec(status)) == rows
  {
    var ps := Report.NonConversionSpec(status).condition;
    forall x | x in rows ensures HoldsAll(ps, x) {
      assert Holds(ps[0], x) && Holds(ps[1], x);
    }
    FilterAll(rows, x => HoldsAll(ps, x));
  }

  /** A row counts towards a non-conversion cell exactly when it has an id
      and the cell's status, comment and vehicle type. */
  lemma NonConversionCounts(x: Row, status: string, comment: string, vehicle: string)
    ensures Pivot.Counts(x, Report.NonConversionSpec(status), Some([status, comment]), Some(vehicle))
        <==> x.bookingId.Some? && x.activityStatusFinal == status && x.comments == comment && x.vehicleType == vehicle
  {
    var k := Pivot.KeyOf(x, Report.NonConversionSpec(status).index);
    assert k == [status, comment] <==> k[0] == status && k[1] == comment;
  }

  /** A vehicle type starting with a digit is not a status column. */
  lemma VehicleNotStatus(v: string)
    requires v != [] && IsDigit(v[0])
    ensures v !in StatusColumns
  {
    var s := StatusColumns;
    assert s[0][0] == 'G' && s[1][0] == 'F' && s[2][0] == 'C' && s[3][0] == 'O' && s[4][0] == 'I' && s[5][0] == 'D';
  }

  /** The vehicle-type column "Others" of a non-conversion table is read
      as the status "Others": a single cancelled booking by an "Others"
      vehicle whose status is not "Others" is counted in that cell, yet its
      drill-down finds no records. */
  lemma OthersColumnQuirk(x: Row, comment: string, share: string)
    requires x.bookingId.Some? && x.vehicleType == "Others" && x.newStatus != "Others"
    requires x.activityStatusFinal == "Cancelled Booking" && x.comments == comment
    ensures var spec := Report.NonConversionSpec("Cancelled Booking");
      Pivot.Count(Pivot.Source([x], spec), spec, Some(["Cancelled Booking", comment]), Some("Others")) == 1
    ensures var rowData := NonConversionRow("Cancelled Booking", comment, "Others", Pivot.Render(1, share));
      ToggleBookingDetails([x], "cancelled", NonConversionColumns(["Others"]), rowData, "Others") == NoMatchingRecords
  {
    OthersCellCount(x, comment);
    OthersCellDrillDown(x, comment, share);
  }

  /** The "Others" cell counts the booking. */
  lemma OthersCellCount(x: Row, comment: string)
    requires x.bookingId.Some? && x.vehicleType == "Others"
    requires x.activityStatusFinal == "Cancelled Booking" && x.comments == comment
    ensures var spec := Report.NonConversionSpec("Cancelled Booking");
      Pivot.Count(Pivot.Source([x], spec), spec, Some(["Cancelled Booking", comment]), Some("Others")) == 1
  {
    var spec := Report.NonConversionSpec("Cancelled Booking");
    assert "Others"[0] == 'O' && "pv"[0] == 'p';
    NonConversionSourceAll([x], "Cancelled Booking");
    NonConversionCounts(x, "Cancelled Booking", comment, "Others");
    Pivot.CountSingle(x, spec, Some(["Cancelled Booking", comment]), Some("Others"));
  }

  /** The clicked row of a non-conversion table is not the margin row, and
      its cell reading "1 (...)" counts 1. */
  lemma NonConversionClick(status: string, comment: string, columnId: string, share: string, vehicles: seq<string>)
    requires status != [] && !IsSpace(status[0]) && LowerChar(status[0]) != 'g'
    requires columnId != "Activity status"
    ensures var rowData := NonConversionRow(status, comment, columnId, Pivot.Render(1, share));
      !IsGrandTotal(NonConversionColumns(vehicles), rowData) && CellCount(rowData, columnId) == 1
  {
    var rowData := NonConversionRow(status, comment, columnId, Pivot.Render(1, share));
    var cols := NonConversionColumns(vehicles);
    assert rowData[cols[0]] == status;
    NotGrandTotal(status);
    Pivot.RenderReadsBack(1, share);
  }

  /** The drill-down of the "Others" cell selects status "Others" and finds
      nothing. */
  lemma OthersCellDrillDown(x: Row, comment: string, share: string)
    requires x.newStatus != "Others"
    requires x.activityStatusFinal == "Cancelled Booking" && x.comments == comment
    ensures var rowData := NonConversionRow("Cancelled Booking", comment, "Others", Pivot.Render(1, share));
      ToggleBookingDetails([x], "cancelled", NonConversionColumns(["Others"]), rowData, "Others") == NoMatchingRecords
  {
    var cell := Pivot.Render(1, share);
    var rowData := NonConversionRow("Cancelled Booking", comment, "Others", cell);
    var cols := NonConversionColumns(["Others"]);
    assert "Others"[0] == 'O';
    NonConversionRowPreds("Cancelled Booking", comment, "Others", cell, ["Others"], x);
    NonConversionClick("Cancelled Booking", comment, "Others", share, ["Others"]);
    assert "Others" in StatusColumns;
    var preds := RowPreds(cols, rowData).value + SuffixPreds("cancelled") + StatusPreds("Others");
    assert ResolvePreds([x], "cancelled", cols, rowData, "Others") == Some(preds);
    HoldsAllAppend(RowPreds(cols, rowData).value + SuffixPreds("cancelled"), StatusPreds("Others"), x);
    assert !HoldsAll(preds, x);
    assert Where([x], preds) == [];
  }

  /** The "2w" cell of the row counts only the "2w" booking. */
  lemma VehicleCellCount(x: Row, y: Row, comment: string)
    requires x.bookingId.Some? && x.vehicleType == "2w"
    requires x.activityStatusFinal == "Cancelled Booking" && x.comments == comment
    requires y == x.(vehicleType := "4w")
    ensures var spec := Report.NonConversionSpec("Cancelled Booking");
      Pivot.Count(Pivot.Source([x, y], spec), spec, Some(["Cancelled Booking", comment]), Some("2w")) == 1
  {
    var spec := Report.NonConversionSpec("Cancelled Booking");
    assert "2w"[0] == '2' && "4w"[0] == '4' && "pv"[0] == 'p';
    NonConversionSourceAll([x, y], "Cancelled Booking");
    NonConversionCounts(x, "Cancelled Booking", comment, "2w");
    NonConversionCounts(y, "Cancelled Booking", comment, "2w");
    assert [x, y][1..] == [y];
    Pivot.CountSingle(y, spec, Some(["Cancelled Booking", comment]), Some("2w"));
  }

  /** Every cancelled booking with the row's comment passes the filters
      of the "2w" cell, whatever its vehicle type. */
  lemma VehicleCellHolds(r: Row, comment: string, share: string)
    requires r.activityStatusFinal == "Cancelled Booking" && r.comments == comment
    ensures var rowData := NonConversionRow("Cancelled Booking", comment, "2w", Pivot.Render(1, share));
      var cols := NonConversionColumns(["4w", "2w"]);
      HoldsAll(RowPreds(cols, rowData).value + SuffixPreds("cancelled") + StatusPreds("2w"), r)
  {
    var cell := Pivot.Render(1, share);
    var rowData := NonConversionRow("Cancelled Booking", comment, "2w", cell);
    var cols := NonConversionColumns(["4w", "2w"]);
    NonConversionRowPreds("Cancelled Booking", comment, "2w", cell, ["4w", "2w"], r);
    VehicleNotStatus("2w");
    var rp := RowPreds(cols, rowData).value + SuffixPreds("cancelled");
    HoldsAllAppend(rp, StatusPreds("2w"), r);
    HoldsAllAppend(RowPreds(cols, rowData).value, SuffixPreds("cancelled"), r);
  }

  /** The predicates of a count cell of a non-conversion table: the row's
      status and comment, the table's suffix filter, and the column's own. */
  lemma NonConversionResolves(filtered: seq<Row>, status: string, comment: string, columnId: string, share: string, vehicles: seq<string>)
    requires filtered != []
    requires status != [] && !IsSpace(status[0]) && LowerChar(status[0]) != 'g'
    requires columnId in vehicles
    requires forall k :: 0 <= k < |vehicles| ==> DisplayColumn(vehicles[k]).None? && vehicles[k] != "Category"
    ensures var rowData := NonConversionRow(status, comment, columnId, Pivot.Render(1, share));
      var cols := NonConversionColumns(vehicles);
      RowPreds(cols, rowData).Some?
      && ResolvePreds(filtered, "cancelled", cols, rowData, columnId)
         == Some(RowPreds(cols, rowData).value + SuffixPreds("cancelled") + StatusPreds(columnId))
      && CellCount(rowData, columnId) == 1
  {
    var cell := Pivot.Render(1, share);
    var k :| 0 <= k < |vehicles| && vehicles[k] == columnId;
    assert DisplayColumn(vehicles[k]).None?;
    assert columnId != "Activity status";
    NonConversionClick(status, comment, columnId, share, vehicles);
    NonConversionRowPreds(status, comment, columnId, cell, vehicles, filtered[0]);
  }

  /** A click outside the follow-up table whose predicates resolve, on a
      cell that counts something, lists the rows those predicates keep. */
  lemma ClickLists(filtered: seq<Row>, suffix: string, cols: seq<string>, rowData: RowData, columnId: string, preds: seq<Pred>)
    requires filtered != [] && cols != [] && suffix != "followup"
    requires ResolvePreds(filtered, suffix, cols, rowData, columnId) == Some(preds)
    requires CellCount(rowData, columnId) != 0 && Where(filtered, preds) != []
    ensures ToggleBookingDetails(filtered, suffix, cols, rowData, columnId) == Records(Number(Where(filtered, preds)))
  {
  }

  /** The drill-down of the "2w" cell keeps both bookings of the row. */
  lemma VehicleCellDrillDown(x: Row, y: Row, comment: string, share: string)
    requires x.vehicleType == "2w"
    requires x.activityStatusFinal == "Cancelled Booking" && x.comments == comment
    requires y == x.(vehicleType := "4w")
    ensures var rowData := NonConversionRow("Cancelled Booking", comment, "2w", Pivot.Render(1, share));
      ToggleBookingDetails([x, y], "cancelled", NonConversionColumns(["4w", "2w"]), rowData, "2w")
      == Records(Number([x, y]))
  {
    assert "2w"[0] == '2';
    var cell := Pivot.Render(1, share);
    var rowData := NonConversionRow("Cancelled Booking", comment, "2w", cell);
    var cols := NonConversionColumns(["4w", "2w"]);
    NonConversionResolves([x, y], "Cancelled Booking", comment, "2w", share, ["4w", "2w"]);
    var preds := RowPreds(cols, rowData).value + SuffixPreds("cancelled") + StatusPreds("2w");
    VehicleCellKeepsBoth(x, y, comment, share);
    ClickLists([x, y], "cancelled", cols, rowData, "2w", preds);
  }

  /** The "2w" cell's predicates keep both bookings of the row. */
  lemma VehicleCellKeepsBoth(x: Row, y: Row, comment: string, share: string)
    requires x.activityStatusFinal == "Cancelled Booking" && x.comments == comment
    requires y.activityStatusFinal == "Cancelled Booking" && y.comments == comment
    ensures var rowData := NonConversionRow("Cancelled Booking", comment, "2w", Pivot.Render(1, share));
      var cols := NonConversionColumns(["4w", "2w"]);
      RowPreds(cols, rowData).Some?
      && Where([x, y], RowPreds(cols, rowData).value + SuffixPreds("cancelled") + StatusPreds("2w")) == [x, y]
  {
    var rowData := NonConversionRow("Cancelled Booking", comment, "2w", Pivot.Render(1, share));
    var cols := NonConversionColumns(["4w", "2w"]);
    VehicleCellHolds(x, comment, share);
    VehicleCellHolds(y, comment, share);
    var preds := RowPreds(cols, rowData).value + SuffixPreds("cancelled") + StatusPreds("2w");
    FilterAll([x, y], r => HoldsAll(preds, r));
  }

  /** A vehicle-type column of a non-conversion table selects no vehicle
      type: with one cancelled "2w" booking and one "4w" booking on the same
      row, the "2w" cell counts one, yet its drill-down lists both. */
  lemma VehicleColumnQuirk(x: Row, y: Row, comment: string, share: string)
    requires x.bookingId.Some? && x.vehicleType == "2w"
    requires x.activityStatusFinal == "Cancelled Booking" && x.comments == comment
    requires y == x.(vehicleType := "4w")
    ensures var spec := Report.NonConversionSpec("Cancelled Booking");
      Pivot.Count(Pivot.Source([x, y], spec), spec, Some(["Cancelled Booking", comment]), Some("2w")) == 1
    ensures var rowData := NonConversionRow("Cancelled Booking", comment, "2w", Pivot.Render(1, share));
      ToggleBookingDetails([x, y], "cancelled", NonConversionColumns(["4w", "2w"]), rowData, "2w")
      == Records(Number([x, y]))
  {
    VehicleCellCount(x, y, comment);
    VehicleCellDrillDown(x, y, comment, share);
  }

  // ---- The conversion tables ----------------------------------------------

  /** The displayed index column of a conversion pivot selects by its own
      field. */
  lemma ConversionLabel(c: Column)
    requires c == MasterService || c == CrmAdminName || c == UserSource
    ensures DisplayColumn(Pivot.Rename(ColumnName(c))) == Some(c)
    ensures Pivot.Rename(ColumnName(c)) != "Category"
  {
  }

  /** The header of a conversion pivot: its index column, then columns
      ("Total Leads" and the `new_status` values) that select by nothing. */
  predicate ConversionHeader(c: Column, cols: seq<string>) {
    cols != [] && cols[0] == Pivot.Rename(ColumnName(c))
    && forall i :: 1 <= i < |cols| ==> DisplayColumn(cols[i]).None? && cols[i] != "Category"
  }

  /** In a conversion pivot the clicked row selects its index value, and
      the clicked column its status only when it is one of the six keys of
      the status map. */
  lemma ConversionPredsMeaning(c: Column, cols: seq<string>, rowData: RowData, v: string, columnId: string, x: Row)
    requires c == MasterService || c == CrmAdminName || c == UserSource
    requires ConversionHeader(c, cols) && cols[0] in rowData && rowData[cols[0]] == v
    ensures RowPreds(cols, rowData).Some?
    ensures HoldsAll(RowPreds(cols, rowData).value + SuffixPreds("") + StatusPreds(columnId), x)
      <==> Get(x, c) == v && (columnId in StatusColumns ==> x.newStatus == columnId)
  {
    ConversionLabel(c);
    assert "Category" !in cols by {
      forall i | 0 <= i < |cols| ensures cols[i] != "Category" {
      }
    }
    RowPredsMeaning(cols, rowData, x);
    assert MatchesRow(x, cols, rowData) <==> Get(x, c) == v by {
      assert DisplayColumn(cols[0]) == Some(c);
    }
    var rp := RowPreds(cols, rowData).value;
    HoldsAllAppend(rp + SuffixPreds(""), StatusPreds(columnId), x);
    HoldsAllAppend(rp, SuffixPreds(""), x);
  }

  /** The keys of a conversion pivot's data-row cell select its index value
      and, in a status column, that `new_status`. */
  lemma ConversionKeyPreds(c: Column, v: string, cell: Pivot.ColKey, x: Row)
    ensures HoldsAll(KeyPreds(Report.ConversionSpec(c), Pivot.DataRow([v]), cell), x)
      <==> Get(x, c) == v && (cell.DataCol? ==> x.newStatus == cell.value)
  {
    var spec := Report.ConversionSpec(c);
    assert spec.index[0] == c && Get(x, spec.columns) == x.newStatus;
    SingleIndexKeyPreds(spec, v, cell, x);
  }

  /** A conversion pivot's clicked data row resolves to its row
      predicates and the status map's predicate. */
  lemma ConversionResolves(filtered: seq<Row>, c: Column, cols: seq<string>, rowData: RowData, v: string, columnId: string)
    requires c == MasterService || c == CrmAdminName || c == UserSource
    requires filtered != []
    requires ConversionHeader(c, cols) && cols[0] in rowData && rowData[cols[0]] == v
    requires Lower(Strip(v)) != "grand total"
    ensures RowPreds(cols, rowData).Some?
    ensures ResolvePreds(filtered, "", cols, rowData, columnId)
      == Some(RowPreds(cols, rowData).value + SuffixPreds("") + StatusPreds(columnId))
  {
    ConversionPredsMeaning(c, cols, rowData, v, columnId, filtered[0]);
    assert !IsGrandTotal(cols, rowData);
  }

  /** The drill-down of a conversion pivot as written, for every clicked
      data row and every column that counts something: a status-map column
      lists the rows behind that cell, and any other column (an
      "Unknown Status" column, say) lists the rows behind the whole row's
      "Total Leads" cell. */
  lemma ConversionClickSelects(filtered: seq<Row>, c: Column, cols: seq<string>, rowData: RowData, v: string, columnId: string)
    requires c == MasterService || c == CrmAdminName || c == UserSource
    requires filtered != [] && forall r :: r in filtered ==> r.vehicleType != "pv"
    requires ConversionHeader(c, cols) && cols[0] in rowData && rowData[cols[0]] == v
    requires Lower(Strip(v)) != "grand total"
    requires CellCount(rowData, columnId) > 0
    ensures var cell := if columnId in StatusColumns then Pivot.DataCol(columnId) else Pivot.TotalCol;
      var shown := ResolveCell(filtered, Report.ConversionSpec(c), Pivot.DataRow([v]), cell);
      ToggleBookingDetails(filtered, "", cols, rowData, columnId)
      == (if shown == [] then NoMatchingRecords else Records(Number(shown)))
  {
    var spec := Report.ConversionSpec(c);
    var cell := if columnId in StatusColumns then Pivot.DataCol(columnId) else Pivot.TotalCol;
    ConversionResolves(filtered, c, cols, rowData, v, columnId);
    var preds := RowPreds(cols, rowData).value + SuffixPreds("") + StatusPreds(columnId);
    var keys := KeyPreds(spec, Pivot.DataRow([v]), cell);
    forall x ensures HoldsAll(preds, x) == HoldsAll(keys, x) {
      ConversionPredsMeaning(c, cols, rowData, v, columnId, x);
      ConversionKeyPreds(c, v, cell, x);
    }
    Report.ConversionSourceIsAll(filtered, c);
    FilterSameOn(filtered, x => HoldsAll(preds, x), x => HoldsAll(keys, x));
    var shown := ResolveCell(filtered, spec, Pivot.DataRow([v]), cell);
    assert Where(filtered, preds) == shown;
    if shown != [] {
      ClickLists(filtered, "", cols, rowData, columnId, preds);
    }
  }

  // ---- The selection a cell counts --------------------------------------

  /** The predicates a pivot cell's keys stand for: each index column equal
      to the row key's value, and the column field equal to the column key;
      a margin key adds none. */
  function KeyPreds(spec: Pivot.Spec, rk: Pivot.RowKey, ck: Pivot.ColKey): seq<Pred>
    requires rk.DataRow? ==> |rk.values| == |spec.index|
  {
    RowKeyPreds(spec, rk) + ColKeyPreds(spec, ck)
  }

  function RowKeyPreds(spec: Pivot.Spec, rk: Pivot.RowKey): seq<Pred>
    requires rk.DataRow? ==> |rk.values| == |spec.index|
  {
    match rk
    case DataRow(v) => seq(|spec.index|, i requires 0 <= i < |spec.index| => Eq(spec.index[i], v[i]))
    case TotalRow => []
  }

  function ColKeyPreds(spec: Pivot.Spec, ck: Pivot.ColKey): seq<Pred> {
    match ck
    case DataCol(v) => [Eq(spec.columns, v)]
    case TotalCol => []
  }

  /** A pivot with one index column: a data row's key selects that column. */
  lemma RowKeyPredsSingle(spec: Pivot.Spec, v: string)
    requires |spec.index| == 1
    ensures RowKeyPreds(spec, Pivot.DataRow([v])) == [Eq(spec.index[0], v)]
  {
    var ps := RowKeyPreds(spec, Pivot.DataRow([v]));
    assert |ps| == 1 && ps[0] == Eq(spec.index[0], v);
  }

  /** The column part of a cell's keys: its value of the column field. */
  lemma ColKeyPredsMeaning(spec: Pivot.Spec, ck: Pivot.ColKey, x: Row)
    ensures HoldsAll(ColKeyPreds(spec, ck), x) <==> (ck.DataCol? ==> Get(x, spec.columns) == ck.value)
  {
    if ck.DataCol? {
      HoldsOne(Eq(spec.columns, ck.value));
    }
  }

  /** The keys of a data-row cell of a pivot with one index column. */
  lemma SingleIndexKeyPreds(spec: Pivot.Spec, v: string, ck: Pivot.ColKey, x: Row)
    requires |spec.index| == 1
    ensures HoldsAll(KeyPreds(spec, Pivot.DataRow([v]), ck), x)
      <==> Get(x, spec.index[0]) == v && (ck.DataCol? ==> Get(x, spec.columns) == ck.value)
  {
    RowKeyPredsSingle(spec, v);
    HoldsAllCons(Eq(spec.index[0], v), ColKeyPreds(spec, ck), x);
    ColKeyPredsMeaning(spec, ck, x);
  }

  /** The rows behind a pivot cell: the pivot's source rows with the cell's
      keys. */
  function ResolveCell(rows: seq<Row>, spec: Pivot.Spec, rk: Pivot.RowKey, ck: Pivot.ColKey): (out: seq<Row>)
    requires rk.DataRow? ==> |rk.values| == |spec.index|
    ensures forall x :: x in out <==> x in Pivot.Source(rows, spec) && HoldsAll(KeyPreds(spec, rk, ck), x)
  {
    Where(Pivot.Source(rows, spec), KeyPreds(spec, rk, ck))
  }

  lemma KeyPredsMeaning(spec: Pivot.Spec, rk: Pivot.RowKey, ck: Pivot.ColKey, x: Row)
    requires rk.DataRow? ==> |rk.values| == |spec.index|
    ensures HoldsAll(KeyPreds(spec, rk, ck), x) <==>
      (rk.DataRow? ==> Pivot.KeyOf(x, spec.index) == rk.values)
      && (ck.DataCol? ==> Get(x, spec.columns) == ck.value)
  {
    var rowPart := RowKeyPreds(spec, rk);
    HoldsAllAppend(rowPart, ColKeyPreds(spec, ck), x);
    ColKeyPredsMeaning(spec, ck, x);
    if rk.DataRow? {
      var k := Pivot.KeyOf(x, spec.index);
      if HoldsAll(rowPart, x) {
        forall i | 0 <= i < |spec.index| ensures k[i] == rk.values[i] {
          assert Holds(rowPart[i], x);
        }
      }
      if k == rk.values {
        forall i | 0 <= i < |rowPart| ensures Holds(rowPart[i], x) {
          assert k[i] == rk.values[i];
        }
      }
    }
  }

  /** Counting the ids a selection keeps is counting the rows it keeps
      that have an id, when it agrees with a cell's keys on such rows. */
  lemma {:induction false} CountIdsOfSelection(rows: seq<Row>, p: Row -> bool, spec: Pivot.Spec,
                                               rk: Option<seq<string>>, ck: Option<string>)
    requires forall x :: (p(x) && x.bookingId.Some?) <==> Pivot.Counts(x, spec, rk, ck)
    ensures CountIds(Filter(rows, p)) == Pivot.Count(rows, spec, rk, ck)
    decreases |rows|
  {
    if rows != [] {
      CountIdsOfSelection(rows[1..], p, spec, rk, ck);
      var rest := Filter(rows[1..], p);
      assert Filter(rows, p) == (if p(rows[0]) then [rows[0]] else []) + rest;
      assert p(rows[0]) && rows[0].bookingId.Some? <==> Pivot.Counts(rows[0], spec, rk, ck);
      if p(rows[0]) {
        assert ([rows[0]] + rest)[1..] == rest;
        assert CountIds([rows[0]] + rest) == (if rows[0].bookingId.Some? then 1 else 0) + CountIds(rest);
      } else {
        assert [] + rest == rest;
      }
    }
  }

  /** Selecting by a cell's keys, the ids kept are the cell's count. */
  lemma CountIdsOfKeys(rows: seq<Row>, spec: Pivot.Spec, rk: Pivot.RowKey, ck: Pivot.ColKey)
    requires rk.DataRow? ==> |rk.values| == |spec.index|
    ensures CountIds(Where(rows, KeyPreds(spec, rk, ck))) == Pivot.Count(rows, spec, Pivot.RowSel(rk), Pivot.ColSel(ck))
  {
    var ps := KeyPreds(spec, rk, ck);
    forall x ensures (HoldsAll(ps, x) && x.bookingId.Some?) <==> Pivot.Counts(x, spec, Pivot.RowSel(rk), Pivot.ColSel(ck)) {
      KeyPredsMeaning(spec, rk, ck, x);
    }
    CountIdsOfSelection(rows, x => HoldsAll(ps, x), spec, Pivot.RowSel(rk), Pivot.ColSel(ck));
  }

  /** The corrected drill-down: the ids behind a cell are exactly as many
      as the cell shows, for every cell of every pivot. */
  lemma ResolveCellMatchesCell(rows: seq<Row>, spec: Pivot.Spec, rk: Pivot.RowKey, ck: Pivot.ColKey)
    requires Pivot.PivotCounts(rows, spec).Some?
    requires (rk, ck) in Pivot.PivotCounts(rows, spec).value.cells
    ensures rk.DataRow? ==> |rk.values| == |spec.index|
    ensures rk.DataRow? ==> CountIds(ResolveCell(rows, spec, rk, ck)) == Pivot.PivotCounts(rows, spec).value.cells[(rk, ck)]
    ensures rk.TotalRow? ==> CountIds(ResolveCell(rows, spec, rk, ck)) == Pivot.PivotCounts(rows, spec).value.cells[(rk, ck)]
  {
    var t := Pivot.PivotCounts(rows, spec).value;
    var src := Pivot.Source(rows, spec);
    assert (rk, ck) in Pivot.Cells(t.rowKeys, t.colKeys);
    if rk.DataRow? {
      assert rk.values in t.rowKeys;
      var i :| 0 <= i < |src| && Pivot.KeyOf(src[i], spec.index) == rk.values;
    }
    Pivot.CellCountAt(rows, spec, rk, ck);
    CountIdsOfKeys(src, spec, rk, ck);
  }

  // ---- Where the conversion drill-down agrees and where it misses ----------

  /** In a conversion pivot, clicking a data row's status-map column lists
      exactly as many ids as the cell shows, and a miss means the cell is 0. */
  lemma ConversionStatusCellAgrees(filtered: seq<Row>, c: Column, cols: seq<string>, rowData: RowData, v: string, s: string)
    requires c == MasterService || c == CrmAdminName || c == UserSource
    requires filtered != [] && forall r :: r in filtered ==> r.vehicleType != "pv"
    requires ConversionHeader(c, cols) && cols[0] in rowData && rowData[cols[0]] == v
    requires Lower(Strip(v)) != "grand total"
    requires CellCount(rowData, s) > 0 && s in StatusColumns
    requires Pivot.PivotCounts(filtered, Report.ConversionSpec(c)).Some?
    requires (Pivot.DataRow([v]), Pivot.DataCol(s)) in Pivot.PivotCounts(filtered, Report.ConversionSpec(c)).value.cells
    ensures var out := ToggleBookingDetails(filtered, "", cols, rowData, s);
      var n := Pivot.PivotCounts(filtered, Report.ConversionSpec(c)).value.cells[(Pivot.DataRow([v]), Pivot.DataCol(s))];
      (out.Records? ==> CountIds(Unnumber(out.rows)) == n)
      && (out == NoMatchingRecords ==> n == 0)
      && (out.Records? || out == NoMatchingRecords)
  {
    var spec := Report.ConversionSpec(c);
    ConversionClickSelects(filtered, c, cols, rowData, v, s);
    ResolveCellMatchesCell(filtered, spec, Pivot.DataRow([v]), Pivot.DataCol(s));
    NumberRoundTrip(ResolveCell(filtered, spec, Pivot.DataRow([v]), Pivot.DataCol(s)));
  }

  /** "Unknown Status" is a `new_status` value but no key of the status map. */
  lemma UnknownStatusNotStatus()
    ensures "Unknown Status" !in StatusColumns
  {
    var s := StatusColumns;
    assert s[0][0] == 'G' && s[1][0] == 'F' && s[2][0] == 'C' && s[3][0] == 'O' && s[4][0] == 'I' && s[5][0] == 'D';
    assert "Unknown Status"[0] == 'U';
  }

  /** The service pivot's "Unknown Status" column selects no status: with
      one booking of that status and one "Goaxled" booking of the same
      service, the "Unknown Status" cell counts one, yet its drill-down
      lists both. */
  lemma UnknownStatusQuirk(x: Row, y: Row, service: string, share: string)
    requires x.bookingId.Some? && x.vehicleType == "2w" && x.masterService == service
    requires x.newStatus == "Unknown Status"
    requires service != [] && !IsSpace(service[0]) && LowerChar(service[0]) != 'g'
    requires y == x.(newStatus := "Goaxled")
    ensures var spec := Report.ConversionSpec(MasterService);
      Pivot.Count(Pivot.Source([x, y], spec), spec, Some([service]), Some("Unknown Status")) == 1
    ensures ToggleBookingDetails([x, y], "", ["Service", "Total Leads", "Goaxled", "Unknown Status"],
        map["Service" := service, "Unknown Status" := Pivot.Render(1, share)], "Unknown Status")
      == Records(Number([x, y]))
  {
    UnknownStatusCount(x, y, service);
    UnknownStatusDrillDown(x, y, service, share);
  }

  lemma UnknownStatusCount(x: Row, y: Row, service: string)
    requires x.bookingId.Some? && x.vehicleType == "2w" && x.masterService == service
    requires x.newStatus == "Unknown Status"
    requires y == x.(newStatus := "Goaxled")
    ensures var spec := Report.ConversionSpec(MasterService);
      Pivot.Count(Pivot.Source([x, y], spec), spec, Some([service]), Some("Unknown Status")) == 1
  {
    var spec := Report.ConversionSpec(MasterService);
    assert "2w"[0] == '2' && "pv"[0] == 'p';
    Report.ConversionSourceIsAll([x, y], MasterService);
    assert Pivot.KeyOf(x, spec.index) == [service];
    assert "Goaxled"[0] == 'G' && "Unknown Status"[0] == 'U';
    assert !Pivot.Counts(y, spec, Some([service]), Some("Unknown Status"));
    assert [x, y][1..] == [y];
    Pivot.CountSingle(y, spec, Some([service]), Some("Unknown Status"));
  }

  lemma UnknownStatusDrillDown(x: Row, y: Row, service: string, share: string)
    requires x.vehicleType == "2w" && x.masterService == service
    requires service != [] && !IsSpace(service[0]) && LowerChar(service[0]) != 'g'
    requires y == x.(newStatus := "Goaxled")
    ensures ToggleBookingDetails([x, y], "", ["Service", "Total Leads", "Goaxled", "Unknown Status"],
        map["Service" := service, "Unknown Status" := Pivot.Render(1, share)], "Unknown Status")
      == Records(Number([x, y]))
  {
    UnknownStatusClick([x, y], service, share);
    UnknownStatusRowShown(x, y, service);
  }

  /** Clicking "Unknown Status" in a service row lists the row's bookings. */
  lemma UnknownStatusClick(rows: seq<Row>, service: string, share: string)
    requires rows != [] && forall r :: r in rows ==> r.vehicleType != "pv"
    requires service != [] && !IsSpace(service[0]) && LowerChar(service[0]) != 'g'
    ensures var shown := ResolveCell(rows, Report.ConversionSpec(MasterService), Pivot.DataRow([service]), Pivot.TotalCol);
      ToggleBookingDetails(rows, "", ["Service", "Total Leads", "Goaxled", "Unknown Status"],
        map["Service" := service, "Unknown Status" := Pivot.Render(1, share)], "Unknown Status")
      == (if shown == [] then NoMatchingRecords else Records(Number(shown)))
  {
    var cols := ["Service", "Total Leads", "Goaxled", "Unknown Status"];
    var rowData := map["Service" := service, "Unknown Status" := Pivot.Render(1, share)];
    assert ConversionHeader(MasterService, cols) by {
      assert "Total Leads"[0] == 'T' && "Goaxled"[0] == 'G' && "Unknown Status"[0] == 'U';
    }
    NotGrandTotal(service);
    Pivot.RenderReadsBack(1, share);
    UnknownStatusNotStatus();
    ConversionClickSelects(rows, MasterService, cols, rowData, service, "Unknown Status");
  }

  /** Both bookings of the service row are behind its "Total Leads" cell. */
  lemma UnknownStatusRowShown(x: Row, y: Row, service: string)
    requires x.vehicleType == "2w" && x.masterService == service
    requires y == x.(newStatus := "Goaxled")
    ensures ResolveCell([x, y], Report.ConversionSpec(MasterService), Pivot.DataRow([service]), Pivot.TotalCol) == [x, y]
  {
    var spec := Report.ConversionSpec(MasterService);
    var keys := KeyPreds(spec, Pivot.DataRow([service]), Pivot.TotalCol);
    assert "2w"[0] == '2' && "pv"[0] == 'p';
    ConversionKeyPreds(MasterService, service, Pivot.TotalCol, x);
    ConversionKeyPreds(MasterService, service, Pivot.TotalCol, y);
    Report.ConversionSourceIsAll([x, y], MasterService);
    FilterAll([x, y], r => HoldsAll(keys, r));
  }

  // ---- The follow-up table ------------------------------------------------

  /** The keys of a follow-up pivot's data-row cell select its cleaned
      category and, in a vehicle column, that vehicle type. */
  lemma FollowUpKeyPreds(cat: string, cell: Pivot.ColKey, x: Row)
    ensures HoldsAll(KeyPreds(Report.FollowUpSpec, Pivot.DataRow([cat]), cell), x)
      <==> Get(x, CleanedCategory) == cat && (cell.DataCol? ==> x.vehicleType == cell.value)
  {
    SingleIndexKeyPreds(Report.FollowUpSpec, cat, cell, x);
  }

  /** A follow-up column that selects by vehicle type: one present in the
      follow-up rows. */
  predicate VehicleColumn(df: seq<Row>, columnId: string) {
    columnId != "" && columnId != "Total Leads" && exists i :: 0 <= i < |df| && df[i].vehicleType == columnId
  }

  /** A follow-up click with a category selects that category and, outside
      "Total Leads", the clicked vehicle type. */
  lemma FollowUpPredsMeaning(df: seq<Row>, rowData: RowData, cat: string, columnId: string, x: Row)
    requires ClickedCategory(rowData) == Some(cat)
    requires columnId == "Total Leads" || VehicleColumn(df, columnId)
    ensures HoldsAll(FollowUpColumnPreds(df, columnId, rowData) + CategoryPreds(rowData), x)
      <==> Get(x, CleanedCategory) == cat && (columnId != "Total Leads" ==> x.vehicleType == columnId)
  {
    HoldsAllAppend(FollowUpColumnPreds(df, columnId, rowData), CategoryPreds(rowData), x);
  }

  /** The drill-down of the follow-up pivot as written, for every clicked
      data row with a category and every vehicle or "Total Leads" column
      that counts something: it lists the rows behind that cell. */
  lemma FollowUpClickSelects(filtered: seq<Row>, cols: seq<string>, rowData: RowData, cat: string, columnId: string)
    requires filtered != [] && forall r :: r in filtered ==> r.vehicleType != "pv"
    requires cols != [] && !IsGrandTotal(cols, rowData)
    requires ClickedCategory(rowData) == Some(cat)
    requires columnId == "Total Leads" || VehicleColumn(Report.FollowUps(filtered), columnId)
    requires CellCount(rowData, columnId) > 0
    ensures var cell := if columnId == "Total Leads" then Pivot.TotalCol else Pivot.DataCol(columnId);
      var shown := ResolveCell(Report.FollowUps(filtered), Report.FollowUpSpec, Pivot.DataRow([cat]), cell);
      ToggleBookingDetails(filtered, "followup", cols, rowData, columnId)
      == (if shown == [] then NoMatchingRecords else Records(Number(shown)))
  {
    var df := Report.FollowUps(filtered);
    var cell := if columnId == "Total Leads" then Pivot.TotalCol else Pivot.DataCol(columnId);
    var preds := FollowUpColumnPreds(df, columnId, rowData) + CategoryPreds(rowData);
    assert ResolvePreds(df, "followup", cols, rowData, columnId) == Some(preds);
    var keys := KeyPreds(Report.FollowUpSpec, Pivot.DataRow([cat]), cell);
    forall x ensures HoldsAll(preds, x) == HoldsAll(keys, x) {
      FollowUpPredsMeaning(df, rowData, cat, columnId, x);
      FollowUpKeyPreds(cat, cell, x);
    }
    Report.FollowUpSourceIsAll(filtered);
    FilterSameOn(df, x => HoldsAll(preds, x), x => HoldsAll(keys, x));
    assert Where(df, preds) == ResolveCell(df, Report.FollowUpSpec, Pivot.DataRow([cat]), cell);
  }

  /** The follow-up "2w" cell of the row whose category cleaned to "" counts
      only that row's booking. */
  lemma EmptyCategoryCount(x: Row, y: Row)
    requires x.bookingId.Some? && Report.IsFollowUp(x) && Report.IsFollowUp(y)
    requires x.vehicleType == "2w" && y.vehicleType == "2w"
    requires Get(x, CleanedCategory) == "" && Get(y, CleanedCategory) != ""
    ensures var spec := Report.FollowUpSpec;
      Pivot.Count(Pivot.Source(Report.FollowUps([x, y]), spec), spec, Some([""]), Some("2w")) == 1
  {
    var spec := Report.FollowUpSpec;
    assert "2w"[0] == '2' && "pv"[0] == 'p';
    FollowUpPair(x, y);
    Report.FollowUpSourceIsAll([x, y]);
    assert Pivot.KeyOf(x, spec.index) == [""];
    assert Pivot.KeyOf(y, spec.index) != [""] by {
      assert Pivot.KeyOf(y, spec.index)[0] == Get(y, CleanedCategory);
    }
    assert [x, y][1..] == [y];
    Pivot.CountSingle(y, spec, Some([""]), Some("2w"));
  }

  /** A follow-up click whose predicates resolve, on a cell that counts
      something, lists the follow-up rows those predicates keep. */
  lemma FollowUpClickLists(filtered: seq<Row>, cols: seq<string>, rowData: RowData, columnId: string, preds: seq<Pred>)
    requires filtered != [] && cols != []
    requires ResolvePreds(Report.FollowUps(filtered), "followup", cols, rowData, columnId) == Some(preds)
    requires CellCount(rowData, columnId) != 0 && Where(Report.FollowUps(filtered), preds) != []
    ensures ToggleBookingDetails(filtered, "followup", cols, rowData, columnId)
      == Records(Number(Where(Report.FollowUps(filtered), preds)))
  {
  }

  /** Clicking the "2w" cell of the row whose category is "" resolves to the
      vehicle predicate alone, and the cell reads 1. */
  lemma EmptyCategoryClick(df: seq<Row>, share: string)
    requires exists i :: 0 <= i < |df| && df[i].vehicleType == "2w"
    ensures var rowData := map["Category" := "", "2w" := Pivot.Render(1, share)];
      ResolvePreds(df, "followup", ["Category", "Total Leads", "2w"], rowData, "2w")
        == Some(FollowUpColumnPreds(df, "2w", rowData))
      && CellCount(rowData, "2w") == 1
  {
    var cols := ["Category", "Total Leads", "2w"];
    var rowData := map["Category" := "", "2w" := Pivot.Render(1, share)];
    assert Lower(Strip("")) == "";
    assert !IsGrandTotal(cols, rowData);
    assert ClickedCategory(rowData) == None;
    assert FollowUpColumnPreds(df, "2w", rowData) + [] == FollowUpColumnPreds(df, "2w", rowData);
    Pivot.RenderReadsBack(1, share);
  }

  /** Two follow-up bookings are both in the follow-up frame. */
  lemma FollowUpPair(x: Row, y: Row)
    requires Report.IsFollowUp(x) && Report.IsFollowUp(y)
    ensures Report.FollowUps([x, y]) == [x, y]
  {
    FilterAll([x, y], Report.IsFollowUp);
  }

  /** A "2w" click in a frame of two "2w" bookings keeps both. */
  lemma VehiclePairKept(x: Row, y: Row, rowData: RowData)
    requires x.vehicleType == "2w" && y.vehicleType == "2w"
    ensures Where([x, y], FollowUpColumnPreds([x, y], "2w", rowData)) == [x, y]
  {
    var preds := FollowUpColumnPreds([x, y], "2w", rowData);
    assert [x, y][0].vehicleType == "2w";
    FilterAll([x, y], r => HoldsAll(preds, r));
  }

  /** The drill-down of that cell adds no category predicate and lists
      every follow-up "2w" booking. */
  lemma EmptyCategoryDrillDown(x: Row, y: Row, share: string)
    requires Report.IsFollowUp(x) && Report.IsFollowUp(y)
    requires x.vehicleType == "2w" && y.vehicleType == "2w"
    ensures ToggleBookingDetails([x, y], "followup", ["Category", "Total Leads", "2w"],
        map["Category" := "", "2w" := Pivot.Render(1, share)], "2w")
      == Records(Number([x, y]))
  {
    var rowData := map["Category" := "", "2w" := Pivot.Render(1, share)];
    FollowUpPair(x, y);
    assert [x, y][0].vehicleType == "2w";
    EmptyCategoryClick([x, y], share);
    VehiclePairKept(x, y, rowData);
    FollowUpClickLists([x, y], ["Category", "Total Leads", "2w"], rowData, "2w", FollowUpColumnPreds([x, y], "2w", rowData));
  }

  /** A follow-up category that cleaned to "" ('', '  ' or '123 - ' in the
      database) is no category for the drill-down: with one such "2w"
      booking and one "2w" booking of another category, the "" row's "2w"
      cell counts one, yet its drill-down lists both. */
  lemma EmptyCategoryQuirk(x: Row, y: Row, share: string)
    requires x.bookingId.Some? && Report.IsFollowUp(x) && Report.IsFollowUp(y)
    requires x.vehicleType == "2w" && y.vehicleType == "2w"
    requires Get(x, CleanedCategory) == "" && Get(y, CleanedCategory) != ""
    ensures var spec := Report.FollowUpSpec;
      Pivot.Count(Pivot.Source(Report.FollowUps([x, y]), spec), spec, Some([""]), Some("2w")) == 1
    ensures ToggleBookingDetails([x, y], "followup", ["Category", "Total Leads", "2w"],
        map["Category" := "", "2w" := Pivot.Render(1, share)], "2w")
      == Records(Number([x, y]))
  {
    EmptyCategoryCount(x, y);
    EmptyCategoryDrillDown(x, y, share);
  }
}

=== FILE: facets.dfy ===
/** Facet filtering as both pages do it: for each facet in turn, when its
    selection is non-empty, keep the rows whose value is among the
    selected values (`df[df[col].isin(values)]`); an empty or missing
    selection leaves the rows alone. */
module Facets {
  import opened Common

  /** A facet: how to read a row's value (missing values never match) and
      the current selection (`None` when the control holds no value). */
  datatype Facet<!R> = Facet(key: R -> Option<string>, selected: Option<seq<string>>)

  /** `values and len(values) > 0`. */
  predicate Active<R>(f: Facet<R>) {
    f.selected.Some? && |f.selected.value| > 0
  }

  predicate Passes<R>(f: Facet<R>, r: R) {
    !Active(f) || (f.key(r).Some? && f.key(r).value in f.selected.value)
  }

  predicate PassesAll<R>(fs: seq<Facet<R>>, r: R) {
    forall i :: 0 <= i < |fs| ==> Passes(fs[i], r)
  }

  /** The facets applied one after another, in order. */
  function ApplyFacets<R(!new)>(rows: seq<R>, fs: seq<Facet<R>>): (out: seq<R>)
    ensures |out| <= |rows|
    ensures forall x :: x in out <==> x in rows && PassesAll(fs, x)
    decreases |fs|
  {
    if fs == [] then rows
    else ApplyFacets(Filter(rows, x => Passes(fs[0], x)), fs[1..])
  }

  /** Applying the facets one by one is one selection by all of them at
      once, so the result keeps the rows' order. */
  lemma {:induction false} ApplyFacetsIsFilter<R(!new)>(rows: seq<R>, fs: seq<Facet<R>>)
    ensures ApplyFacets(rows, fs) == Filter(rows, x => PassesAll(fs, x))
    decreases |fs|
  {
    if fs == [] {
      FilterAll(rows, x => PassesAll(fs, x));
    } else {
      var first := Filter(rows, x => Passes(fs[0], x));
      ApplyFacetsIsFilter(first, fs[1..]);
      forall x: R
        ensures PassesAll(fs, x) == (Passes(fs[0], x) && PassesAll(fs[1..], x))
      {
        if Passes(fs[0], x) && PassesAll(fs[1..], x) {
          forall i | 0 <= i < |fs|
            ensures Passes(fs[i], x)
          {
            if i > 0 {
              assert fs[i] == fs[1..][i - 1];
            }
          }
        }
        if PassesAll(fs, x) {
          forall i | 0 <= i < |fs[1..]|
            ensures Passes(fs[1..][i], x)
          {
            assert fs[1..][i] == fs[i + 1];
          }
        }
      }
      FilterConj(rows, x => Passes(fs[0], x), x => PassesAll(fs[1..], x), x => PassesAll(fs, x));
    }
  }

  /** The facet filter returns an order-preserving subsequence of its input. */
  lemma ApplyFacetsSubsequence<R(!new)>(rows: seq<R>, fs: seq<Facet<R>>)
    ensures IsSubsequence(ApplyFacets(rows, fs), rows)
  {
    ApplyFacetsIsFilter(rows, fs);
    FilterSubsequence(rows, x => PassesAll(fs, x));
  }

  /** Filtering twice with the same selections is filtering once. */
  lemma ApplyFacetsIdempotent<R(!new)>(rows: seq<R>, fs: seq<Facet<R>>)
    ensures ApplyFacets(ApplyFacets(rows, fs), fs) == ApplyFacets(rows, fs)
  {
    ApplyFacetsIsFilter(rows, fs);
    ApplyFacetsIsFilter(ApplyFacets(rows, fs), fs);
    FilterIdempotent(rows, x => PassesAll(fs, x));
  }

  /** With every selection empty or missing, nothing is removed. */
  lemma InactiveFacetsKeepAll<R(!new)>(rows: seq<R>, fs: seq<Facet<R>>)
    requires forall i :: 0 <= i < |fs| ==> !Active(fs[i])
    ensures ApplyFacets(rows, fs) == rows
  {
    ApplyFacetsIsFilter(rows, fs);
    FilterAll(rows, x => PassesAll(fs, x));
  }
}

=== FILE: feedback.dfy ===
/** The feedback page's rows and the values derived from them: the
    `service_category` and `source` columns, the check-in date filter, the
    checklist options built from the filtered rows, and the dropdown
    labels. */
module Feedback {
  import opened Common
  import opened Text
  import opened Calendar
  import opened Sorting

  /** One check-in record: the booking id, the master service, the raw
      source, the person's name and the check-in date, each possibly
      missing. */
  datatype FbRow = FbRow(
    bookingId: Option<int>,
    masterService: Option<string>,
    gSource: Option<string>,
    cmName: Option<string>,
    b2bLog: Option<Date>)

  // ---- service_category ---------------------------------------------------

  /** `\s\d` starts at position `k`. */
  predicate SpaceDigitAt(s: string, k: int) {
    0 <= k && k + 1 < |s| && IsSpace(s[k]) && IsDigit(s[k + 1])
  }

  /** `$` matches at `k`: the end, or just before a final newline. */
  predicate EndAt(s: string, k: int) {
    k == |s| || (k == |s| - 1 && k >= 0 && s[k] == '\n')
  }

  /** Where the lazy group of `^(.*?)(?:\s\d+|$)` ends when the search
      starts at `k`: the first position where `\s\d` starts or `$` matches,
      provided `.` (which does not match a newline) can reach it. */
  function CategoryEnd(s: string, k: nat): (r: Option<nat>)
    requires k <= |s|
    ensures r.Some? ==> k <= r.value <= |s| && (SpaceDigitAt(s, r.value) || EndAt(s, r.value))
    ensures r.Some? ==> forall j :: k <= j < r.value ==> s[j] != '\n' && !SpaceDigitAt(s, j) && !EndAt(s, j)
    ensures r.None? ==> exists j :: k <= j < |s| && s[j] == '\n' && !SpaceDigitAt(s, j) && !EndAt(s, j)
    decreases |s| - k
  {
    if k == |s| then Some(k)
    else if SpaceDigitAt(s, k) || EndAt(s, k) then Some(k)
    else if s[k] == '\n' then None
    else CategoryEnd(s, k + 1)
  }

  /** `str.extract(r'^(.*?)(?:\s\d+|$)')[0]`: the captured prefix, or no
      match. */
  function ExtractCategory(s: string): (r: Option<string>)
    ensures r.Some? ==> StartsWith(s, r.value)
  {
    match CategoryEnd(s, 0)
    case None => None
    case Some(e) => Some(s[..e])
  }

  /** `service_category`: the extracted prefix of the master service, or
      "Other" where the service is missing or the pattern finds no match. */
  function ServiceCategory(r: FbRow): string {
    match r.masterService
    case None => "Other"
    case Some(s) =>
      match ExtractCategory(s)
      case None => "Other"
      case Some(p) => p
  }

  /** A name with no newline and no whitespace-then-digit inside it. */
  predicate PlainName(name: string) {
    forall j :: 0 <= j < |name| ==> name[j] != '\n' && !SpaceDigitAt(name, j)
  }

  lemma {:induction false} CategoryEndSkipsPlain(name: string, s: string, k: nat)
    requires StartsWith(s, name) && PlainName(name) && k <= |name| < |s|
    requires |name| > 0 ==> !IsDigit(s[|name|])
    requires forall j :: k <= j < |name| ==> !EndAt(s, j)
    ensures CategoryEnd(s, k) == CategoryEnd(s, |name|)
    decreases |name| - k
  {
    if k < |name| {
      assert s[k] == name[k];
      assert !SpaceDigitAt(s, k) by {
        if k + 1 < |name| {
          assert s[k + 1] == name[k + 1];
          assert !SpaceDigitAt(name, k);
        }
      }
      CategoryEndSkipsPlain(name, s, k + 1);
    }
  }

  /** A service named "name, whitespace, digits..." is categorised by its
      name: "Car Service 1234" gives "Car Service". */
  lemma ServiceCategoryNumbered(r: FbRow, name: string, c: char, d: char, rest: string)
    requires r.masterService == Some(name + [c, d] + rest)
    requires PlainName(name) && IsSpace(c) && IsDigit(d)
    ensures ServiceCategory(r) == name
  {
    var s := name + [c, d] + rest;
    assert s[..|name|] == name;
    assert s[|name|] == c && s[|name| + 1] == d;
    forall j | 0 <= j < |name| ensures !EndAt(s, j) {
    }
    CategoryEndSkipsPlain(name, s, 0);
    assert SpaceDigitAt(s, |name|);
  }

  /** A service with no number is its own category. */
  lemma ServiceCategoryPlain(r: FbRow, name: string)
    requires r.masterService == Some(name) && PlainName(name)
    ensures ServiceCategory(r) == name
  {
    assert name[..|name|] == name;
  }

  // ---- source ---------------------------------------------------------------

  /** `source`: the raw source with underscores as spaces, title-cased;
      missing stays missing. */
  function Source(r: FbRow): (s: Option<string>)
    ensures s.Some? <==> r.gSource.Some?
    ensures s.Some? ==> |s.value| == |r.gSource.value|
  {
    match r.gSource
    case None => None
    case Some(g) => Some(Title(ReplaceChar(g, '_', ' ')))
  }

  /** A derived source has no underscore, and every position holds the
      case-mapped raw character, with underscores as spaces. */
  lemma SourceShape(r: FbRow, i: nat)
    requires r.gSource.Some? && i < |r.gSource.value|
    ensures Source(r).value[i] != '_'
    ensures var t := ReplaceChar(r.gSource.value, '_', ' ');
      Source(r).value[i] == if i > 0 && IsCased(t[i - 1]) then LowerChar(t[i]) else UpperChar(t[i])
  {
    TitleAt(ReplaceChar(r.gSource.value, '_', ' '), i);
  }

  /** Deriving the source from a derived source changes nothing. */
  lemma SourceStable(r: FbRow)
    requires r.gSource.Some?
    ensures Source(r.(gSource := Source(r))) == Source(r)
  {
    var t := Source(r).value;
    forall i | 0 <= i < |t| ensures t[i] != '_' {
      SourceShape(r, i);
    }
    assert ReplaceChar(t, '_', ' ') == t;
    TitleIdempotent(ReplaceChar(r.gSource.value, '_', ' '));
  }

  // ---- Date filter ------------------------------------------------------------

  /** Python's `<=` on dates. */
  predicate DateLe(a: Date, b: Date) {
    a.year < b.year
    || (a.year == b.year && (a.month < b.month || (a.month == b.month && a.day <= b.day)))
  }

  /** A check-in falls in the range when its date is known and lies between
      the two dates, both included. */
  predicate CheckedInBetween(r: FbRow, start: Date, end: Date) {
    r.b2bLog.Some? && DateLe(start, r.b2bLog.value) && DateLe(r.b2bLog.value, end)
  }

  function FilterByDate(rows: seq<FbRow>, start: Date, end: Date): (out: seq<FbRow>)
    ensures forall r :: r in out <==> r in rows && CheckedInBetween(r, start, end)
  {
    Filter(rows, r => CheckedInBetween(r, start, end))
  }

  // ---- Checklist options --------------------------------------------------

  /** A value of a checklist column: a text, a number, or a missing value. */
  datatype Value = VStr(s: string) | VInt(i: int) | VNone

  /** Python's `str` of a value. */
  function Str(v: Value): string {
    match v
    case VStr(s) => s
    case VInt(i) => IntToString(i)
    case VNone => "None"
  }

  /** `s is not None and s != 0`. */
  predicate Offered(v: Value) {
    v != VNone && v != VInt(0)
  }

  datatype CheckOption = CheckOption(caption: string, value: Value)

  /** Values ordered by their text. */
  function ByText(): (Value, Value) -> bool {
    (a: Value, b: Value) => StrLe(Str(a), Str(b))
  }

  lemma ByTextTotal()
    ensures Total(ByText())
  {
    forall a: Value, b: Value ensures ByText()(a, b) || ByText()(b, a) {
      StrLeTotal(Str(a), Str(b));
    }
  }

  /** `create_checklist_options`: the offered values sorted by their text,
      each labelled with its text. */
  function ChecklistOptions(values: seq<Value>): (opts: seq<CheckOption>)
    ensures forall i :: 0 <= i < |opts| ==> opts[i].caption == Str(opts[i].value) && Offered(opts[i].value)
    ensures forall i :: 0 < i < |opts| ==> StrLe(opts[i - 1].caption, opts[i].caption)
    ensures forall v :: (exists i :: 0 <= i < |opts| && opts[i].value == v) <==> v in values && Offered(v)
  {
    var offered := Filter(values, Offered);
    var sorted := SortBy(offered, ByText());
    ByTextTotal();
    SortBySorted(offered, ByText());
    assert forall i :: 0 <= i < |sorted| ==> sorted[i] in offered by {
      forall i | 0 <= i < |sorted| ensures sorted[i] in offered {
        SortByMembers(offered, ByText(), sorted[i]);
      }
    }
    var opts := seq(|sorted|, i requires 0 <= i < |sorted| => CheckOption(Str(sorted[i]), sorted[i]));
    assert forall v :: (exists i :: 0 <= i < |opts| && opts[i].value == v) <==> v in values && Offered(v) by {
      forall v ensures (exists i :: 0 <= i < |opts| && opts[i].value == v) <==> v in values && Offered(v) {
        SortByMembers(offered, ByText(), v);
        if v in sorted {
          var i :| 0 <= i < |sorted| && sorted[i] == v;
          assert opts[i].value == v;
        }
      }
    }
    opts
  }

  function OptionValues(opts: seq<CheckOption>): seq<Value> {
    seq(|opts|, i requires 0 <= i < |opts| => opts[i].value)
  }

  /** The options are a permutation of the offered values: each appears as
      often as it was given. */
  lemma ChecklistOptionsPermutes(values: seq<Value>)
    ensures multiset(OptionValues(ChecklistOptions(values))) == multiset(Filter(values, Offered))
  {
    var offered := Filter(values, Offered);
    var sorted := SortBy(offered, ByText());
    assert OptionValues(ChecklistOptions(values)) == sorted;
  }

  /** The values of one column of the rows: missing values dropped, each
      value once, in order of first appearance (`dropna().unique()`). */
  function PresentKeys(rows: seq<FbRow>, key: FbRow -> Option<string>): (ks: seq<string>)
    ensures NoDups(ks)
    ensures forall k :: k in ks <==> exists i :: 0 <= i < |rows| && key(rows[i]) == Some(k)
  {
    var keyed := Filter(rows, r => key(r).Some?);
    var all := seq(|keyed|, i requires 0 <= i < |keyed| => key(keyed[i]).value);
    assert forall k :: k in all <==> exists i :: 0 <= i < |rows| && key(rows[i]) == Some(k) by {
      forall k ensures k in all <==> exists i :: 0 <= i < |rows| && key(rows[i]) == Some(k) {
        if k in all {
          var i :| 0 <= i < |all| && all[i] == k;
          assert keyed[i] in rows;
          var j :| 0 <= j < |rows| && rows[j] == keyed[i];
        }
        if exists i :: 0 <= i < |rows| && key(rows[i]) == Some(k) {
          var i :| 0 <= i < |rows| && key(rows[i]) == Some(k);
          assert rows[i] in keyed;
          var j :| 0 <= j < |keyed| && keyed[j] == rows[i];
          assert all[j] == k;
        }
      }
    }
    Distinct(all)
  }

  /** The same values as checklist values. */
  function PresentValues(rows: seq<FbRow>, key: FbRow -> Option<string>): (vs: seq<Value>)
    ensures NoDups(vs)
    ensures forall v :: v in vs <==> v.VStr? && exists i :: 0 <= i < |rows| && key(rows[i]) == Some(v.s)
  {
    var ks := PresentKeys(rows, key);
    var vs := seq(|ks|, i requires 0 <= i < |ks| => VStr(ks[i]));
    assert forall v :: v in vs <==> v.VStr? && v.s in ks by {
      forall v ensures v in vs <==> v.VStr? && v.s in ks {
        if v.VStr? && v.s in ks {
          var i :| 0 <= i < |ks| && ks[i] == v.s;
          assert vs[i] == v;
        }
      }
    }
    vs
  }

  // ---- update_filter_options ------------------------------------------------

  /** A date from the picker: its text and the date it denotes. */
  datatype Picked = Picked(text: string, date: Date)

  predicate Given(p: Option<Picked>) {
    p.Some? && p.value.text != ""
  }

  /** What the "Go" and "Clear" buttons do to the page: clear everything,
      leave everything, report an empty range, or load the rows of the
      range with fresh options and no selections. */
  datatype OptionsUpdate =
    | ClearAll
    | NoUpdate
    | EmptyRange(message: string)
    | Loaded(sources: seq<CheckOption>, services: seq<CheckOption>, names: seq<CheckOption>, rows: seq<FbRow>)

  function UpdateFilterOptions(clear: bool, start: Option<Picked>, end: Option<Picked>, all: seq<FbRow>): (u: OptionsUpdate)
    ensures u.ClearAll? <==> clear
    ensures u.NoUpdate? <==> !clear && !(Given(start) && Given(end))
    ensures u.Loaded? ==> (Given(start) && Given(end) && u.rows != []
      && forall r :: r in u.rows <==> r in all && CheckedInBetween(r, start.value.date, end.value.date))
    ensures u.EmptyRange? ==> (Given(start) && Given(end)
      && u.message == "No data available from " + start.value.text + " to " + end.value.text)
  {
    if clear then ClearAll
    else if !(Given(start) && Given(end)) then NoUpdate
    else
      var rows := FilterByDate(all, start.value.date, end.value.date);
      if rows == [] then EmptyRange("No data available from " + start.value.text + " to " + end.value.text)
      else Loaded(
        ChecklistOptions(PresentValues(rows, Source)),
        ChecklistOptions(PresentValues(rows, (r: FbRow) => Some(ServiceCategory(r)))),
        ChecklistOptions(PresentValues(rows, (r: FbRow) => r.cmName)),
        rows)
  }

  /** An empty range is reported exactly when no check-in of the range
      exists, and then nothing else changes. */
  lemma EmptyRangeIff(start: Picked, end: Picked, all: seq<FbRow>)
    requires start.text != "" && end.text != ""
    ensures UpdateFilterOptions(false, Some(start), Some(end), all).EmptyRange?
        <==> forall r :: r in all ==> !CheckedInBetween(r, start.date, end.date)
  {
    var rows := FilterByDate(all, start.date, end.date);
    if rows != [] {
      assert rows[0] in rows;
    }
  }

  /** Every offered source is the source of some row of the range. */
  lemma LoadedSourcesComeFromRows(start: Picked, end: Picked, all: seq<FbRow>, o: CheckOption)
    requires UpdateFilterOptions(false, Some(start), Some(end), all).Loaded?
    requires o in UpdateFilterOptions(false, Some(start), Some(end), all).sources
    ensures exists r :: r in all && CheckedInBetween(r, start.date, end.date) && Source(r) == Some(o.caption)
  {
    var u := UpdateFilterOptions(false, Some(start), Some(end), all);
    var rows := u.rows;
    var opts := u.sources;
    var i :| 0 <= i < |opts| && opts[i] == o;
    assert o.value in PresentValues(rows, Source);
    var j :| 0 <= j < |rows| && Source(rows[j]) == Some(o.value.s);
    assert rows[j] in rows;
  }

  // ---- Dropdown labels ------------------------------------------------------

  /** `len(values) if values else 0`. */
  function Selected(values: Option<seq<string>>): nat {
    if values.Some? then |values.value| else 0
  }

  /** A dropdown's label: its noun and the number selected, or its
      placeholder. */
  function DropdownLabel(values: Option<seq<string>>, noun: string, placeholder: string): (shown: string)
    ensures Selected(values) == 0 ==> shown == placeholder
    ensures Selected(values) > 0 ==> StartsWith(shown, noun + " (")
  {
    var n := Selected(values);
    if n > 0 then
      var l := noun + " (" + NatToString(n) + ")";
      assert l[..|noun + " ("|] == noun + " (";
      l
    else placeholder
  }

  /** The three labels and, on "Clear", the emptied selections. */
  datatype Labels = Labels(source: string, service: string, name: string, reset: bool)

  function UpdateLabels(sources: Option<seq<string>>, services: Option<seq<string>>, names: Option<seq<string>>, clear: bool): (l: Labels)
    ensures l.reset <==> clear
  {
    Labels(
      DropdownLabel(sources, "Sources", "Select Sources"),
      DropdownLabel(services, "Service Types", "Select Service"),
      DropdownLabel(names, "Names", "Select Names"),
      clear)
  }

  /** The number in a label is the number of selected values. */
  lemma LabelReadsBack(values: Option<seq<string>>, noun: string, placeholder: string)
    requires Selected(values) > 0
    requires forall k :: 0 <= k < |noun| ==> !IsDigit(noun[k])
    ensures FirstDigitRun(DropdownLabel(values, noun, placeholder)) == Some(Selected(values))
  {
    var n := Selected(values);
    var l := noun + " (" + NatToString(n) + ")";
    NoDigitPrefix(noun + " (", NatToString(n) + ")");
    assert l == (noun + " (") + (NatToString(n) + ")");
    FirstDigitRunOfNumber(n, ")");
  }

  /** A prefix without digits does not change the first run of digits. */
  lemma {:induction false} NoDigitPrefix(p: string, s: string)
    requires forall k :: 0 <= k < |p| ==> !IsDigit(p[k])
    ensures FirstDigitRun(p + s) == FirstDigitRun(s)
    decreases |p|
  {
    if p == [] {
      assert p + s == s;
    } else {
      assert (p + s)[0] == p[0];
      assert (p + s)[1..] == p[1..] + s;
      NoDigitPrefix(p[1..], s);
    }
  }
}

=== FILE: login.dfy ===
/** The login page: checking credentials against the page-access rows,
    the login callback's outcomes, the session it stores, the gate that
    decides what a path shows, and the password-visibility toggle. */
module Login {
  import opened Common

  // ---- authenticate_user ---------------------------------------------------

  /** One row of the page-access table: an agent's id, password, name,
      one page path and whether the row is active. */
  datatype AccessRow = AccessRow(crmLogId: string, password: string, name: Option<string>, pagePath: string, active: bool)

  /** The user record of a successful lookup. `name` is `None` when the
      record has no name key at all, and `Some(None)` when the name is
      null. */
  datatype User = User(name: Option<Option<string>>, allowedPages: seq<string>)

  /** The three results of the credential lookup: the database could not
      be used (`None`), no active row matched (`False`), or the user. */
  datatype AuthResult = DbError | NoMatch | Found(user: User)

  predicate MatchesCredentials(r: AccessRow, id: string, password: string) {
    r.crmLogId == id && r.password == password && r.active
  }

  predicate ActiveRowOf(r: AccessRow, id: string) {
    r.crmLogId == id && r.active
  }

  /** The pages of the agent's active rows, each once. */
  function AllowedPages(rows: seq<AccessRow>, id: string): (pages: seq<string>)
    ensures NoDups(pages)
    ensures forall p :: p in pages <==> exists r :: r in rows && ActiveRowOf(r, id) && r.pagePath == p
  {
    var active := Filter(rows, r => ActiveRowOf(r, id));
    var paths := seq(|active|, i requires 0 <= i < |active| => active[i].pagePath);
    assert forall p :: p in paths <==> exists r :: r in rows && ActiveRowOf(r, id) && r.pagePath == p by {
      forall p ensures p in paths <==> exists r :: r in rows && ActiveRowOf(r, id) && r.pagePath == p {
        if exists r :: r in rows && ActiveRowOf(r, id) && r.pagePath == p {
          var r :| r in rows && ActiveRowOf(r, id) && r.pagePath == p;
          var i :| 0 <= i < |active| && active[i] == r;
          assert paths[i] == p;
        }
      }
    }
    Distinct(paths)
  }

  /** `authenticate_user` over the table's rows: a database that cannot be
      reached gives `DbError`; otherwise the first active row with the
      agent's id and password gives the user's name, and the user's pages
      are those of all the agent's active rows. */
  function Authenticate(connected: bool, rows: seq<AccessRow>, id: string, password: string): (a: AuthResult)
    ensures a.DbError? <==> !connected
    ensures a.NoMatch? <==> connected && forall r :: r in rows ==> !MatchesCredentials(r, id, password)
    ensures a.Found? ==> (a.user.name.Some?
      && exists r :: r in rows && MatchesCredentials(r, id, password) && r.name == a.user.name.value)
  {
    if !connected then DbError
    else
      var matching := Filter(rows, r => MatchesCredentials(r, id, password));
      if matching == [] then NoMatch
      else
        assert matching[0] in matching;
        Found(User(Some(matching[0].name), AllowedPages(rows, id)))
  }

  /** A user found by the lookup has at least one page. */
  lemma FoundUserHasPages(connected: bool, rows: seq<AccessRow>, id: string, password: string)
    requires Authenticate(connected, rows, id, password).Found?
    ensures Authenticate(connected, rows, id, password).user.allowedPages != []
  {
    var matching := Filter(rows, r => MatchesCredentials(r, id, password));
    assert matching[0] in matching;
    assert matching[0].pagePath in AllowedPages(rows, id);
  }

  // ---- handle_login ---------------------------------------------------------

  /** What the login callback stores for the session. */
  datatype Session = Session(loggedIn: bool, username: string, name: Option<string>, allowedPages: seq<string>)

  /** The login callback's outcomes, in the order they are checked. */
  datatype LoginOutcome =
    | MissingFields
    | DatabaseError
    | InvalidCredentials
    | NoPages
    | LoggedIn(redirect: string, session: Session)

  /** The alert each outcome shows. */
  function Message(o: LoginOutcome): string {
    match o
    case MissingFields => "Please enter both username and password"
    case DatabaseError => "Database connection error"
    case InvalidCredentials => "Invalid credentials"
    case NoPages => "No pages assigned to your account"
    case LoggedIn(_, _) => "Login successful! Loading dashboard..."
  }

  /** A text field holds something (`None` and "" are falsy). */
  predicate Filled(v: Option<string>) {
    v.Some? && v.value != ""
  }

  /** `user.get("name", username)`: the stored name, or the username when
      the record has no name key. */
  function DisplayName(u: User, username: string): (name: Option<string>)
    ensures u.name.None? ==> name == Some(username)
    ensures u.name.Some? ==> name == u.name.value
  {
    if u.name.Some? then u.name.value else Some(username)
  }

  /** `handle_login` with the credential lookup passed in. */
  function HandleLogin(username: Option<string>, password: Option<string>, auth: (string, string) -> AuthResult): (o: LoginOutcome)
    ensures o.MissingFields? <==> !(Filled(username) && Filled(password))
    ensures !o.MissingFields? ==> (
      (o.DatabaseError? <==> auth(username.value, password.value).DbError?)
      && (o.InvalidCredentials? <==> auth(username.value, password.value).NoMatch?)
      && (o.NoPages? <==> auth(username.value, password.value).Found? && auth(username.value, password.value).user.allowedPages == []))
    ensures o.LoggedIn? ==> (o.redirect == "/" && o.session.loggedIn
      && o.session.username == username.value
      && auth(username.value, password.value).Found?
      && o.session.allowedPages == auth(username.value, password.value).user.allowedPages
      && o.session.allowedPages != []
      && o.session.name == DisplayName(auth(username.value, password.value).user, username.value))
  {
    if !(Filled(username) && Filled(password)) then MissingFields
    else
      match auth(username.value, password.value)
      case DbError => DatabaseError
      case NoMatch => InvalidCredentials
      case Found(u) =>
        if u.allowedPages == [] then NoPages
        else LoggedIn("/", Session(true, username.value, DisplayName(u, username.value), u.allowedPages))
  }

  /** A missing username or password is rejected before the lookup: the
      outcome is the same whatever the lookup would have said. */
  lemma MissingFieldsSkipLookup(username: Option<string>, password: Option<string>,
                                auth1: (string, string) -> AuthResult, auth2: (string, string) -> AuthResult)
    requires !(Filled(username) && Filled(password))
    ensures HandleLogin(username, password, auth1) == HandleLogin(username, password, auth2)
  {
  }

  /** With the credential lookup over the access table, a record always has
      a name key, so the session keeps the name of an access row that
      matched the credentials and the username is never the fallback. */
  lemma LoginStoresAccountName(connected: bool, rows: seq<AccessRow>, username: Option<string>, password: Option<string>)
    requires HandleLogin(username, password, (u, p) => Authenticate(connected, rows, u, p)).LoggedIn?
    ensures var o := HandleLogin(username, password, (u, p) => Authenticate(connected, rows, u, p));
      exists r :: r in rows && MatchesCredentials(r, username.value, password.value) && r.name == o.session.name
  {
    var a := Authenticate(connected, rows, username.value, password.value);
    assert a.Found?;
  }

  // ---- control_page_access --------------------------------------------------

  /** What the session store holds: nothing, a bare flag (as the logout
      button stores), or a session record. */
  datatype LoginData = Absent | Flag(b: bool) | Stored(session: Session)

  /** What a path shows: the login form, a redirect to it, the permission
      alert, the page itself, or nothing because the callback fails
      (a bare `True` has no `get`). */
  datatype PageView = LoginLayout | RedirectToLogin | PermissionDenied | PageContent | CallbackFails

  function ControlPageAccess(pathname: string, data: LoginData): (v: PageView)
    ensures pathname == "/login" ==> v == LoginLayout
    ensures v == PageContent ==> data.Stored? && data.session.loggedIn
  {
    if pathname == "/login" then LoginLayout
    else
      match data
      case Absent => RedirectToLogin
      case Flag(b) => if !b then RedirectToLogin else CallbackFails
      case Stored(s) =>
        if !s.loggedIn then RedirectToLogin
        else if pathname !in s.allowedPages && pathname != "/" then PermissionDenied
        else PageContent
  }

  /** A logged-in session sees exactly the root and its allowed pages; every
      other path but the login form gets the permission alert. */
  lemma AccessIsAllowedPages(pathname: string, s: Session)
    requires s.loggedIn && pathname != "/login"
    ensures ControlPageAccess(pathname, Stored(s)) == PageContent <==> pathname == "/" || pathname in s.allowedPages
    ensures ControlPageAccess(pathname, Stored(s)) == PermissionDenied <==> pathname != "/" && pathname !in s.allowedPages
  {
  }

  /** After a successful login, the redirect target and every allowed page
      open. */
  lemma LoginOpensAllowedPages(username: Option<string>, password: Option<string>, auth: (string, string) -> AuthResult, p: string)
    requires HandleLogin(username, password, auth).LoggedIn?
    requires p == "/" || p in auth(username.value, password.value).user.allowedPages
    ensures var o := HandleLogin(username, password, auth);
      ControlPageAccess(o.redirect, Stored(o.session)) == PageContent
      && ControlPageAccess(p, Stored(o.session)) in {PageContent, LoginLayout}
  {
  }

  /** Without a logged-in session no page opens. */
  lemma NoSessionNoPage(pathname: string, data: LoginData)
    requires !(data.Stored? && data.session.loggedIn)
    ensures ControlPageAccess(pathname, data) != PageContent
  {
  }

  // ---- toggle_password_visibility ---------------------------------------------

  /** The password field's new type and the eye icon's class. */
  function TogglePassword(currentType: string): (r: (string, string))
    ensures r.0 == "text" <==> currentType == "password"
    ensures r.0 in {"text", "password"}
    ensures r.1 == (if r.0 == "text" then "fas fa-eye-slash" else "fas fa-eye")
  {
    if currentType == "password" then ("text", "fas fa-eye-slash")
    else ("password", "fas fa-eye")
  }

  /** Two toggles bring a hidden password back to hidden, and a shown one
      back to shown. */
  lemma ToggleTwice(currentType: string)
    requires currentType in {"text", "password"}
    ensures TogglePassword(TogglePassword(currentType).0).0 == currentType
  {
  }
}

=== FILE: periods.dfy ===
/** The date windows of the two report pages: the named periods of the core
    report (`get_period_date_range`), the custom-range rule applied when the
    core report's dates are stored (`update_stored_data`), and the quick-date
    presets of the feedback page (`update_quick_dates_dropdown`). "Today" is
    always a parameter. */
module Periods {
  import opened Common
  import opened Calendar

  /** `today - timedelta(days=180)`: the earliest date the core report may show. */
  function SixMonthsAgo(today: Date): (r: Date)
    requires Valid(today)
    ensures Valid(r)
    ensures Ordinal(r) == Ordinal(today) - 180
  {
    AddDays(today, -180)
  }

  /** `date.replace(day=1)`. */
  function FirstOfMonth(d: Date): (r: Date)
    requires Valid(d)
    ensures Valid(r) && r.year == d.year && r.month == d.month && r.day == 1
  {
    Date(d.year, d.month, 1)
  }

  /** The periods of the core report's period dropdown. */
  datatype Period =
    | Today | Yesterday | ThisWeek | LastWeek | ThisMonth | LastMonth | ThisQuarter | ThisYear

  /** The dropdown value naming each period. */
  function PeriodName(p: Period): string {
    match p
    case Today => "today"
    case Yesterday => "yesterday"
    case ThisWeek => "this_week"
    case LastWeek => "last_week"
    case ThisMonth => "this_month"
    case LastMonth => "last_month"
    case ThisQuarter => "this_quarter"
    case ThisYear => "this_year"
  }

  /** The period a dropdown value names, if any: the `if`/`elif` ladder of
      `get_period_date_range`, which compares the value with each name. */
  function ParsePeriod(v: string): (r: Option<Period>)
    ensures r.Some? ==> PeriodName(r.value) == v
    ensures r.None? ==> forall p: Period :: PeriodName(p) != v
  {
    if v == "today" then Some(Today)
    else if v == "yesterday" then Some(Yesterday)
    else if v == "this_week" then Some(ThisWeek)
    else if v == "last_week" then Some(LastWeek)
    else if v == "this_month" then Some(ThisMonth)
    else if v == "last_month" then Some(LastMonth)
    else if v == "this_quarter" then Some(ThisQuarter)
    else if v == "this_year" then Some(ThisYear)
    else None
  }

  /** Parsing a period's own name gives the period back. */
  lemma ParsePeriodName(p: Period)
    ensures ParsePeriod(PeriodName(p)) == Some(p)
  {
    var r := ParsePeriod(PeriodName(p));
    assert r.Some?;
    assert PeriodName(r.value) == PeriodName(p);
  }

  /** `yesterday`: `(max(yesterday, six_months_ago), yesterday)`. */
  function YesterdayWindow(today: Date): (r: (Date, Date))
    requires Valid(today)
    ensures Valid(r.0) && Valid(r.1)
  {
    var yesterday := AddDays(today, -1);
    (Later(yesterday, SixMonthsAgo(today)), yesterday)
  }

  /** `this_week`: from `today - weekday` (clipped) to six days after it. */
  function ThisWeekWindow(today: Date): (r: (Date, Date))
    requires Valid(today)
    ensures Valid(r.0) && Valid(r.1)
  {
    WeekFrom(today, Weekday(today))
  }

  /** `last_week`: from `today - (weekday + 7)` (clipped) to six days after it. */
  function LastWeekWindow(today: Date): (r: (Date, Date))
    requires Valid(today)
    ensures Valid(r.0) && Valid(r.1)
  {
    WeekFrom(today, Weekday(today) + 7)
  }

  /** The seven days from `back` days before today, the start clipped. */
  function WeekFrom(today: Date, back: int): (r: (Date, Date))
    requires Valid(today)
    ensures Valid(r.0) && Valid(r.1)
  {
    var start := AddDays(today, -back);
    (Later(start, SixMonthsAgo(today)), AddDays(start, 6))
  }

  /** A week that starts less than 180 days back is not clipped. */
  lemma RecentWeek(today: Date, back: int)
    requires Valid(today) && 0 <= back < 180
    ensures WeekFrom(today, back) == (AddDays(today, -back), AddDays(AddDays(today, -back), 6))
  {
    RecentNotClipped(today, back);
  }

  /** `this_month`: the 1st (clipped) to the last day of today's month. */
  function ThisMonthWindow(today: Date): (r: (Date, Date))
    requires Valid(today)
    ensures Valid(r.0) && Valid(r.1)
  {
    var start := FirstOfMonth(today);
    var end := Date(today.year, today.month, DaysInMonth(today.year, today.month));
    (Later(start, SixMonthsAgo(today)), end)
  }

  /** `last_month`: the day before the 1st, and the 1st of that day's month (clipped). */
  function LastMonthWindow(today: Date): (r: (Date, Date))
    requires Valid(today)
    ensures Valid(r.0) && Valid(r.1)
  {
    var first := FirstOfMonth(today);
    var lastEnd := AddDays(first, -1);
    var start := FirstOfMonth(lastEnd);
    (Later(start, SixMonthsAgo(today)), lastEnd)
  }

  /** `this_quarter`: the 1st of month `3q - 2` (clipped), and the day before
      the 1st of the month reached 32 days after the 1st of month `3q`. */
  function ThisQuarterWindow(today: Date): (r: (Date, Date))
    requires Valid(today)
    ensures Valid(r.0) && Valid(r.1)
  {
    var quarter := (today.month - 1) / 3 + 1;
    var start := Date(today.year, 3 * quarter - 2, 1);
    var end := AddDays(FirstOfMonth(AddDays(Date(today.year, 3 * quarter, 1), 32)), -1);
    (Later(start, SixMonthsAgo(today)), end)
  }

  /** `this_year`: 1 January (clipped) to 31 December. */
  function ThisYearWindow(today: Date): (r: (Date, Date))
    requires Valid(today)
    ensures Valid(r.0) && Valid(r.1)
  {
    (Later(Date(today.year, 1, 1), SixMonthsAgo(today)), Date(today.year, 12, 31))
  }

  /** The window of a recognised period, computed as the source computes it
      (with `max(start, six_months_ago)` on the start). */
  function PeriodWindow(p: Period, today: Date): (r: (Date, Date))
    requires Valid(today)
    ensures Valid(r.0) && Valid(r.1)
  {
    match p
    case Today => (today, today)
    case Yesterday => YesterdayWindow(today)
    case ThisWeek => ThisWeekWindow(today)
    case LastWeek => LastWeekWindow(today)
    case ThisMonth => ThisMonthWindow(today)
    case LastMonth => LastMonthWindow(today)
    case ThisQuarter => ThisQuarterWindow(today)
    case ThisYear => ThisYearWindow(today)
  }

  /** `get_period_date_range(period)` with today fixed: `None` stands for
      the `(None, None)` returned for an unknown period. */
  function PeriodDateRange(period: string, today: Date): (r: Option<(Date, Date)>)
    requires Valid(today)
    ensures r.None? <==> forall p: Period :: PeriodName(p) != period
    ensures r.Some? ==> Valid(r.value.0) && Valid(r.value.1)
    ensures forall p: Period :: PeriodName(p) == period ==> r == Some(PeriodWindow(p, today))
  {
    match ParsePeriod(period)
    case None => None
    case Some(p) =>
      assert forall q: Period :: PeriodName(q) == period ==> q == p by {
        forall q: Period | PeriodName(q) == period ensures q == p {
          ParsePeriodName(q);
        }
      }
      Some(PeriodWindow(p, today))
  }

  /** The month length is the step between consecutive `DaysBeforeMonth` values. */
  lemma MonthLength(y: int, m: int)
    requires 1 <= m <= 12
    ensures DaysBeforeMonth(y, m) + DaysInMonth(y, m) == DaysBeforeMonth(y, m + 1)
  {
  }

  /** Within one year, later months start later. */
  lemma MonthsAscend(y: int, m: int, n: int)
    requires 1 <= m <= n <= 13
    ensures DaysBeforeMonth(y, m) + 28 * (n - m) <= DaysBeforeMonth(y, n) <= DaysBeforeMonth(y, m) + 31 * (n - m)
  {
  }

  /** The first of the quarter containing `today` is at most 91 days back,
      and its last day is not before today. */
  lemma QuarterAroundToday(today: Date)
    requires Valid(today)
    ensures var q := (today.month - 1) / 3 + 1;
      1 <= q <= 4 &&
      Ordinal(today) - 91 <= Ordinal(Date(today.year, 3 * q - 2, 1)) <= Ordinal(today)
      && Ordinal(today) <= Ordinal(Date(today.year, 3 * q, DaysInMonth(today.year, 3 * q)))
  {
    var m := today.month;
    var q := (m - 1) / 3 + 1;
    assert 3 * q - 2 <= m <= 3 * q;
    MonthsAscend(today.year, 3 * q - 2, m);
    MonthsAscend(today.year, m + 1, 3 * q + 1);
    MonthLength(today.year, m);
    MonthLength(today.year, 3 * q);
  }

  lemma ModSevenShift(x: int, k: int)
    ensures (x + k) % 7 == (x % 7 + k) % 7
  {
    var q := x / 7;
    assert x == 7 * q + x % 7;
    assert x + k == 7 * q + (x % 7 + k);
  }

  /** Weekdays advance with the ordinal, modulo seven. */
  lemma WeekdayAfter(d: Date, k: int)
    requires Valid(d)
    ensures Weekday(AddDays(d, k)) == (Weekday(d) + k) % 7
  {
    ModSevenShift(Ordinal(d) + 6, k);
  }

  /** Going back `Weekday(d)` days (or a week more) lands on a Monday. */
  lemma BackToMonday(d: Date, back: int)
    requires Valid(d)
    requires back == Weekday(d) || back == Weekday(d) + 7
    ensures Weekday(AddDays(d, -back)) == 0
  {
    WeekdayAfter(d, -back);
  }

  /** Six days after a Monday is a Sunday. */
  lemma MondayToSunday(s: Date)
    requires Valid(s) && Weekday(s) == 0
    ensures Weekday(AddDays(s, 6)) == 6
  {
    WeekdayAfter(s, 6);
  }

  /** The Monday..Sunday week `back` days before `d`. */
  lemma MondayOfWeek(d: Date, back: int)
    requires Valid(d)
    requires back == Weekday(d) || back == Weekday(d) + 7
    ensures Weekday(AddDays(d, -back)) == 0
    ensures Weekday(AddDays(AddDays(d, -back), 6)) == 6
    ensures Ordinal(AddDays(d, -back)) == Ordinal(d) - back
    ensures Ordinal(AddDays(AddDays(d, -back), 6)) == Ordinal(d) - back + 6
  {
    var s := AddDays(d, -back);
    BackToMonday(d, back);
    MondayToSunday(s);
  }

  /** A start at most 179 days back is not clipped by `max(start, six_months_ago)`. */
  lemma RecentNotClipped(today: Date, back: int)
    requires Valid(today) && 0 <= back < 180
    ensures Later(AddDays(today, -back), SixMonthsAgo(today)) == AddDays(today, -back)
  {
    LaterKeepsFirst(AddDays(today, -back), SixMonthsAgo(today));
  }

  /** `yesterday` is the single day before today; it is never clipped. */
  lemma YesterdayPeriod(today: Date)
    requires Valid(today)
    ensures var w := YesterdayWindow(today);
      w.0 == w.1 == AddDays(today, -1) && Ordinal(w.0) == Ordinal(today) - 1
  {
  }

  /** `this_week` starts `weekday` days back and is never clipped. */
  lemma ThisWeekPeriod(today: Date)
    requires Valid(today)
    ensures var start := AddDays(today, -Weekday(today));
      ThisWeekWindow(today) == (start, AddDays(start, 6))
  {
    RecentWeek(today, Weekday(today));
  }

  /** `last_week` starts `weekday + 7` days back and is never clipped. */
  lemma LastWeekPeriod(today: Date)
    requires Valid(today)
    ensures var start := AddDays(today, -(Weekday(today) + 7));
      LastWeekWindow(today) == (start, AddDays(start, 6))
  {
    RecentWeek(today, Weekday(today) + 7);
  }

  /** `this_week` is the Monday..Sunday week containing today and
      `last_week` the Monday..Sunday week before it. */
  lemma WeekPeriods(today: Date)
    requires Valid(today)
    ensures var w := PeriodWindow(ThisWeek, today);
      Weekday(w.0) == 0 && w.1 == AddDays(w.0, 6) && Weekday(w.1) == 6
      && Ordinal(w.0) <= Ordinal(today) <= Ordinal(w.1)
    ensures var l := PeriodWindow(LastWeek, today);
      Weekday(l.0) == 0 && l.1 == AddDays(l.0, 6) && Weekday(l.1) == 6
      && Ordinal(l.0) == Ordinal(PeriodWindow(ThisWeek, today).0) - 7
  {
    assert PeriodWindow(ThisWeek, today) == ThisWeekWindow(today);
    assert PeriodWindow(LastWeek, today) == LastWeekWindow(today);
    ThisWeekShape(today);
    LastWeekShape(today);
  }

  /** `this_week` runs Monday to Sunday around today. */
  lemma ThisWeekShape(today: Date)
    requires Valid(today)
    ensures var w := ThisWeekWindow(today);
      Weekday(w.0) == 0 && w.1 == AddDays(w.0, 6) && Weekday(w.1) == 6
      && Ordinal(w.0) == Ordinal(today) - Weekday(today)
      && Ordinal(w.0) <= Ordinal(today) <= Ordinal(w.1)
  {
    ThisWeekPeriod(today);
    MondayOfWeek(today, Weekday(today));
  }

  /** `last_week` runs Monday to Sunday, seven days before this week. */
  lemma LastWeekShape(today: Date)
    requires Valid(today)
    ensures var l := LastWeekWindow(today);
      Weekday(l.0) == 0 && l.1 == AddDays(l.0, 6) && Weekday(l.1) == 6
      && Ordinal(l.0) == Ordinal(today) - Weekday(today) - 7
  {
    LastWeekPeriod(today);
    MondayOfWeek(today, Weekday(today) + 7);
  }

  /** `this_month` is the whole current month; it is never clipped. */
  lemma ThisMonthPeriod(today: Date)
    requires Valid(today)
    ensures ThisMonthWindow(today)
         == (Date(today.year, today.month, 1), Date(today.year, today.month, DaysInMonth(today.year, today.month)))
  {
  }

  /** `last_month` is the whole previous month (December of the previous
      year in January); it is never clipped. */
  lemma LastMonthPeriod(today: Date)
    requires Valid(today)
    ensures var p := if today.month == 1 then (today.year - 1, 12) else (today.year, today.month - 1);
      LastMonthWindow(today) == (Date(p.0, p.1, 1), Date(p.0, p.1, DaysInMonth(p.0, p.1)))
    ensures var w := LastMonthWindow(today);
      Ordinal(w.1) == Ordinal(today) - today.day && Ordinal(w.0) >= Ordinal(w.1) - 30
  {
    var first := FirstOfMonth(today);
    var p := if today.month == 1 then (today.year - 1, 12) else (today.year, today.month - 1);
    YearLength(today.year - 1);
    AddDaysIs(first, -1, Date(p.0, p.1, DaysInMonth(p.0, p.1)));
  }

  /** `this_quarter` runs from the 1st of month `3q - 2` to the last day of
      month `3q`, where `q` is today's quarter; it is never clipped. */
  lemma QuarterPeriod(today: Date)
    requires Valid(today)
    ensures var q := (today.month - 1) / 3 + 1;
      ThisQuarterWindow(today)
        == (Date(today.year, 3 * q - 2, 1), Date(today.year, 3 * q, DaysInMonth(today.year, 3 * q)))
  {
    var q := (today.month - 1) / 3 + 1;
    var start := Date(today.year, 3 * q - 2, 1);
    QuarterAroundToday(today);
    LaterKeepsFirst(start, SixMonthsAgo(today));
    MonthEnd(today.year, 3 * q);
  }

  /** The day before the first of the month after `m`, reached as the
      code reaches it: 32 days after the 1st of `m`, back to the 1st, one
      day back. */
  lemma MonthEnd(y: int, m: int)
    requires 1 <= m <= 12
    ensures AddDays(FirstOfMonth(AddDays(Date(y, m, 1), 32)), -1) == Date(y, m, DaysInMonth(y, m))
  {
    ThirtyTwoDaysLater(y, m);
    LastOfMonth(y, m);
  }

  /** `this_year` ends on 31 December and starts on 1 January, unless that is
      more than 180 days ago, in which case it starts 180 days ago. */
  lemma YearPeriod(today: Date)
    requires Valid(today)
    ensures var r := ThisYearWindow(today);
      r.1 == Date(today.year, 12, 31)
      && (Ordinal(Date(today.year, 1, 1)) >= Ordinal(today) - 180 ==> r.0 == Date(today.year, 1, 1))
      && (Ordinal(Date(today.year, 1, 1)) < Ordinal(today) - 180 ==> r.0 == SixMonthsAgo(today))
  {
  }

  /** A window that starts no earlier than 180 days ago, no later than
      today, and does not end before it starts. */
  predicate WithinReach(w: (Date, Date), today: Date)
    requires Valid(w.0) && Valid(w.1) && Valid(today)
  {
    Ordinal(SixMonthsAgo(today)) <= Ordinal(w.0) <= Ordinal(w.1)
    && Ordinal(w.0) <= Ordinal(today)
  }

  lemma ThisWeekReach(today: Date)
    requires Valid(today)
    ensures WithinReach(ThisWeekWindow(today), today)
  {
    ThisWeekPeriod(today);
    MondayOfWeek(today, Weekday(today));
  }

  lemma LastWeekReach(today: Date)
    requires Valid(today)
    ensures WithinReach(LastWeekWindow(today), today)
  {
    LastWeekPeriod(today);
    MondayOfWeek(today, Weekday(today) + 7);
  }

  lemma ThisMonthReach(today: Date)
    requires Valid(today)
    ensures WithinReach(ThisMonthWindow(today), today)
  {
    ThisMonthPeriod(today);
    MonthLength(today.year, today.month);
  }

  lemma LastMonthReach(today: Date)
    requires Valid(today)
    ensures WithinReach(LastMonthWindow(today), today)
  {
    LastMonthPeriod(today);
  }

  lemma ThisQuarterReach(today: Date)
    requires Valid(today)
    ensures WithinReach(ThisQuarterWindow(today), today)
  {
    QuarterPeriod(today);
    QuarterAroundToday(today);
  }

  lemma ThisYearReach(today: Date)
    requires Valid(today)
    ensures WithinReach(ThisYearWindow(today), today)
  {
    YearPeriod(today);
    MonthsAscend(today.year, today.month + 1, 13);
    MonthLength(today.year, today.month);
  }

  /** Every recognised period is a non-empty window that starts no earlier
      than 180 days ago and no later than today. */
  lemma PeriodWindowBounds(p: Period, today: Date)
    requires Valid(today)
    ensures WithinReach(PeriodWindow(p, today), today)
  {
    match p
    case Today =>
    case Yesterday => YesterdayPeriod(today);
    case ThisWeek => ThisWeekReach(today);
    case LastWeek => LastWeekReach(today);
    case ThisMonth => ThisMonthReach(today);
    case LastMonth => LastMonthReach(today);
    case ThisQuarter => ThisQuarterReach(today);
    case ThisYear => ThisYearReach(today);
  }

  /** What `update_stored_data` stores: the date window of the fetched rows,
      or the cleared store (`empty_dict, None, None`). */
  datatype Stored = ClearStore | Window(start: Date, end: Date)

  /** The two buttons that trigger `update_stored_data`. */
  datatype Trigger = ApplyDates | ClearFilters

  /** Python truthiness of an optional dropdown value. */
  predicate Truthy(v: Option<string>) {
    v.Some? && v.value != ""
  }

  /** The date rules of `update_stored_data`. A named period goes through
      `get_period_date_range`; an unknown one makes `strftime` raise on
      `None`, and the handler's `except` clears the store. Custom dates are
      used only when both are given. */
  function StoredWindow(trigger: Trigger, period: Option<string>,
                        start: Option<Date>, end: Option<Date>, today: Date): (r: Stored)
    requires Valid(today)
    requires start.Some? ==> Valid(start.value)
    requires end.Some? ==> Valid(end.value)
    ensures r.Window? ==> Valid(r.start) && Valid(r.end)
  {
    if trigger == ClearFilters then ClearStore
    else if Truthy(period) then
      match PeriodDateRange(period.value, today)
      case None => ClearStore
      case Some(w) => Window(w.0, w.1)
    else if start.Some? && end.Some? then
      var sma := SixMonthsAgo(today);
      var s, e := start.value, end.value;
      if Ordinal(s) < Ordinal(sma) || Ordinal(e) < Ordinal(sma) then ClearStore
      else if Ordinal(e) < Ordinal(s) then Window(s, s)
      else Window(s, e)
    else Window(today, today)
  }

  /** Every stored window is ordered and starts no earlier than today − 180
      days. Custom dates earlier than that clear the store; a custom end
      before the start is clamped to the start; with no period and not both
      dates the window is today..today; an unknown period clears the store. */
  lemma StoredWindowRules(trigger: Trigger, period: Option<string>,
                          start: Option<Date>, end: Option<Date>, today: Date)
    requires Valid(today)
    requires start.Some? ==> Valid(start.value)
    requires end.Some? ==> Valid(end.value)
    ensures var r := StoredWindow(trigger, period, start, end, today);
      r.Window? ==> Ordinal(SixMonthsAgo(today)) <= Ordinal(r.start) <= Ordinal(r.end)
    ensures var r := StoredWindow(trigger, period, start, end, today);
      trigger == ApplyDates && !Truthy(period) && start.Some? && end.Some? ==>
        (r.ClearStore? <==> Ordinal(start.value) < Ordinal(SixMonthsAgo(today))
                            || Ordinal(end.value) < Ordinal(SixMonthsAgo(today)))
        && (r.Window? ==> r.start == start.value
                          && r.end == (if Ordinal(end.value) < Ordinal(start.value) then start.value else end.value))
    ensures trigger == ApplyDates && !Truthy(period) && (start.None? || end.None?) ==>
      StoredWindow(trigger, period, start, end, today) == Window(today, today)
    ensures trigger == ApplyDates && Truthy(period) ==>
      match ParsePeriod(period.value)
      case None => StoredWindow(trigger, period, start, end, today) == ClearStore
      case Some(p) => StoredWindow(trigger, period, start, end, today) == Window(PeriodWindow(p, today).0, PeriodWindow(p, today).1)
    ensures trigger == ClearFilters ==> StoredWindow(trigger, period, start, end, today) == ClearStore
  {
    if trigger == ApplyDates && Truthy(period) {
      match ParsePeriod(period.value)
      case None =>
      case Some(p) => PeriodWindowBounds(p, today);
    }
  }

  /** The presets of the feedback page's quick-date dropdown. */
  datatype Preset = QuickToday | QuickYesterday | QuickLastWeek | QuickThisMonth | QuickLastQuarter | QuickThisYear

  function PresetName(p: Preset): string {
    match p
    case QuickToday => "today"
    case QuickYesterday => "yesterday"
    case QuickLastWeek => "last_week"
    case QuickThisMonth => "this_month"
    case QuickLastQuarter => "last_quarter"
    case QuickThisYear => "this_year"
  }

  /** The preset a dropdown value names, if any. */
  function ParsePreset(v: string): (r: Option<Preset>)
    ensures r.Some? ==> PresetName(r.value) == v
    ensures r.None? ==> forall p: Preset :: PresetName(p) != v
  {
    if v == "today" then Some(QuickToday)
    else if v == "yesterday" then Some(QuickYesterday)
    else if v == "last_week" then Some(QuickLastWeek)
    else if v == "this_month" then Some(QuickThisMonth)
    else if v == "last_quarter" then Some(QuickLastQuarter)
    else if v == "this_year" then Some(QuickThisYear)
    else None
  }

  /** The feedback page's month-end trick: the day before the 1st of month
      `m % 12 + 1` has day number `DaysInMonth(y, m)` even for December,
      where it lands on 31 December of the previous year. */
  lemma DayBeforeNextFirst(y: int, m: int)
    requires 1 <= m <= 12
    ensures AddDays(Date(y, m % 12 + 1, 1), -1).day == DaysInMonth(y, m)
  {
    var before := if m == 12 then Date(y - 1, 12, 31) else Date(y, m, DaysInMonth(y, m));
    YearLength(y - 1);
    AddDaysIs(Date(y, m % 12 + 1, 1), -1, before);
  }

  /** The window of one preset, computed as the source computes it. */
  function PresetWindow(p: Preset, today: Date): (r: (Date, Date))
    requires Valid(today)
    ensures Valid(r.0) && Valid(r.1)
  {
    match p
    case QuickToday => (today, today)
    case QuickYesterday =>
      var yest := AddDays(today, -1);
      (yest, yest)
    case QuickLastWeek =>
      var s := AddDays(today, -(Weekday(today) + 7));
      (s, AddDays(s, 6))
    case QuickThisMonth => (FirstOfMonth(today), today)
    case QuickLastQuarter => LastQuarterWindow(today)
    case QuickThisYear => (Date(today.year, 1, 1), today)
  }

  /** The quick `last_quarter`: the first month of today's quarter, three
      months back (October of the previous year from Q1), to the day before
      the first of the month after that quarter's last month. */
  function LastQuarterWindow(today: Date): (r: (Date, Date))
    requires Valid(today)
    ensures Valid(r.0) && Valid(r.1)
  {
    var month := ((today.month - 1) / 3) * 3 + 1;
    var lqMonth := if month > 3 then month - 3 else 10;
    var lqYear := if month > 3 then today.year else today.year - 1;
    var endMonth0 := lqMonth + 2;
    var endMonth := if endMonth0 > 12 then 12 else endMonth0;
    var endDay := AddDays(Date(lqYear, endMonth % 12 + 1, 1), -1).day;
    DayBeforeNextFirst(lqYear, endMonth);
    (Date(lqYear, lqMonth, 1), Date(lqYear, endMonth, endDay))
  }

  /** What `update_quick_dates_dropdown` sends to the date picker. */
  datatype QuickRange = NoUpdate | Range(start: Date, end: Date)

  /** `update_quick_dates_dropdown(selected)` with today fixed. */
  function QuickDates(selected: Option<string>, today: Date): (r: QuickRange)
    requires Valid(today)
    ensures r.NoUpdate? <==> !Truthy(selected) || ParsePreset(selected.value).None?
    ensures r.Range? ==> (Valid(r.start) && Valid(r.end)
      && Ordinal(r.start) <= Ordinal(r.end) <= Ordinal(today)
      && (r.start, r.end) == PresetWindow(ParsePreset(selected.value).value, today))
  {
    if !Truthy(selected) then NoUpdate
    else
      match ParsePreset(selected.value)
      case None => NoUpdate
      case Some(p) =>
        PresetWindowOrdered(p, today);
        var w := PresetWindow(p, today);
        Range(w.0, w.1)
  }

  /** `yesterday` is the single day before today. */
  lemma PresetYesterday(today: Date)
    requires Valid(today)
    ensures var r := PresetWindow(QuickYesterday, today);
      r.0 == r.1 && Ordinal(r.0) == Ordinal(today) - 1
  {
  }

  /** `last_week` is the Monday..Sunday week before the week containing
      today: the same window as the core report's `last_week`. */
  lemma PresetLastWeek(today: Date)
    requires Valid(today)
    ensures var r := PresetWindow(QuickLastWeek, today);
      Weekday(r.0) == 0 && Weekday(r.1) == 6 && r.1 == AddDays(r.0, 6)
      && Ordinal(r.1) < Ordinal(today)
    ensures PresetWindow(QuickLastWeek, today) == PeriodWindow(LastWeek, today)
  {
    MondayOfWeek(today, Weekday(today) + 7);
    LastWeekPeriod(today);
  }

  /** `this_month` and `this_year` run from the first day of the month or
      year to today. */
  lemma PresetToDate(today: Date)
    requires Valid(today)
    ensures PresetWindow(QuickThisMonth, today) == (Date(today.year, today.month, 1), today)
    ensures PresetWindow(QuickThisYear, today) == (Date(today.year, 1, 1), today)
    ensures Ordinal(Date(today.year, 1, 1)) <= Ordinal(Date(today.year, today.month, 1)) <= Ordinal(today)
  {
    MonthsAscend(today.year, 1, today.month);
  }

  /** `last_quarter` is the whole calendar quarter before today's: October..
      December of the previous year when today is in the first quarter. */
  lemma PresetLastQuarter(today: Date)
    requires Valid(today)
    ensures var q := (today.month - 1) / 3 + 1;
      var pq := if q == 1 then (today.year - 1, 4) else (today.year, q - 1);
      PresetWindow(QuickLastQuarter, today)
        == (Date(pq.0, 3 * pq.1 - 2, 1), Date(pq.0, 3 * pq.1, DaysInMonth(pq.0, 3 * pq.1)))
  {
    var q := (today.month - 1) / 3 + 1;
    var pq := if q == 1 then (today.year - 1, 4) else (today.year, q - 1);
    assert PresetWindow(QuickLastQuarter, today) == LastQuarterWindow(today);
    assert ((today.month - 1) / 3) * 3 + 1 == 3 * q - 2;
    DayBeforeNextFirst(pq.0, 3 * pq.1);
  }

  /** The previous quarter ends before today. */
  lemma LastQuarterBeforeToday(today: Date)
    requires Valid(today)
    ensures var r := PresetWindow(QuickLastQuarter, today);
      Ordinal(r.0) <= Ordinal(r.1) < Ordinal(today)
  {
    var month := ((today.month - 1) / 3) * 3 + 1;
    var lqMonth := if month > 3 then month - 3 else 10;
    var lqYear := if month > 3 then today.year else today.year - 1;
    PresetLastQuarter(today);
    MonthsAscend(lqYear, lqMonth, lqMonth + 2);
    if month > 3 {
      MonthsAscend(today.year, lqMonth + 3, today.month);
      MonthLength(today.year, lqMonth + 2);
    } else {
      assert DaysBeforeYear(today.year) == DaysBeforeYear(lqYear) + DaysBeforeMonth(lqYear, 13) by {
        YearLength(lqYear);
      }
    }
  }

  /** Every preset window is ordered and ends no later than today. */
  lemma PresetWindowOrdered(p: Preset, today: Date)
    requires Valid(today)
    ensures var r := PresetWindow(p, today);
      Ordinal(r.0) <= Ordinal(r.1) <= Ordinal(today)
  {
    match p
    case QuickToday =>
    case QuickYesterday => PresetYesterday(today);
    case QuickLastWeek => PresetLastWeek(today);
    case QuickThisMonth => PresetToDate(today);
    case QuickLastQuarter => LastQuarterBeforeToday(today);
    case QuickThisYear => PresetToDate(today);
  }
}

=== FILE: pivot.dfy ===
/** `create_pivot_table` with `aggfunc='count'` on `booking_id`: a table of
    counts keyed by (row key, column key) with "Grand Total" margins, the
    row shares shown beside each count, and the column order and names the
    report displays. */
module Pivot {
  import opened Common
  import opened Text
  import opened Booking
  import opened Sorting

  /** A row of the pivot: the values of the index columns, or the margin row. */
  datatype RowKey = DataRow(values: seq<string>) | TotalRow

  /** A column of the pivot: a value of the column field, or the margin column. */
  datatype ColKey = DataCol(value: string) | TotalCol

  /** What a pivot groups by, and the `filter_condition` applied first. */
  datatype Spec = Spec(index: seq<Column>, columns: Column, condition: seq<Pred>)

  /** The index-column values of a row. */
  function KeyOf(r: Row, index: seq<Column>): (k: seq<string>)
    ensures |k| == |index|
    ensures forall i :: 0 <= i < |index| ==> k[i] == Get(r, index[i])
  {
    seq(|index|, i requires 0 <= i < |index| => Get(r, index[i]))
  }

  /** A margin selects everything along its axis. */
  function RowSel(k: RowKey): Option<seq<string>> {
    match k
    case DataRow(v) => Some(v)
    case TotalRow => None
  }

  function ColSel(k: ColKey): Option<string> {
    match k
    case DataCol(v) => Some(v)
    case TotalCol => None
  }

  /** A row counts towards a cell when its `booking_id` is present and it
      has the cell's row key and column value (`None` = any). */
  predicate Counts(r: Row, spec: Spec, rk: Option<seq<string>>, ck: Option<string>) {
    r.bookingId.Some?
    && (rk.None? || KeyOf(r, spec.index) == rk.value)
    && (ck.None? || Get(r, spec.columns) == ck.value)
  }

  /** The count `pivot_table` puts in a cell. */
  function Count(rows: seq<Row>, spec: Spec, rk: Option<seq<string>>, ck: Option<string>): (n: nat)
    ensures n <= |rows|
    decreases |rows|
  {
    if rows == [] then 0
    else (if Counts(rows[0], spec, rk, ck) then 1 else 0) + Count(rows[1..], spec, rk, ck)
  }

  /** One row counts once or not at all. */
  lemma CountSingle(x: Row, spec: Spec, rk: Option<seq<string>>, ck: Option<string>)
    ensures Count([x], spec, rk, ck) == if Counts(x, spec, rk, ck) then 1 else 0
  {
    assert [x][1..] == [];
  }

  /** Row keys in order of first appearance. */
  function RowKeys(rows: seq<Row>, spec: Spec): (ks: seq<seq<string>>)
    ensures NoDups(ks)
    ensures forall k :: k in ks <==> exists i :: 0 <= i < |rows| && KeyOf(rows[i], spec.index) == k
  {
    var all := seq(|rows|, i requires 0 <= i < |rows| => KeyOf(rows[i], spec.index));
    assert forall k :: k in all <==> exists i :: 0 <= i < |rows| && KeyOf(rows[i], spec.index) == k by {
      forall k ensures k in all <==> exists i :: 0 <= i < |rows| && KeyOf(rows[i], spec.index) == k {
        if k in all {
          var i :| 0 <= i < |all| && all[i] == k;
          assert KeyOf(rows[i], spec.index) == k;
        }
        if exists i :: 0 <= i < |rows| && KeyOf(rows[i], spec.index) == k {
          var i :| 0 <= i < |rows| && KeyOf(rows[i], spec.index) == k;
          assert all[i] == k;
        }
      }
    }
    Distinct(all)
  }

  /** The column values, each once, sorted by their text as `pivot_table`
      sorts its columns. */
  function ColKeys(rows: seq<Row>, spec: Spec): (ks: seq<string>)
    ensures NoDups(ks)
    ensures SortedBy(ks, TextOrder())
    ensures forall k :: k in ks <==> exists i :: 0 <= i < |rows| && Get(rows[i], spec.columns) == k
  {
    var all := seq(|rows|, i requires 0 <= i < |rows| => Get(rows[i], spec.columns));
    assert forall k :: k in all <==> exists i :: 0 <= i < |rows| && Get(rows[i], spec.columns) == k by {
      forall k ensures k in all <==> exists i :: 0 <= i < |rows| && Get(rows[i], spec.columns) == k {
        if k in all {
          var i :| 0 <= i < |all| && all[i] == k;
          assert Get(rows[i], spec.columns) == k;
        }
        if exists i :: 0 <= i < |rows| && Get(rows[i], spec.columns) == k {
          var i :| 0 <= i < |rows| && Get(rows[i], spec.columns) == k;
          assert all[i] == k;
        }
      }
    }
    var distinct := Distinct(all);
    TextOrderTotal();
    SortBySorted(distinct, TextOrder());
    SortByNoDups(distinct, TextOrder());
    forall k ensures k in SortBy(distinct, TextOrder()) <==> k in distinct {
      SortByMembers(distinct, TextOrder(), k);
    }
    SortBy(distinct, TextOrder())
  }

  /** The cells of a table: every data row and the margin row, crossed with
      every data column and the margin column. */
  function Cells(rks: seq<seq<string>>, cks: seq<string>): set<(RowKey, ColKey)> {
    set rk, ck | rk in RowKeySet(rks) && ck in ColKeySet(cks) :: (rk, ck)
  }

  function RowKeySet(rks: seq<seq<string>>): set<RowKey> {
    {TotalRow} + set v | v in rks :: DataRow(v)
  }

  function ColKeySet(cks: seq<string>): set<ColKey> {
    {TotalCol} + set v | v in cks :: DataCol(v)
  }

  /** A counted pivot: its data rows and columns, and its cells including
      the "Grand Total" margins; a cell with no rows holds 0 (`fillna(0)`). */
  datatype Table = Table(rowKeys: seq<seq<string>>, colKeys: seq<string>, cells: map<(RowKey, ColKey), nat>)

  /** The rows a pivot is computed from: all rows, less those the
      `filter_condition` rejects. */
  function Source(rows: seq<Row>, spec: Spec): seq<Row> {
    Where(rows, spec.condition)
  }

  /** `create_pivot_table` up to the percentage columns: `None` is the empty
      frame returned for empty input or when the condition leaves nothing. */
  function PivotCounts(rows: seq<Row>, spec: Spec): (t: Option<Table>)
    ensures t.None? <==> rows == [] || Source(rows, spec) == []
    ensures t.Some? ==> t.value.rowKeys == RowKeys(Source(rows, spec), spec)
                        && t.value.colKeys == ColKeys(Source(rows, spec), spec)
                        && t.value.cells.Keys == Cells(t.value.rowKeys, t.value.colKeys)
  {
    if rows == [] then None
    else
      var src := Source(rows, spec);
      if src == [] then None
      else
        var rks := RowKeys(src, spec);
        var cks := ColKeys(src, spec);
        Some(Table(rks, cks,
          map k | k in Cells(rks, cks) :: Count(src, spec, RowSel(k.0), ColSel(k.1))))
  }

  // ---- The margins are sums -----------------------------------------------

  /** The counts of one row key summed over the column values `cks`. */
  function SumAcross(rows: seq<Row>, spec: Spec, rk: Option<seq<string>>, cks: seq<string>): nat
    decreases |cks|
  {
    if cks == [] then 0 else Count(rows, spec, rk, Some(cks[0])) + SumAcross(rows, spec, rk, cks[1..])
  }

  /** The counts of one column value summed over the row keys `rks`. */
  function SumDown(rows: seq<Row>, spec: Spec, rks: seq<seq<string>>, ck: Option<string>): nat
    decreases |rks|
  {
    if rks == [] then 0 else Count(rows, spec, Some(rks[0]), ck) + SumDown(rows, spec, rks[1..], ck)
  }

  /** One row contributes to exactly one of a duplicate-free list of column
      values that contains its own. */
  lemma {:induction false} OneColumn(x: Row, spec: Spec, rk: Option<seq<string>>, cks: seq<string>)
    requires NoDups(cks)
    ensures SumAcross([x], spec, rk, cks)
         == if Counts(x, spec, rk, None) && Get(x, spec.columns) in cks then 1 else 0
    decreases |cks|
  {
    if cks != [] {
      assert NoDups(cks[1..]) by {
        forall i, j | 0 <= i < j < |cks[1..]| ensures cks[1..][i] != cks[1..][j] {
          assert cks[1..][i] == cks[i + 1] && cks[1..][j] == cks[j + 1];
        }
      }
      OneColumn(x, spec, rk, cks[1..]);
      assert [x][1..] == [];
      if Get(x, spec.columns) == cks[0] {
        assert Get(x, spec.columns) !in cks[1..] by {
          forall i | 0 <= i < |cks[1..]| ensures cks[1..][i] != cks[0] {
            assert cks[1..][i] == cks[i + 1];
          }
        }
      } else {
        assert Get(x, spec.columns) in cks[1..] <==> Get(x, spec.columns) in cks;
      }
    }
  }

  /** Summing across splits over the first row and the rest. */
  lemma {:induction false} SumAcrossCons(rows: seq<Row>, spec: Spec, rk: Option<seq<string>>, cks: seq<string>)
    requires rows != []
    ensures SumAcross(rows, spec, rk, cks) == SumAcross([rows[0]], spec, rk, cks) + SumAcross(rows[1..], spec, rk, cks)
    decreases |cks|
  {
    if cks != [] {
      SumAcrossCons(rows, spec, rk, cks[1..]);
      assert [rows[0]][1..] == [];
    }
  }

  /** Each row's category counts sum to its "Grand Total": with the column
      values of all rows listed once each, summing a row key's cells across
      them gives the row key's margin. */
  lemma {:induction false} RowSumsToMargin(rows: seq<Row>, spec: Spec, rk: Option<seq<string>>, cks: seq<string>)
    requires NoDups(cks)
    requires forall i :: 0 <= i < |rows| ==> Get(rows[i], spec.columns) in cks
    ensures SumAcross(rows, spec, rk, cks) == Count(rows, spec, rk, None)
    decreases |rows|
  {
    if rows == [] {
      ZeroAcross(spec, rk, cks);
    } else {
      SumAcrossCons(rows, spec, rk, cks);
      OneColumn(rows[0], spec, rk, cks);
      RowSumsToMargin(rows[1..], spec, rk, cks);
    }
  }

  lemma {:induction false} ZeroAcross(spec: Spec, rk: Option<seq<string>>, cks: seq<string>)
    ensures SumAcross([], spec, rk, cks) == 0
    decreases |cks|
  {
    if cks != [] {
      ZeroAcross(spec, rk, cks[1..]);
    }
  }

  /** One row contributes to exactly one of a duplicate-free list of row
      keys that contains its own. */
  lemma {:induction false} OneRowKey(x: Row, spec: Spec, rks: seq<seq<string>>, ck: Option<string>)
    requires NoDups(rks)
    ensures SumDown([x], spec, rks, ck)
         == if Counts(x, spec, None, ck) && KeyOf(x, spec.index) in rks then 1 else 0
    decreases |rks|
  {
    if rks != [] {
      assert NoDups(rks[1..]) by {
        forall i, j | 0 <= i < j < |rks[1..]| ensures rks[1..][i] != rks[1..][j] {
          assert rks[1..][i] == rks[i + 1] && rks[1..][j] == rks[j + 1];
        }
      }
      OneRowKey(x, spec, rks[1..], ck);
      assert [x][1..] == [];
      if KeyOf(x, spec.index) == rks[0] {
        assert KeyOf(x, spec.index) !in rks[1..] by {
          forall i | 0 <= i < |rks[1..]| ensures rks[1..][i] != rks[0] {
            assert rks[1..][i] == rks[i + 1];
          }
        }
      } else {
        assert KeyOf(x, spec.index) in rks[1..] <==> KeyOf(x, spec.index) in rks;
      }
    }
  }

  lemma {:induction false} SumDownCons(rows: seq<Row>, spec: Spec, rks: seq<seq<string>>, ck: Option<string>)
    requires rows != []
    ensures SumDown(rows, spec, rks, ck) == SumDown([rows[0]], spec, rks, ck) + SumDown(rows[1..], spec, rks, ck)
    decreases |rks|
  {
    if rks != [] {
      SumDownCons(rows, spec, rks[1..], ck);
      assert [rows[0]][1..] == [];
    }
  }

  lemma {:induction false} ZeroDown(spec: Spec, rks: seq<seq<string>>, ck: Option<string>)
    ensures SumDown([], spec, rks, ck) == 0
    decreases |rks|
  {
    if rks != [] {
      ZeroDown(spec, rks[1..], ck);
    }
  }

  /** The "Grand Total" row is the column-wise sum: with the row keys of all
      rows listed once each, summing a column's cells down them gives the
      column's margin. */
  lemma {:induction false} ColumnSumsToMargin(rows: seq<Row>, spec: Spec, rks: seq<seq<string>>, ck: Option<string>)
    requires NoDups(rks)
    requires forall i :: 0 <= i < |rows| ==> KeyOf(rows[i], spec.index) in rks
    ensures SumDown(rows, spec, rks, ck) == Count(rows, spec, None, ck)
    decreases |rows|
  {
    if rows == [] {
      ZeroDown(spec, rks, ck);
    } else {
      SumDownCons(rows, spec, rks, ck);
      OneRowKey(rows[0], spec, rks, ck);
      ColumnSumsToMargin(rows[1..], spec, rks, ck);
    }
  }

  /** A count is the number of rows that count towards the cell. */
  lemma {:induction false} CountIsSelection(rows: seq<Row>, spec: Spec, rk: Option<seq<string>>, ck: Option<string>)
    ensures Count(rows, spec, rk, ck) == |Filter(rows, (r: Row) => Counts(r, spec, rk, ck))|
    decreases |rows|
  {
    if rows != [] {
      CountIsSelection(rows[1..], spec, rk, ck);
    }
  }

  /** Every cell of a computed pivot, margins included, is the number of
      source rows with an id that carry the cell's row key and column
      value; a margin matches any value along its axis. */
  lemma CellIsCount(rows: seq<Row>, spec: Spec, rk: RowKey, ck: ColKey)
    requires PivotCounts(rows, spec).Some?
    requires (rk, ck) in PivotCounts(rows, spec).value.cells
    ensures PivotCounts(rows, spec).value.cells[(rk, ck)]
      == |Filter(Source(rows, spec), (r: Row) => r.bookingId.Some?
            && (rk.DataRow? ==> KeyOf(r, spec.index) == rk.values)
            && (ck.DataCol? ==> Get(r, spec.columns) == ck.value))|
  {
    CountIsSelection(Source(rows, spec), spec, RowSel(rk), ColSel(ck));
    FilterSameOn(Source(rows, spec), (r: Row) => Counts(r, spec, RowSel(rk), ColSel(ck)),
      (r: Row) => r.bookingId.Some?
        && (rk.DataRow? ==> KeyOf(r, spec.index) == rk.values)
        && (ck.DataCol? ==> Get(r, spec.columns) == ck.value));
  }

  /** The cell's count as the other margin lemmas use it. */
  lemma CellCountAt(rows: seq<Row>, spec: Spec, rk: RowKey, ck: ColKey)
    requires PivotCounts(rows, spec).Some?
    requires (rk, ck) in PivotCounts(rows, spec).value.cells
    ensures PivotCounts(rows, spec).value.cells[(rk, ck)] == Count(Source(rows, spec), spec, RowSel(rk), ColSel(ck))
  {
  }

  /** Every data row's cells sum to its "Grand Total" cell. */
  lemma PivotRowMargins(rows: seq<Row>, spec: Spec, rk: seq<string>)
    requires PivotCounts(rows, spec).Some?
    requires rk in PivotCounts(rows, spec).value.rowKeys
    ensures var t := PivotCounts(rows, spec).value;
      SumAcross(Source(rows, spec), spec, Some(rk), t.colKeys) == t.cells[(DataRow(rk), TotalCol)]
  {
    var t := PivotCounts(rows, spec).value;
    var src := Source(rows, spec);
    assert forall i :: 0 <= i < |src| ==> Get(src[i], spec.columns) in t.colKeys;
    RowSumsToMargin(src, spec, Some(rk), t.colKeys);
    assert (DataRow(rk), TotalCol) in Cells(t.rowKeys, t.colKeys);
    CellCountAt(rows, spec, DataRow(rk), TotalCol);
  }

  /** The "Grand Total" row is the column-wise sum of the data rows. */
  lemma PivotColumnMargins(rows: seq<Row>, spec: Spec, ck: seq<char>)
    requires PivotCounts(rows, spec).Some?
    requires ck in PivotCounts(rows, spec).value.colKeys
    ensures var t := PivotCounts(rows, spec).value;
      SumDown(Source(rows, spec), spec, t.rowKeys, Some(ck)) == t.cells[(TotalRow, DataCol(ck))]
  {
    var t := PivotCounts(rows, spec).value;
    var src := Source(rows, spec);
    assert forall i :: 0 <= i < |src| ==> KeyOf(src[i], spec.index) in t.rowKeys;
    ColumnSumsToMargin(src, spec, t.rowKeys, Some(ck));
    assert (TotalRow, DataCol(ck)) in Cells(t.rowKeys, t.colKeys);
    CellCountAt(rows, spec, TotalRow, DataCol(ck));
  }

  /** The corner cell is the sum of the "Grand Total" row and the number of
      source rows whose `booking_id` is present. */
  lemma PivotCorner(rows: seq<Row>, spec: Spec)
    requires PivotCounts(rows, spec).Some?
    ensures var t := PivotCounts(rows, spec).value;
      SumAcross(Source(rows, spec), spec, None, t.colKeys) == t.cells[(TotalRow, TotalCol)]
      && t.cells[(TotalRow, TotalCol)] == CountIds(Source(rows, spec))
  {
    var t := PivotCounts(rows, spec).value;
    var src := Source(rows, spec);
    assert forall i :: 0 <= i < |src| ==> Get(src[i], spec.columns) in t.colKeys;
    RowSumsToMargin(src, spec, None, t.colKeys);
    assert (TotalRow, TotalCol) in Cells(t.rowKeys, t.colKeys);
    CellCountAt(rows, spec, TotalRow, TotalCol);
    CornerCountsIds(src, spec);
  }

  /** Counting with no key restriction is counting the present ids. */
  lemma {:induction false} CornerCountsIds(rows: seq<Row>, spec: Spec)
    ensures Count(rows, spec, None, None) == CountIds(rows)
    decreases |rows|
  {
    if rows != [] {
      CornerCountsIds(rows[1..], spec);
    }
  }

  // ---- Shares and rendering ---------------------------------------------

  /** A share as an exact fraction `num / den`. */
  datatype Ratio = Ratio(num: nat, den: nat)

  /** A cell's share of its row, in percent, as the exact fraction
      `n * 100 / rowTotal`; `None` for a row whose total is 0 (pandas
      produces NaN there). */
  function Percent(n: nat, rowTotal: nat): (p: Option<Ratio>)
    ensures p.Some? <==> rowTotal > 0
    ensures p.Some? ==> p.value.den == rowTotal && p.value.num == n * 100
    ensures p.Some? && n <= rowTotal ==> p.value.num <= 100 * p.value.den
    ensures p.Some? && n == rowTotal ==> p.value.num == 100 * p.value.den
  {
    if rowTotal == 0 then None else Some(Ratio(n * 100, rowTotal))
  }

  /** A count by column value never exceeds the count of its whole row. */
  lemma {:induction false} CountWithinRow(rows: seq<Row>, spec: Spec, rk: Option<seq<string>>, c: string)
    ensures Count(rows, spec, rk, Some(c)) <= Count(rows, spec, rk, None)
    decreases |rows|
  {
    if rows != [] {
      CountWithinRow(rows[1..], spec, rk, c);
    }
  }

  /** The share `create_pivot_table` computes for a cell: its count over
      the "Grand Total" cell of the same row. */
  function CellShare(t: Table, rk: RowKey, ck: ColKey): Option<Ratio>
    requires (rk, ck) in t.cells && (rk, TotalCol) in t.cells
  {
    Percent(t.cells[(rk, ck)], t.cells[(rk, TotalCol)])
  }

  /** In every row of a computed pivot, the margin row included, a cell
      counts at most the row's "Grand Total", so its share lies between 0
      and 100 percent, and the "Grand Total" column's own share is 100. */
  lemma ShareWithinRow(rows: seq<Row>, spec: Spec, rk: RowKey, ck: ColKey)
    requires PivotCounts(rows, spec).Some?
    requires (rk, ck) in PivotCounts(rows, spec).value.cells
    ensures var t := PivotCounts(rows, spec).value;
      (rk, TotalCol) in t.cells && t.cells[(rk, ck)] <= t.cells[(rk, TotalCol)]
    ensures var t := PivotCounts(rows, spec).value;
      var p := CellShare(t, rk, ck);
      (p.Some? <==> t.cells[(rk, TotalCol)] > 0)
      && (p.Some? ==> p.value.num <= 100 * p.value.den)
      && (p.Some? && ck.TotalCol? ==> p.value.num == 100 * p.value.den)
  {
    var t := PivotCounts(rows, spec).value;
    assert rk in RowKeySet(t.rowKeys);
    assert (rk, TotalCol) in Cells(t.rowKeys, t.colKeys);
    CellCountAt(rows, spec, rk, ck);
    CellCountAt(rows, spec, rk, TotalCol);
    if ck.DataCol? {
      CountWithinRow(Source(rows, spec), spec, RowSel(rk), ck.value);
    }
  }

  /** The share numerators of a row's cells in the columns `cks`, summed. */
  function ShareSum(t: Table, rk: RowKey, cks: seq<string>): nat
    requires forall i :: 0 <= i < |cks| ==> (rk, DataCol(cks[i])) in t.cells
    requires (rk, TotalCol) in t.cells && t.cells[(rk, TotalCol)] > 0
    decreases |cks|
  {
    if cks == [] then 0 else CellShare(t, rk, DataCol(cks[0])).value.num + ShareSum(t, rk, cks[1..])
  }

  lemma {:induction false} ShareSumIsAcross(src: seq<Row>, spec: Spec, t: Table, rk: RowKey, cks: seq<string>)
    requires forall i :: 0 <= i < |cks| ==>
      ((rk, DataCol(cks[i])) in t.cells && t.cells[(rk, DataCol(cks[i]))] == Count(src, spec, RowSel(rk), Some(cks[i])))
    requires (rk, TotalCol) in t.cells && t.cells[(rk, TotalCol)] > 0
    ensures ShareSum(t, rk, cks) == 100 * SumAcross(src, spec, RowSel(rk), cks)
    decreases |cks|
  {
    if cks != [] {
      ShareSumIsAcross(src, spec, t, rk, cks[1..]);
    }
  }

  /** The shares of a row's value columns add up to 100 percent of the
      row's "Grand Total", in every data row and in the margin row. */
  lemma RowSharesAddUp(rows: seq<Row>, spec: Spec, rk: RowKey)
    requires PivotCounts(rows, spec).Some?
    requires rk.DataRow? ==> rk.values in PivotCounts(rows, spec).value.rowKeys
    ensures var t := PivotCounts(rows, spec).value;
      (rk, TotalCol) in t.cells && forall i :: 0 <= i < |t.colKeys| ==> (rk, DataCol(t.colKeys[i])) in t.cells
    ensures var t := PivotCounts(rows, spec).value;
      t.cells[(rk, TotalCol)] > 0 ==> ShareSum(t, rk, t.colKeys) == 100 * t.cells[(rk, TotalCol)]
  {
    var t := PivotCounts(rows, spec).value;
    var src := Source(rows, spec);
    assert rk in RowKeySet(t.rowKeys);
    forall i | 0 <= i < |t.colKeys|
      ensures (rk, DataCol(t.colKeys[i])) in t.cells
        && t.cells[(rk, DataCol(t.colKeys[i]))] == Count(src, spec, RowSel(rk), Some(t.colKeys[i]))
    {
      assert DataCol(t.colKeys[i]) in ColKeySet(t.colKeys);
      assert (rk, DataCol(t.colKeys[i])) in Cells(t.rowKeys, t.colKeys);
      CellCountAt(rows, spec, rk, DataCol(t.colKeys[i]));
    }
    assert (rk, TotalCol) in Cells(t.rowKeys, t.colKeys);
    if t.cells[(rk, TotalCol)] > 0 {
      ShareSumIsAcross(src, spec, t, rk, t.colKeys);
      if rk.DataRow? {
        PivotRowMargins(rows, spec, rk.values);
      } else {
        PivotCorner(rows, spec);
      }
    }
  }

  /** What a cell of a computed pivot shows: the "Grand Total" column its
      count alone, any other column its count and then its share, whose
      decimal text is given. The drill-down reads the count back. */
  function ShownCell(t: Table, rk: RowKey, ck: ColKey, shareText: string): (s: string)
    requires (rk, ck) in t.cells
    ensures FirstDigitRun(s) == Some(t.cells[(rk, ck)])
    ensures ck.DataCol? ==> StartsWith(s, NatToString(t.cells[(rk, ck)]) + " (")
  {
    var n := t.cells[(rk, ck)];
    if ck.TotalCol? then
      FirstDigitRunOfNumber(n, "");
      assert NatToString(n) + "" == NatToString(n);
      NatToString(n)
    else
      RenderReadsBack(n, shareText);
      Render(n, shareText)
  }

  /** The text of a cell outside the "Grand Total" column, margin row
      included: the count, then the share in
      parentheses. The share's decimal rendering (`round(2)` then `str`) is
      a parameter. */
  function Render(n: nat, shareText: string): (s: string)
    ensures StartsWith(s, NatToString(n) + " (")
  {
    NatToString(n) + " (" + shareText + "%)"
  }

  /** The leading integer of a rendered cell is its count, whatever the
      share's text: what the drill-down reads back with `\d+`. */
  lemma RenderReadsBack(n: nat, shareText: string)
    ensures FirstDigitRun(Render(n, shareText)) == Some(n)
  {
    assert Render(n, shareText) == NatToString(n) + (" (" + shareText + "%)");
    FirstDigitRunOfNumber(n, " (" + shareText + "%)");
  }

  // ---- Column order and names -------------------------------------------

  /** The status columns placed first, in this order, when present. */
  const DesiredOrder: seq<string> := ["Grand Total", "Goaxled", "Follow-up", "Cancelled", "Others", "Idle", "Duplicate"]

  lemma DesiredOrderDistinct()
    ensures NoDups(DesiredOrder)
  {
    var d := DesiredOrder;
    assert |d[0]| == 11 && |d[1]| == 7 && |d[2]| == 9 && |d[3]| == 9 && |d[4]| == 6 && |d[5]| == 4 && |d[6]| == 9;
    assert d[2][0] == 'F' && d[3][0] == 'C' && d[6][0] == 'D';
  }

  /** The frame names of a pivot's index columns. */
  function IndexNames(spec: Spec): (names: seq<string>)
    ensures |names| == |spec.index|
    ensures forall i :: 0 <= i < |spec.index| ==> names[i] == ColumnName(spec.index[i])
  {
    seq(|spec.index|, i requires 0 <= i < |spec.index| => ColumnName(spec.index[i]))
  }

  /** The frame's columns after `reset_index()`: the index columns, the
      column values, then the margin. */
  function AvailableColumns(spec: Spec, colKeys: seq<string>): (a: seq<string>)
    ensures |a| == |spec.index| + |colKeys| + 1
    ensures a[..|spec.index|] == IndexNames(spec)
    ensures a[|a| - 1] == "Grand Total"
  {
    IndexNames(spec) + colKeys + ["Grand Total"]
  }

  /** The reordering loop for a given preferred order: the first `|index|`
      columns, then the present members of `order`, then every other column
      that is neither already placed nor an index column. */
  function Arrange(index: seq<string>, available: seq<string>, order: seq<string>): seq<string>
    requires |index| <= |available|
  {
    var lead := available[..|index|];
    var desired := Filter(order, c => c in available);
    var placed := lead + desired;
    placed + Filter(available, c => c !in placed && c !in index)
  }

  /** The report's reordering, with `DesiredOrder` as the preferred order. */
  function OrderColumns(index: seq<string>, available: seq<string>): seq<string>
    requires |index| <= |available|
  {
    Arrange(index, available, DesiredOrder)
  }

  /** Filtering a duplicate-free list keeps it duplicate-free. */
  lemma {:induction false} FilterNoDups<T(!new)>(s: seq<T>, p: T -> bool)
    requires NoDups(s)
    ensures NoDups(Filter(s, p))
    decreases |s|
  {
    if s != [] {
      assert NoDups(s[1..]) by {
        forall i, j | 0 <= i < j < |s[1..]| ensures s[1..][i] != s[1..][j] {
          assert s[1..][i] == s[i + 1] && s[1..][j] == s[j + 1];
        }
      }
      FilterNoDups(s[1..], p);
      var rest := Filter(s[1..], p);
      if p(s[0]) {
        assert s[0] !in s[1..];
        assert s[0] !in rest;
        var r := [s[0]] + rest;
        forall i, j | 0 <= i < j < |r| ensures r[i] != r[j] {
          if i == 0 {
            assert r[j] == rest[j - 1];
          } else {
            assert r[i] == rest[i - 1] && r[j] == rest[j - 1];
          }
        }
      }
    }
  }

  /** Two duplicate-free lists with no common element concatenate to a
      duplicate-free list. */
  lemma ConcatNoDups<T>(a: seq<T>, b: seq<T>)
    requires NoDups(a) && NoDups(b)
    requires forall x :: x in a ==> x !in b
    ensures NoDups(a + b)
  {
    var ab := a + b;
    forall i, j | 0 <= i < j < |ab| ensures ab[i] != ab[j] {
      if j < |a| {
      } else if i >= |a| {
        assert ab[i] == b[i - |a|] && ab[j] == b[j - |a|];
      } else {
        assert ab[i] in a;
        assert ab[j] == b[j - |a|];
      }
    }
  }

  /** Any reordering of this shape is a permutation of distinct columns
      that start with the index columns, provided the preferred order is
      distinct and names none of the index columns. */
  lemma ArrangePermutes(index: seq<string>, available: seq<string>, order: seq<string>)
    requires |index| <= |available| && available[..|index|] == index
    requires NoDups(available) && NoDups(order)
    requires forall c :: c in index ==> c !in order
    ensures NoDups(Arrange(index, available, order))
    ensures forall c :: c in Arrange(index, available, order) <==> c in available
    ensures Arrange(index, available, order)[..|index|] == index
  {
    var lead := available[..|index|];
    var desired := Filter(order, c => c in available);
    var placed := lead + desired;
    var rest := Filter(available, c => c !in placed && c !in index);
    assert NoDups(lead) by {
      forall i, j | 0 <= i < j < |lead| ensures lead[i] != lead[j] {
        assert lead[i] == available[i] && lead[j] == available[j];
      }
    }
    FilterNoDups(order, c => c in available);
    ConcatNoDups(lead, desired);
    FilterNoDups(available, c => c !in placed && c !in index);
    ConcatNoDups(placed, rest);
    forall c | c in available ensures c in placed + rest {
      if c !in placed && c !in index {
        assert c in rest;
      } else if c in index {
        assert c in lead;
      }
    }
    forall c | c in lead ensures c in available {
      var i :| 0 <= i < |lead| && lead[i] == c;
      assert available[i] == c;
    }
    assert (placed + rest)[..|index|] == lead;
  }

  /** The report's reordering is a permutation: when the available columns
      are distinct and start with the index columns, which are not status
      names, every column appears exactly once and nothing else appears. */
  lemma OrderColumnsPermutes(index: seq<string>, available: seq<string>)
    requires |index| <= |available| && available[..|index|] == index
    requires NoDups(available)
    requires forall c :: c in index ==> c !in DesiredOrder
    ensures NoDups(OrderColumns(index, available))
    ensures forall c :: c in OrderColumns(index, available) <==> c in available
    ensures OrderColumns(index, available)[..|index|] == index
  {
    DesiredOrderDistinct();
    ArrangePermutes(index, available, DesiredOrder);
  }

  /** When the first preferred column is available it comes right after
      the index columns. */
  lemma ArrangeFirstPreferred(index: seq<string>, available: seq<string>, order: seq<string>)
    requires |index| <= |available|
    requires order != [] && order[0] in available
    ensures |Arrange(index, available, order)| > |index|
    ensures Arrange(index, available, order)[|index|] == order[0]
  {
    var desired := Filter(order, c => c in available);
    assert desired == [order[0]] + Filter(order[1..], c => c in available);
  }

  /** The display names the report gives to columns; others keep their name. */
  function Rename(c: string): string {
    if c == "master_service" then "Service"
    else if c == "vehicle_type" then "Type"
    else if c == "crm_admin_name" then "Name"
    else if c == "user_source" then "Source"
    else if c == "Activity_Status_Final" then "Activity status"
    else if c == "Grand Total" then "Total Leads"
    else if c == "cleaned_category" then "Category"
    else c
  }

  /** The margin column is shown as "Total Leads". */
  lemma RenameMargin()
    ensures Rename("Grand Total") == "Total Leads"
  {
    var g := "Grand Total";
    assert |g| == 11 && g[0] == 'G';
  }

  /** The displayed header of a computed pivot: the ordered columns, each
      under its display name. */
  function DisplayColumns(spec: Spec, colKeys: seq<string>): (r: seq<string>)
    ensures var ordered := OrderColumns(IndexNames(spec), AvailableColumns(spec, colKeys));
      |r| == |ordered| && forall i :: 0 <= i < |r| ==> r[i] == Rename(ordered[i])
  {
    RenameAll(OrderColumns(IndexNames(spec), AvailableColumns(spec, colKeys)))
  }

  function RenameAll(cols: seq<string>): (r: seq<string>)
    ensures |r| == |cols| && forall i :: 0 <= i < |r| ==> r[i] == Rename(cols[i])
  {
    seq(|cols|, i requires 0 <= i < |cols| => Rename(cols[i]))
  }

  /** With distinct frame columns and no index column among the preferred
      ones, the header starts with the index columns' display names and
      shows the display name of every frame column and nothing else. */
  lemma DisplayedHeaders(spec: Spec, colKeys: seq<string>)
    requires NoDups(AvailableColumns(spec, colKeys))
    requires forall c :: c in IndexNames(spec) ==> c !in DesiredOrder
    ensures var d := DisplayColumns(spec, colKeys);
      |d| >= |spec.index|
      && (forall i :: 0 <= i < |spec.index| ==> d[i] == Rename(ColumnName(spec.index[i])))
      && (forall c :: c in d <==> exists a :: a in AvailableColumns(spec, colKeys) && Rename(a) == c)
  {
    var index := IndexNames(spec);
    var available := AvailableColumns(spec, colKeys);
    OrderColumnsPermutes(index, available);
    var ordered := OrderColumns(index, available);
    RenameAllPrefix(ordered, index);
    RenameAllMembers(ordered, available);
  }

  /** Renaming a sequence that starts with `lead` starts with the renamed `lead`. */
  lemma RenameAllPrefix(cols: seq<string>, lead: seq<string>)
    requires |lead| <= |cols| && cols[..|lead|] == lead
    ensures forall i :: 0 <= i < |lead| ==> RenameAll(cols)[i] == Rename(lead[i])
  {
    forall i | 0 <= i < |lead| ensures RenameAll(cols)[i] == Rename(lead[i]) {
      assert cols[..|lead|][i] == cols[i];
    }
  }

  /** Renaming a rearrangement of `available` shows exactly the renamed
      members of `available`. */
  lemma RenameAllMembers(cols: seq<string>, available: seq<string>)
    requires forall c :: c in cols <==> c in available
    ensures forall c :: c in RenameAll(cols) <==> exists a :: a in available && Rename(a) == c
  {
    var d := RenameAll(cols);
    forall c ensures c in d <==> exists a :: a in available && Rename(a) == c {
      if c in d {
        var i :| 0 <= i < |d| && d[i] == c;
        assert cols[i] in available;
      }
      if exists a :: a in available && Rename(a) == c {
        var a :| a in available && Rename(a) == c;
        var i :| 0 <= i < |cols| && cols[i] == a;
        assert d[i] == c;
      }
    }
  }

  /** The margin column comes right after the index columns, renamed
      "Total Leads". */
  lemma TotalLeadsFollowsIndex(spec: Spec, colKeys: seq<string>)
    ensures var d := DisplayColumns(spec, colKeys);
      |d| > |spec.index| && d[|spec.index|] == "Total Leads"
  {
    var index := IndexNames(spec);
    var available := AvailableColumns(spec, colKeys);
    assert available[|available| - 1] == "Grand Total";
    assert DesiredOrder[0] == "Grand Total";
    ArrangeFirstPreferred(index, available, DesiredOrder);
    var ordered := OrderColumns(index, available);
    assert ordered[|index|] == "Grand Total";
    var d := DisplayColumns(spec, colKeys);
    assert d[|index|] == Rename(ordered[|index|]);
    RenameMargin();
  }
}

=== FILE: report.dfy ===
/** The core report's callbacks over the stored rows: the six facet
    filters of `filter_data`, and the five pivots `update_pivot_tables`
    builds from the filtered rows, including the follow-up subset. */
module Report {
  import opened Common
  import opened Text
  import opened Booking
  import opened Facets
  import Pivot

  // ---- filter_data --------------------------------------------------------

  /** The six facet controls of the report, in the order they are applied. */
  datatype Selection = Selection(
    cities: Option<seq<string>>,
    vehicleTypes: Option<seq<string>>,
    masterServices: Option<seq<string>>,
    serviceTypes: Option<seq<string>>,
    crmAdmins: Option<seq<string>>,
    userSources: Option<seq<string>>)

  /** A facet on one column of the report. */
  function ColumnFacet(c: Column, selected: Option<seq<string>>): Facet<Row> {
    Facet((r: Row) => Some(Get(r, c)), selected)
  }

  function CoreFacets(sel: Selection): (fs: seq<Facet<Row>>)
    ensures |fs| == 6
  {
    [ ColumnFacet(City, sel.cities),
      ColumnFacet(VehicleType, sel.vehicleTypes),
      ColumnFacet(MasterService, sel.masterServices),
      ColumnFacet(ServiceType, sel.serviceTypes),
      ColumnFacet(CrmAdminName, sel.crmAdmins),
      ColumnFacet(UserSource, sel.userSources) ]
  }

  /** A facet selection admits a value when it is missing or empty, or
      when it lists the value. */
  predicate Admits(selected: Option<seq<string>>, v: string) {
    selected.None? || |selected.value| == 0 || v in selected.value
  }

  /** The rows the report keeps, stated field by field. */
  predicate Selected(sel: Selection, r: Row) {
    Admits(sel.cities, r.city)
    && Admits(sel.vehicleTypes, r.vehicleType)
    && Admits(sel.masterServices, r.masterService)
    && Admits(sel.serviceTypes, r.serviceType)
    && Admits(sel.crmAdmins, r.crmAdminName)
    && Admits(sel.userSources, r.userSource)
  }

  /** `filter_data`: nothing stored gives nothing; otherwise the six facets
      in turn. */
  function FilterData(stored: seq<Row>, sel: Selection): (out: seq<Row>)
    ensures |out| <= |stored|
  {
    if stored == [] then [] else ApplyFacets(stored, CoreFacets(sel))
  }

  lemma PassesAllIsSelected(sel: Selection, r: Row)
    ensures PassesAll(CoreFacets(sel), r) <==> Selected(sel, r)
  {
    var fs := CoreFacets(sel);
    assert Passes(fs[0], r) <==> Admits(sel.cities, r.city);
    assert Passes(fs[1], r) <==> Admits(sel.vehicleTypes, r.vehicleType);
    assert Passes(fs[2], r) <==> Admits(sel.masterServices, r.masterService);
    assert Passes(fs[3], r) <==> Admits(sel.serviceTypes, r.serviceType);
    assert Passes(fs[4], r) <==> Admits(sel.crmAdmins, r.crmAdminName);
    assert Passes(fs[5], r) <==> Admits(sel.userSources, r.userSource);
  }

  /** A row is kept iff it was stored and every non-empty facet lists its
      value; the kept rows are the stored rows selected in their order. */
  lemma FilterDataKeeps(stored: seq<Row>, sel: Selection)
    ensures forall r :: r in FilterData(stored, sel) <==> r in stored && Selected(sel, r)
    ensures FilterData(stored, sel) == Filter(stored, r => Selected(sel, r))
  {
    forall r ensures PassesAll(CoreFacets(sel), r) <==> Selected(sel, r) {
      PassesAllIsSelected(sel, r);
    }
    if stored != [] {
      ApplyFacetsIsFilter(stored, CoreFacets(sel));
      assert FilterData(stored, sel) == Filter(stored, x => PassesAll(CoreFacets(sel), x));
      FilterConj(stored, x => true, x => PassesAll(CoreFacets(sel), x), r => Selected(sel, r));
      FilterAll(stored, x => true);
    }
  }

  /** The filtered rows keep the stored order. */
  lemma FilterDataSubsequence(stored: seq<Row>, sel: Selection)
    ensures IsSubsequence(FilterData(stored, sel), stored)
  {
    if stored == [] {
      SubsequenceRefl(stored);
    } else {
      ApplyFacetsSubsequence(stored, CoreFacets(sel));
    }
  }

  /** Filtering the filtered rows again with the same selection changes
      nothing. */
  lemma FilterDataIdempotent(stored: seq<Row>, sel: Selection)
    ensures FilterData(FilterData(stored, sel), sel) == FilterData(stored, sel)
  {
    if stored != [] && FilterData(stored, sel) != [] {
      ApplyFacetsIdempotent(stored, CoreFacets(sel));
    }
  }

  /** No facet holds a value. */
  predicate NothingSelected(sel: Selection) {
    (sel.cities.Some? ==> sel.cities.value == [])
    && (sel.vehicleTypes.Some? ==> sel.vehicleTypes.value == [])
    && (sel.masterServices.Some? ==> sel.masterServices.value == [])
    && (sel.serviceTypes.Some? ==> sel.serviceTypes.value == [])
    && (sel.crmAdmins.Some? ==> sel.crmAdmins.value == [])
    && (sel.userSources.Some? ==> sel.userSources.value == [])
  }

  /** With every facet missing or empty, every stored row is kept. */
  lemma FilterDataNoSelection(stored: seq<Row>, sel: Selection)
    requires NothingSelected(sel)
    ensures FilterData(stored, sel) == stored
  {
    if stored != [] {
      var fs := CoreFacets(sel);
      assert !Active(fs[0]) && !Active(fs[1]) && !Active(fs[2]);
      assert !Active(fs[3]) && !Active(fs[4]) && !Active(fs[5]);
      InactiveFacetsKeepAll(stored, fs);
    }
  }

  // ---- update_pivot_tables --------------------------------------------------

  /** The rows of the "Follow-up Bookings" pivot. */
  predicate IsFollowUp(r: Row) {
    r.bookingStatusCode in {3, 4, 5, 6} && r.flag == 0
  }

  function FollowUps(rows: seq<Row>): (out: seq<Row>)
    ensures forall r :: r in out <==> r in rows && IsFollowUp(r)
  {
    Filter(rows, IsFollowUp)
  }

  const NotPv: Pred := Ne(VehicleType, "pv")

  /** Conversion by one field: counts per value and `new_status`, pv
      excluded. */
  function ConversionSpec(c: Column): Pivot.Spec {
    Pivot.Spec([c], NewStatus, [NotPv])
  }

  /** Non-conversion: counts per (activity status, comment) and vehicle
      type, restricted to one activity status. */
  function NonConversionSpec(status: string): Pivot.Spec {
    Pivot.Spec([ActivityStatusFinal, Comments], VehicleType, [NotPv, Eq(ActivityStatusFinal, status)])
  }

  /** Follow-up bookings: counts per cleaned category and vehicle type, pv
      excluded. */
  const FollowUpSpec: Pivot.Spec := Pivot.Spec([CleanedCategory], VehicleType, [NotPv])

  /** What the report shows: one message in every container, or the five
      groups of pivots (`None` where a pivot is empty). */
  datatype Reports =
    | NoData(message: string)
    | Pivots(service: Option<Pivot.Table>, person: Option<Pivot.Table>, source: Option<Pivot.Table>,
             cancelled: Option<Pivot.Table>, other: Option<Pivot.Table>, followUp: Option<Pivot.Table>)

  /** A date from the picker is usable when it is present and non-empty. */
  predicate Given(d: Option<string>) {
    d.Some? && d.value != ""
  }

  /** The warning shown when nothing is filtered. */
  function NoDataMessage(start: Option<string>, end: Option<string>): (m: string)
    ensures StartsWith(m, "No data available")
    ensures Given(start) && Given(end) ==> m == "No data available from " + start.value + " to " + end.value + "."
  {
    var prefix := "No data available";
    var tail := if Given(start) && Given(end) then " from " + start.value + " to " + end.value + "."
                else ". Please select a valid date range and click 'Go'.";
    assert (prefix + tail)[..|prefix|] == prefix;
    prefix + tail
  }

  function UpdatePivotTables(filtered: seq<Row>, start: Option<string>, end: Option<string>): (out: Reports)
    ensures out.NoData? <==> filtered == []
  {
    if filtered == [] then NoData(NoDataMessage(start, end))
    else
      Pivots(
        Pivot.PivotCounts(filtered, ConversionSpec(MasterService)),
        Pivot.PivotCounts(filtered, ConversionSpec(CrmAdminName)),
        Pivot.PivotCounts(filtered, ConversionSpec(UserSource)),
        Pivot.PivotCounts(filtered, NonConversionSpec("Cancelled Booking")),
        Pivot.PivotCounts(filtered, NonConversionSpec("Other Booking")),
        Pivot.PivotCounts(FollowUps(filtered), FollowUpSpec))
  }

  /** The pv condition removes nothing from rows that hold no pv vehicle,
      which is every row `prepare_data` produced. */
  lemma ConversionSourceIsAll(rows: seq<Row>, c: Column)
    requires forall r :: r in rows ==> r.vehicleType != "pv"
    ensures Pivot.Source(rows, ConversionSpec(c)) == rows
  {
    forall r | r in rows ensures HoldsAll([NotPv], r) {
      assert Holds(NotPv, r);
    }
    FilterAll(rows, x => HoldsAll([NotPv], x));
  }

  /** The follow-up pivot is computed from every follow-up row when no
      row is pv. */
  lemma FollowUpSourceIsAll(rows: seq<Row>)
    requires forall r :: r in rows ==> r.vehicleType != "pv"
    ensures Pivot.Source(FollowUps(rows), FollowUpSpec) == FollowUps(rows)
  {
    var df := FollowUps(rows);
    forall r | r in df ensures HoldsAll([NotPv], r) {
      assert Holds(NotPv, r);
    }
    FilterAll(df, x => HoldsAll([NotPv], x));
  }

  /** A non-conversion pivot holds exactly the rows with its activity
      status (pv aside). */
  lemma NonConversionSource(rows: seq<Row>, status: string)
    ensures forall r :: (r in Pivot.Source(rows, NonConversionSpec(status))
      <==> r in rows && r.vehicleType != "pv" && r.activityStatusFinal == status)
  {
    var ps := NonConversionSpec(status).condition;
    forall r ensures HoldsAll(ps, r) <==> r.vehicleType != "pv" && r.activityStatusFinal == status {
      assert Holds(ps[0], r) <==> r.vehicleType != "pv";
      assert Holds(ps[1], r) <==> r.activityStatusFinal == status;
    }
  }

  /** A non-empty filtered set shows a service pivot whose corner is the
      number of rows with an id, when none of them is pv. */
  lemma ServiceCornerCountsAll(filtered: seq<Row>)
    requires filtered != []
    requires forall r :: r in filtered ==> r.vehicleType in {"4w", "2w", "Others"}
    ensures UpdatePivotTables(filtered, None, None).service.Some?
    ensures UpdatePivotTables(filtered, None, None).service.value.cells[(Pivot.TotalRow, Pivot.TotalCol)]
         == CountIds(filtered)
  {
    var spec := ConversionSpec(MasterService);
    ConversionSourceIsAll(filtered, MasterService);
    Pivot.PivotCorner(filtered, spec);
  }
}

=== FILE: sorting.dfy ===
/** Sorting by a comparison, as `sorted(values, key=...)` and
    `sort_values(...)` order the feedback page's options and groups:
    insertion sort, each element placed before the first one it does not
    come after, so that equal elements keep their order. */
module Sorting {
  import opened Common
  import opened Text

  /** A comparison that relates every pair one way or the other. */
  ghost predicate Total<T(!new)>(le: (T, T) -> bool) {
    forall a: T, b: T :: le(a, b) || le(b, a)
  }

  /** Each element comes no later than its successor. */
  predicate SortedBy<T>(s: seq<T>, le: (T, T) -> bool) {
    forall i :: 0 < i < |s| ==> le(s[i - 1], s[i])
  }

  function Insert<T>(x: T, s: seq<T>, le: (T, T) -> bool): (r: seq<T>)
    ensures |r| == |s| + 1
    ensures multiset(r) == multiset(s) + multiset{x}
    ensures r != [] && (r[0] == x || (s != [] && r[0] == s[0]))
    decreases |s|
  {
    if s == [] then [x]
    else if le(x, s[0]) then [x] + s
    else
      var rest := Insert(x, s[1..], le);
      assert s == [s[0]] + s[1..];
      [s[0]] + rest
  }

  function SortBy<T>(s: seq<T>, le: (T, T) -> bool): (r: seq<T>)
    ensures |r| == |s|
    ensures multiset(r) == multiset(s)
    decreases |s|
  {
    if s == [] then []
    else
      assert s == [s[0]] + s[1..];
      Insert(s[0], SortBy(s[1..], le), le)
  }

  lemma {:induction false} InsertSorted<T(!new)>(x: T, s: seq<T>, le: (T, T) -> bool)
    requires Total(le) && SortedBy(s, le)
    ensures SortedBy(Insert(x, s, le), le)
    decreases |s|
  {
    if s != [] && !le(x, s[0]) {
      assert le(s[0], x);
      assert SortedBy(s[1..], le) by {
        forall i | 0 < i < |s[1..]| ensures le(s[1..][i - 1], s[1..][i]) {
          assert s[1..][i - 1] == s[i] && s[1..][i] == s[i + 1];
        }
      }
      InsertSorted(x, s[1..], le);
      var rest := Insert(x, s[1..], le);
      var r := [s[0]] + rest;
      forall i | 0 < i < |r| ensures le(r[i - 1], r[i]) {
        if i == 1 {
          if rest[0] != x {
            assert rest[0] == s[1];
          }
        } else {
          assert r[i - 1] == rest[i - 2] && r[i] == rest[i - 1];
        }
      }
    } else if s != [] {
      var r := [x] + s;
      forall i | 0 < i < |r| ensures le(r[i - 1], r[i]) {
        if i > 1 {
          assert r[i - 1] == s[i - 2] && r[i] == s[i - 1];
        }
      }
    }
  }

  /** The result is ordered by the comparison. */
  lemma {:induction false} SortBySorted<T(!new)>(s: seq<T>, le: (T, T) -> bool)
    requires Total(le)
    ensures SortedBy(SortBy(s, le), le)
    decreases |s|
  {
    if s != [] {
      SortBySorted(s[1..], le);
      InsertSorted(s[0], SortBy(s[1..], le), le);
    }
  }

  /** Sorting keeps every element and adds none. */
  lemma SortByMembers<T>(s: seq<T>, le: (T, T) -> bool, x: T)
    ensures x in SortBy(s, le) <==> x in s
  {
    assert x in SortBy(s, le) <==> x in multiset(SortBy(s, le));
    assert x in s <==> x in multiset(s);
  }

  /** Sorting a duplicate-free sequence keeps it duplicate-free. */
  lemma SortByNoDups<T>(s: seq<T>, le: (T, T) -> bool)
    requires NoDups(s)
    ensures NoDups(SortBy(s, le))
  {
    var r := SortBy(s, le);
    forall i, j | 0 <= i < j < |r| ensures r[i] != r[j] {
      if r[i] == r[j] {
        MultisetTwice(r, i, j);
        NoDupsOnce(s, r[i]);
      }
    }
  }

  /** Texts in code-point order, as Python compares `str` values. */
  function TextOrder(): (string, string) -> bool {
    (a: string, b: string) => StrLe(a, b)
  }

  lemma TextOrderTotal()
    ensures Total(TextOrder())
  {
    forall a: string, b: string ensures TextOrder()(a, b) || TextOrder()(b, a) {
      StrLeTotal(a, b);
    }
  }
}

=== FILE: text.dfy ===
/** The string operations the dashboard applies to its text fields, with
    Python's semantics: `str.strip`, `str.lower`, `str.title`, `str(n)`,
    `int(re.search(r'\d+', s).group())` and the regex `^\d+\s*-\s*`.
    Case mapping and `\d` are modelled on ASCII (see the README). */
module Text {
  import opened Common

  /** Python's `str.isspace` (also what `\s` matches in a `str` pattern). */
  predicate IsSpace(c: char) {
    var n := c as int;
    n == 0x20 || (0x09 <= n <= 0x0D) || (0x1C <= n <= 0x1F) || n == 0x85 || n == 0xA0
    || n == 0x1680 || (0x2000 <= n <= 0x200A) || n == 0x2028 || n == 0x2029
    || n == 0x202F || n == 0x205F || n == 0x3000
  }

  predicate IsDigit(c: char) {
    '0' <= c <= '9'
  }

  /** Length of the longest prefix of `s` whose characters satisfy `p`. */
  function SpanWhile(s: string, p: char -> bool): (n: nat)
    ensures n <= |s|
    ensures forall k :: 0 <= k < n ==> p(s[k])
    ensures n < |s| ==> !p(s[n])
    decreases |s|
  {
    if s != [] && p(s[0]) then 1 + SpanWhile(s[1..], p) else 0
  }

  /** A prefix made of `p`-characters, followed by something that is not one,
      is exactly what `SpanWhile` measures. */
  lemma {:induction false} SpanWhileConcat(a: string, b: string, p: char -> bool)
    requires forall k :: 0 <= k < |a| ==> p(a[k])
    requires b == [] || !p(b[0])
    ensures SpanWhile(a + b, p) == |a|
    decreases |a|
  {
    if a != [] {
      assert (a + b)[1..] == a[1..] + b;
      SpanWhileConcat(a[1..], b, p);
    }
  }

  function LStrip(s: string): (r: string)
    ensures |r| <= |s|
    ensures r == s[|s| - |r|..]
    ensures r == [] || !IsSpace(r[0])
    ensures forall k :: 0 <= k < |s| - |r| ==> IsSpace(s[k])
  {
    s[SpanWhile(s, IsSpace)..]
  }

  function RStrip(s: string): (r: string)
    ensures |r| <= |s|
    ensures r == s[..|r|]
    ensures r == [] || !IsSpace(r[|r| - 1])
    ensures forall k :: |r| <= k < |s| ==> IsSpace(s[k])
    decreases |s|
  {
    if s != [] && IsSpace(s[|s| - 1]) then RStrip(s[..|s| - 1]) else s
  }

  /** Number of whitespace characters `strip` removes from the front of `s`. */
  function StripStart(s: string): nat {
    SpanWhile(s, IsSpace)
  }

  /** Python's `str.strip()`: a contiguous slice of `s` that neither starts
      nor ends with whitespace, with only whitespace cut on either side. */
  function Strip(s: string): (r: string)
    ensures r == [] || (!IsSpace(r[0]) && !IsSpace(r[|r| - 1]))
    ensures StripStart(s) + |r| <= |s|
    ensures r == s[StripStart(s)..StripStart(s) + |r|]
    ensures forall k :: 0 <= k < StripStart(s) ==> IsSpace(s[k])
    ensures forall k :: StripStart(s) + |r| <= k < |s| ==> IsSpace(s[k])
  {
    RStrip(LStrip(s))
  }

  /** A value with no whitespace at either end is left alone by `strip`. */
  lemma StripUnchanged(s: string)
    requires s == [] || (!IsSpace(s[0]) && !IsSpace(s[|s| - 1]))
    ensures Strip(s) == s
  {
    assert LStrip(s) == s;
  }

  lemma StripIdempotent(s: string)
    ensures Strip(Strip(s)) == Strip(s)
  {
    StripUnchanged(Strip(s));
  }

  /** Python's `str.lower()` on one character (ASCII letters). */
  function LowerChar(c: char): char {
    if 'A' <= c <= 'Z' then (c as int + 32) as char else c
  }

  function UpperChar(c: char): char {
    if 'a' <= c <= 'z' then (c as int - 32) as char else c
  }

  predicate IsCased(c: char) {
    ('a' <= c <= 'z') || ('A' <= c <= 'Z')
  }

  function Lower(s: string): (r: string)
    ensures |r| == |s|
    ensures forall i :: 0 <= i < |s| ==> r[i] == LowerChar(s[i])
  {
    seq(|s|, i requires 0 <= i < |s| => LowerChar(s[i]))
  }

  function TitleFrom(s: string, previousCased: bool): (r: string)
    ensures |r| == |s|
    decreases |s|
  {
    if s == [] then []
    else [if previousCased then LowerChar(s[0]) else UpperChar(s[0])]
         + TitleFrom(s[1..], IsCased(s[0]))
  }

  /** Python's `str.title()`: a character is upper-cased when the character
      before it is not a cased letter, and lower-cased otherwise. */
  function Title(s: string): (r: string)
    ensures |r| == |s|
  {
    TitleFrom(s, false)
  }

  lemma {:induction false} TitleFromAt(s: string, previousCased: bool, i: nat)
    requires i < |s|
    ensures TitleFrom(s, previousCased)[i]
         == if (if i == 0 then previousCased else IsCased(s[i - 1]))
            then LowerChar(s[i]) else UpperChar(s[i])
    decreases i
  {
    if i > 0 {
      TitleFromAt(s[1..], IsCased(s[0]), i - 1);
    }
  }

  /** Position-wise reading of `title`: what each output character is. */
  lemma TitleAt(s: string, i: nat)
    requires i < |s|
    ensures Title(s)[i] == if i > 0 && IsCased(s[i - 1]) then LowerChar(s[i]) else UpperChar(s[i])
  {
    TitleFromAt(s, false, i);
  }

  /** Title-casing twice is title-casing once. */
  lemma TitleIdempotent(s: string)
    ensures Title(Title(s)) == Title(s)
  {
    var t := Title(s);
    forall i | 0 <= i < |s|
      ensures Title(t)[i] == t[i]
    {
      TitleAt(t, i);
      TitleAt(s, i);
      if i > 0 {
        TitleAt(s, i - 1);
      }
    }
  }

  /** Title-casing never turns whitespace into anything else, nor anything else into whitespace. */
  lemma TitleKeepsSpaces(s: string, i: nat)
    requires i < |s|
    ensures IsSpace(Title(s)[i]) <==> IsSpace(s[i])
  {
    TitleAt(s, i);
  }

  /** Python's `str.replace(a, b)` for single characters. */
  function ReplaceChar(s: string, a: char, b: char): (r: string)
    ensures |r| == |s|
    ensures forall i :: 0 <= i < |s| ==> r[i] == if s[i] == a then b else s[i]
  {
    seq(|s|, i requires 0 <= i < |s| => if s[i] == a then b else s[i])
  }

  predicate StartsWith(s: string, prefix: string) {
    |prefix| <= |s| && s[..|prefix|] == prefix
  }

  /** Python's `<=` on strings: lexicographic by code point, a prefix
      first. */
  predicate StrLe(a: string, b: string)
    decreases |a|
  {
    a == [] || (b != [] && (a[0] < b[0] || (a[0] == b[0] && StrLe(a[1..], b[1..]))))
  }

  /** Any two strings are ordered one way or the other. */
  lemma {:induction false} StrLeTotal(a: string, b: string)
    ensures StrLe(a, b) || StrLe(b, a)
    decreases |a|
  {
    if a != [] && b != [] && a[0] == b[0] {
      StrLeTotal(a[1..], b[1..]);
    }
  }

  /** Strings ordered both ways are equal. */
  lemma {:induction false} StrLeAntisymmetric(a: string, b: string)
    requires StrLe(a, b) && StrLe(b, a)
    ensures a == b
    decreases |a|
  {
    if a != [] {
      StrLeAntisymmetric(a[1..], b[1..]);
      assert a == [a[0]] + a[1..] && b == [b[0]] + b[1..];
    }
  }

  function DigitChar(d: nat): char
    requires d < 10
  {
    ('0' as int + d) as char
  }

  /** Python's `str(n)` for a non-negative integer. */
  function NatToString(n: nat): (r: string)
    ensures |r| >= 1
    ensures forall i :: 0 <= i < |r| ==> IsDigit(r[i])
    decreases n
  {
    if n < 10 then [DigitChar(n)] else NatToString(n / 10) + [DigitChar(n % 10)]
  }

  /** Python's `str(i)` for any integer. */
  function IntToString(i: int): string {
    if i < 0 then "-" + NatToString(-i) else NatToString(i)
  }

  /** The value of a run of decimal digits (Python's `int` on it). */
  function DigitsValue(s: string): nat
    requires forall i :: 0 <= i < |s| ==> IsDigit(s[i])
    decreases |s|
  {
    if s == [] then 0
    else
      var last := s[|s| - 1];
      assert IsDigit(last);
      DigitsValue(s[..|s| - 1]) * 10 + (last as int - '0' as int)
  }

  lemma {:induction false} NatToStringRoundTrip(n: nat)
    ensures DigitsValue(NatToString(n)) == n
    decreases n
  {
    if n >= 10 {
      var s := NatToString(n);
      assert s[..|s| - 1] == NatToString(n / 10);
      NatToStringRoundTrip(n / 10);
    }
  }

  /** `int(re.search(r'\d+', s).group())`: the value of the first run of
      digits in `s`, or `None` where the search finds nothing. */
  function FirstDigitRun(s: string): (r: Option<nat>)
    ensures r.None? <==> forall i :: 0 <= i < |s| ==> !IsDigit(s[i])
    decreases |s|
  {
    if s == [] then None
    else if IsDigit(s[0]) then
      var n := SpanWhile(s, IsDigit);
      Some(DigitsValue(s[..n]))
    else FirstDigitRun(s[1..])
  }

  /** A decimal number followed by a non-digit reads back as that number,
      whatever follows it: the leading count of an "n (p%)" cell is n. */
  lemma FirstDigitRunOfNumber(n: nat, tail: string)
    requires tail == [] || !IsDigit(tail[0])
    ensures FirstDigitRun(NatToString(n) + tail) == Some(n)
  {
    var s := NatToString(n);
    SpanWhileConcat(s, tail, IsDigit);
    assert (s + tail)[..|s|] == s;
    NatToStringRoundTrip(n);
  }

  /** Python's `re.sub(r'^\d+\s*-\s*', '', s)`: removes one leading
      "digits, optional spaces, dash, optional spaces" prefix if present. */
  function StripNumberDashPrefix(s: string): (r: string)
    ensures |r| <= |s|
    ensures r == s[|s| - |r|..]
  {
    var d := SpanWhile(s, IsDigit);
    if d == 0 then s
    else
      var a := d + SpanWhile(s[d..], IsSpace);
      if a < |s| && s[a] == '-' then LStrip(s[a + 1..]) else s
  }

  /** Exactly one prefix is removed: `digits spaces - spaces rest` becomes `rest`. */
  lemma StripNumberDashPrefixOf(digits: string, sp1: string, sp2: string, rest: string)
    requires digits != [] && forall k :: 0 <= k < |digits| ==> IsDigit(digits[k])
    requires forall k :: 0 <= k < |sp1| ==> IsSpace(sp1[k])
    requires forall k :: 0 <= k < |sp2| ==> IsSpace(sp2[k])
    requires rest == [] || !IsSpace(rest[0])
    ensures StripNumberDashPrefix(digits + sp1 + "-" + sp2 + rest) == rest
  {
    var tail := sp2 + rest;
    var dashed := "-" + tail;
    var afterDigits := sp1 + dashed;
    var s := digits + afterDigits;
    var d := |digits|;
    var a := d + |sp1|;
    assert digits + sp1 + "-" + sp2 + rest == s;
    assert SpanWhile(s, IsDigit) == d by {
      SpacesThenDash(sp1, tail);
      SpanWhileConcat(digits, afterDigits, IsDigit);
    }
    assert SpanWhile(s[d..], IsSpace) == |sp1| by {
      assert s[d..] == afterDigits;
      SpanWhileConcat(sp1, dashed, IsSpace);
    }
    assert s[a..] == dashed;
    assert s[a + 1..] == tail;
    assert LStrip(tail) == rest by {
      SpanWhileConcat(sp2, rest, IsSpace);
      assert tail[|sp2|..] == rest;
    }
    StripNumberDashPrefixAt(s, d, a);
  }

  /** The regex match read off positions: digits end at `d`, the dash sits at `a`. */
  lemma StripNumberDashPrefixAt(s: string, d: nat, a: nat)
    requires 0 < d <= |s| && SpanWhile(s, IsDigit) == d
    requires d <= a && SpanWhile(s[d..], IsSpace) == a - d
    requires a < |s| && s[a] == '-'
    ensures StripNumberDashPrefix(s) == LStrip(s[a + 1..])
  {
  }

  lemma SpacesThenDash(sp: string, tail: string)
    requires forall k :: 0 <= k < |sp| ==> IsSpace(sp[k])
    ensures !IsDigit((sp + ("-" + tail))[0])
  {
  }

  /** Without a leading digit there is nothing to remove. */
  lemma StripNumberDashPrefixNoDigit(s: string)
    requires s == [] || !IsDigit(s[0])
    ensures StripNumberDashPrefix(s) == s
  {
  }
}
